=== FILE: README.md ===
# Savage and Ravage: enclosure generator, crossbow goal and rune trap in Dafny

This project models four pieces of the Savage and Ravage mod for Minecraft
and proves properties of them.

- **The enclosure world-generation feature** (`EnclosureFeature`). It picks a
  clear site near the requested centre and grows a pit outwards from it
  for six to ten rounds. It then derives the outline around the pit's
  final frontier, clears drop-offs under the rim, and digs the hole columns.
  Pairs of outline cells become spruce fences, every outline cell refreshes
  its neighbours, and a griefer is placed on a cell left in the fence
  pass's working copy. The outline can list a cell more than once, and the
  code's `remove(Object)` drops only one copy of a fenced cell, so as
  written the griefer can stand on a fence (see Findings). The model
  removes every copy, as the comment at the removal intends.
- **The crossbow attack goal** (`ImprovedCrossbowGoal`). This is a four-state
  machine: uncharged, charging, charged, ready to attack. Alongside it run a
  sight counter and a random 20 to 39 tick delay between charging and
  firing.
- **The runed gloomy tile** (`RunedGloomyTilesBlock`). It is a one-shot floor
  trap that springs for players, unowned or non-raider-owned mobs and other
  living non-raiders. It then powers itself and summons a rune prison, with
  evoker fangs when they can be created.
- **The rune prison** (`RunePrisonEntity`). It counts down 25 ticks, weighs
  down the entities inside it, animates its runes in a ping-pong cycle and,
  when it is removed, turns its tile back into plain gloomy tiles. Its
  countdown and tile position survive saving and loading.

## How the model is built

- **Positions** are integer triples.
- **Lists** are `seq<Pos>` with the Java `ArrayList` semantics that matter:
  `contains` compares by value, and `remove(Object)` removes only the first
  occurrence (`Lists.RemoveFirst`).
- **The world** is read through one immutable predicate `solid` ("the block
  here is an opaque cube").
  - Everything the generator does becomes an ordered log of block writes,
    mob spawns and neighbour refreshes (`Terrain.Event`).
  - `Terrain.After` replays the writes of a log over `solid`. The fence pass
    reads the world as the drop-offs and the carving left it, as the Java
    code does.
  - `Enclosure.OutlineGroundKept` proves that the ground it reads was not
    written by any earlier phase. So the fence segments stand on ground
    that was opaque before the run began (`Enclosure.PlacedFences`).
- **Random draws** are inputs, one per call of the random source, in the
  role each plays.
  - `nextInt(n)` draws carry their bounds as preconditions
    (`Lists.Picker`, `HoleGrowth.ValidDraw`, `HoleGrowth.ValidBounds`).
  - Every `nextFloat() < p` test becomes a boolean.
- **The engine's squared distance** is an abstract function.
- **The crossbow goal** sees the engine through one `Senses` record per tick
  and answers with the commands it gives its entity, in order.

### Where the code and its intent differ

The model follows the code. For the two defects recorded under Findings
it models both the code as written and the intended behaviour, and the
enclosure run uses the intended one.

- **Site search.** The method's Javadoc (EnclosureFeature.java lines 74-77)
  promises one of the valid positions. The Java adds the same mutable
  position to its result list every time.
- **Griefer on a fence.** The comment at line 238 says fenced cells are
  removed so that the griefer does not spawn in a fence. The outline can
  hold a cell twice, and `remove(Object)` drops only the first copy.
- **Hole and frontier disjointness.** The hole list and the frontier are
  not always disjoint.
  - The membership test of the growth step consults the incoming frontier,
    not the one being built. So two cells can add the same neighbour in one
    round, and a later first-occurrence removal can leave a copy behind.
  - Disjointness is therefore proved only for a round whose incoming
    frontier has no duplicates and no holes (`HoleGrowth.ExpandKeepsDisjoint`),
    which covers the first round (`HoleGrowth.FirstRoundDisjoint`).
- **Fencing a cell twice.** The same comment calls placing a fence again
  redundant. But the fence pass never checks that the origin is still in
  its working copy, so a cell can be fenced in two segments
  (`Fences.OriginNotRechecked`).

## Model

| member | source | states |
|---|---|---|
| `Positions.NeighboursAreAdjacent` | src/main/java/com/minecraftabnormals/savageandravage/common/generation/EnclosureFeature.java:129-130 | The four cells the neighbour scan visits are exactly the cells one horizontal step away. |
| `Positions.RingIsMooreNeighbourhood` | src/main/java/com/minecraftabnormals/savageandravage/common/generation/EnclosureFeature.java:172-181 | The eight cells visited around an edge cell (an orthogonal step, then one more after a clockwise quarter turn) are exactly the eight horizontal neighbours on the same level. |
| `Positions.AdjacentSymmetric` | src/main/java/com/minecraftabnormals/savageandravage/common/generation/EnclosureFeature.java:233-237 | Fence partners are adjacent both ways: if `q` is one step from `p`, `p` is one step from `q`. |
| `Lists.RemoveFirstCount` | src/main/java/com/minecraftabnormals/savageandravage/common/generation/EnclosureFeature.java:146 | `ArrayList.remove(Object)` takes away exactly one copy of the element when there is one and changes nothing else. |
| `Lists.RemoveAllCounts` | src/main/java/com/minecraftabnormals/savageandravage/common/generation/EnclosureFeature.java:238-240 | Removing every copy of `x`, the intended removal of fenced cells, keeps every other element with its multiplicity and leaves no `x`; without `x` the list is unchanged. |
| `Lists.RemovalsAgree` | src/main/java/com/minecraftabnormals/savageandravage/common/generation/EnclosureFeature.java:239-240 | On a list without duplicates, removing the first copy and removing every copy agree, and the result has no duplicates. |
| `Lists.RemoveFirstCons` | src/main/java/com/minecraftabnormals/savageandravage/common/generation/EnclosureFeature.java:239-240 | `remove(Object)` skips a head that is not the element removed. |
| `Lists.NoDupCons` | src/main/java/com/minecraftabnormals/savageandravage/common/generation/EnclosureFeature.java:239-240 | A new head absent from a list without duplicates keeps it without duplicates. |
| `Lists.NoDupCount` | src/main/java/com/minecraftabnormals/savageandravage/common/generation/EnclosureFeature.java:122 | A list without duplicates holds every value at most once. |
| `Terrain.AfterUntouched` | src/main/java/com/minecraftabnormals/savageandravage/common/generation/EnclosureFeature.java:235 | A cell that no write of the run touches still reads as it did before the run. |
| `Terrain.AfterLastWrite` | src/main/java/com/minecraftabnormals/savageandravage/common/generation/EnclosureFeature.java:198-206 | A written cell reads as opaque exactly when the last block written there is an opaque cube. |
| `SiteSearch.PitFloor` | src/main/java/com/minecraftabnormals/savageandravage/common/generation/EnclosureFeature.java:39 | The pit floor lies four or five blocks below the surface, and at least two below it. |
| `SiteSearch.ScanWindow` | src/main/java/com/minecraftabnormals/savageandravage/common/generation/EnclosureFeature.java:81-102 | The scan finds no clear candidate exactly when none of the candidates it visits is clear; the reused position ends where the last candidate's check left it. |
| `SiteSearch.ScanRow` | src/main/java/com/minecraftabnormals/savageandravage/common/generation/EnclosureFeature.java:82-102 | The same for the candidates of one x value. |
| `SiteSearch.FindSuitablePositionAsWritten` | src/main/java/com/minecraftabnormals/savageandravage/common/generation/EnclosureFeature.java:78-105 | As written: no result exactly when none of the 36 candidates is clear; otherwise the last candidate `(cx+2, cy, cz+2)` when it is clear, and otherwise `(cx+6, cy+1, cz+6)`, whichever entry is drawn. |
| `SiteSearch.AliasedResultCanBeUnclear` | src/main/java/com/minecraftabnormals/savageandravage/common/generation/EnclosureFeature.java:98-104 | A concrete world in which some candidate is clear but the search as written returns a position that is not a candidate at all. |
| `SiteSearch.ClearInRow` | src/main/java/com/minecraftabnormals/savageandravage/common/generation/EnclosureFeature.java:82-101 | Lists exactly the clear candidates of one x value. |
| `SiteSearch.ClearInWindow` | src/main/java/com/minecraftabnormals/savageandravage/common/generation/EnclosureFeature.java:81-103 | Lists exactly the clear candidates of the 6 x 6 window `[cx-3, cx+2] x [cz-3, cz+2]`. |
| `SiteSearch.FindSuitablePosition` | src/main/java/com/minecraftabnormals/savageandravage/common/generation/EnclosureFeature.java:74-104 | As documented: no result exactly when no candidate is clear; otherwise a clear candidate. |
| `HoleGrowth.NewAmong` | src/main/java/com/minecraftabnormals/savageandravage/common/generation/EnclosureFeature.java:131-134 | The new cells among a list are exactly those in neither the hole list nor the incoming frontier. |
| `HoleGrowth.ScanFrom` | src/main/java/com/minecraftabnormals/savageandravage/common/generation/EnclosureFeature.java:129-141 | The scan is blocked exactly when some new neighbour fails the surface test; unblocked, it collects exactly the new neighbours in order and notes a hole neighbour exactly when there is one. |
| `HoleGrowth.NeighbourScanSpec` | src/main/java/com/minecraftabnormals/savageandravage/common/generation/EnclosureFeature.java:110-141 | For a cell's four neighbours: blocked exactly when some new neighbour is not surface clear (not opaque, opaque below); the valid list is the new neighbours; a hole neighbour is noted exactly when one is a hole. |
| `HoleGrowth.StepCell` | src/main/java/com/minecraftabnormals/savageandravage/common/generation/EnclosureFeature.java:123-159 | One frontier cell: unchanged unless its draw exceeds its squared distance; unchanged when blocked; hole-adjacent with no new neighbour, promoted and one copy removed; with new neighbours and a successful draw, promoted and exactly those neighbours added; with a failed draw unchanged; not hole-adjacent, one copy removed without promotion. |
| `HoleGrowth.StepShape` | src/main/java/com/minecraftabnormals/savageandravage/common/generation/EnclosureFeature.java:142-157 | Any step adds at most the cell itself to the hole list, only when its draw exceeded its distance, and changes the frontier only by new neighbours and one copy of the cell. |
| `HoleGrowth.ExpandPrefix` | src/main/java/com/minecraftabnormals/savageandravage/common/generation/EnclosureFeature.java:123-160 | After the first `n` cells: the hole list only grows, by incoming cells nearer than 48; the frontier holds incoming cells and their neighbours; a cell at squared distance 48 or more keeps all its copies. |
| `HoleGrowth.ExpandHole` | src/main/java/com/minecraftabnormals/savageandravage/common/generation/EnclosureFeature.java:120-162 | The same for a whole round. |
| `HoleGrowth.StepKeepsTidy` | src/main/java/com/minecraftabnormals/savageandravage/common/generation/EnclosureFeature.java:131-157 | One step keeps the round's invariant: incoming cells at most once in the frontier, no frontier cell a hole, holes gained only from incoming cells. |
| `HoleGrowth.TidyAfter` | src/main/java/com/minecraftabnormals/savageandravage/common/generation/EnclosureFeature.java:145-153 | Removing one copy of the cell and adding only new neighbours keeps that invariant. |
| `HoleGrowth.RemovalCounts` | src/main/java/com/minecraftabnormals/savageandravage/common/generation/EnclosureFeature.java:146 | Removing one copy of an incoming cell keeps every incoming cell at most once in the frontier and leaves none of the removed cell. |
| `HoleGrowth.HolesFromIncoming` | src/main/java/com/minecraftabnormals/savageandravage/common/generation/EnclosureFeature.java:145 | Promoting an incoming cell keeps the hole list's additions within the incoming frontier. |
| `HoleGrowth.TidyStart` | src/main/java/com/minecraftabnormals/savageandravage/common/generation/EnclosureFeature.java:122 | An incoming frontier without duplicates and disjoint from the holes starts the round tidy. |
| `HoleGrowth.PrefixTidy` | src/main/java/com/minecraftabnormals/savageandravage/common/generation/EnclosureFeature.java:123-160 | The invariant holds after every prefix of a round. |
| `HoleGrowth.PrefixTidyStep` | src/main/java/com/minecraftabnormals/savageandravage/common/generation/EnclosureFeature.java:123-160 | The invariant carries from one prefix to the next. |
| `HoleGrowth.ExpandKeepsDisjoint` | src/main/java/com/minecraftabnormals/savageandravage/common/generation/EnclosureFeature.java:120-162 | A round whose incoming frontier has no duplicates and no holes ends with no frontier cell in the hole list. |
| `HoleGrowth.FirstRoundDisjoint` | src/main/java/com/minecraftabnormals/savageandravage/common/generation/EnclosureFeature.java:46-51 | In particular the first round, which starts from the centre and its four neighbours, ends with frontier and hole list disjoint. |
| `HoleGrowth.RoundsFromBounds` | src/main/java/com/minecraftabnormals/savageandravage/common/generation/EnclosureFeature.java:50 | Once the loop counter reaches `i`, at most `10 - i` and at least `6 - i` more rounds run. |
| `HoleGrowth.RoundCount` | src/main/java/com/minecraftabnormals/savageandravage/common/generation/EnclosureFeature.java:50-52 | Because the bound is drawn afresh at every test, the growth loop runs between six and ten rounds. |
| `HoleGrowth.LevelKept` | src/main/java/com/minecraftabnormals/savageandravage/common/generation/EnclosureFeature.java:129-134 | A round keeps every hole and frontier cell on the level the round started on. |
| `HoleGrowth.Grow` | src/main/java/com/minecraftabnormals/savageandravage/common/generation/EnclosureFeature.java:50-52 | Over the rounds the hole list only grows, every addition is nearer than 48, and every cell stays on its level. |
| `Outline.RingMembers` | src/main/java/com/minecraftabnormals/savageandravage/common/generation/EnclosureFeature.java:172-181 | A cell is visited around an edge cell exactly when it lies in that cell's ring. |
| `Outline.Unclaimed` | src/main/java/com/minecraftabnormals/savageandravage/common/generation/EnclosureFeature.java:174-179 | Keeps exactly the visited cells that are neither edge nor hole cells. |
| `Outline.ProcessPrefix` | src/main/java/com/minecraftabnormals/savageandravage/common/generation/EnclosureFeature.java:170-186 | After the first `n` edge cells, the outline holds exactly the unclaimed ring cells of those cells, and the writes clear exactly the cells below those whose drop-off draw succeeded. |
| `Outline.OutlineStep` | src/main/java/com/minecraftabnormals/savageandravage/common/generation/EnclosureFeature.java:172-181 | Adding the unclaimed ring of the next edge cell extends the outline to that cell. |
| `Outline.DropStep` | src/main/java/com/minecraftabnormals/savageandravage/common/generation/EnclosureFeature.java:182-184 | Adding the next drop-off extends the writes to that cell. |
| `Outline.ProcessEdges` | src/main/java/com/minecraftabnormals/savageandravage/common/generation/EnclosureFeature.java:167-188 | Every outline cell is a ring cell of some edge cell and neither an edge nor a hole cell, and every such cell is in the outline; the only writes are air below edge cells whose draw succeeded, and each of those happens. |
| `Outline.WholeOutline` | src/main/java/com/minecraftabnormals/savageandravage/common/generation/EnclosureFeature.java:170-181 | The outline of all edge cells, in explicit form. |
| `Outline.WholeDrops` | src/main/java/com/minecraftabnormals/savageandravage/common/generation/EnclosureFeature.java:182-184 | The drop-offs of all edge cells, in explicit form. |
| `Carving.ColumnFrom` | src/main/java/com/minecraftabnormals/savageandravage/common/generation/EnclosureFeature.java:198-207 | A column's writes lie in that column from the given level up to, not including, the hole cell's level, each with the block its level calls for, and every such level is written. |
| `Carving.CarvePrefix` | src/main/java/com/minecraftabnormals/savageandravage/common/generation/EnclosureFeature.java:194-219 | For the first `n` hole cells: coarse dirt at the floor, grass, dead bush or air one above, air higher up, only inside hole columns below the hole level, every such level written; mobs stand on the floor of a column whose spawn draw succeeded, and a creepie attacks players only. |
| `Carving.GenerateHole` | src/main/java/com/minecraftabnormals/savageandravage/common/generation/EnclosureFeature.java:193-220 | The same for every hole cell. |
| `Fences.FirstPartner` | src/main/java/com/minecraftabnormals/savageandravage/common/generation/EnclosureFeature.java:233-243 | The first neighbour in scan order that is still in the working copy with opaque ground below, or nothing exactly when there is none. |
| `Fences.NoPartnerAnywhere` | src/main/java/com/minecraftabnormals/savageandravage/common/generation/EnclosureFeature.java:233-243 | When the scan finds nothing, no neighbour at all can be paired. |
| `Fences.FenceStep` | src/main/java/com/minecraftabnormals/savageandravage/common/generation/EnclosureFeature.java:232-244 | One origin: nothing without a successful draw or a pairable neighbour; with both, the origin is paired with the first pairable neighbour in scan order, both cells are removed from the working copy (one copy or every copy, by the removal mode), and the segment is appended; segments are only ever appended. |
| `Fences.FencePrefix` | src/main/java/com/minecraftabnormals/savageandravage/common/generation/EnclosureFeature.java:230-245 | After the first `n` origins the working copy holds only outline cells; every segment pairs adjacent outline cells with opaque ground under the partner; with no successful draw nothing changes. |
| `Fences.PrefixAccounts` | src/main/java/com/minecraftabnormals/savageandravage/common/generation/EnclosureFeature.java:228-245 | After the first `n` origins, the working copy together with one copy of every partner fits in the outline list: the pass only removes. |
| `Fences.StepAccounts` | src/main/java/com/minecraftabnormals/savageandravage/common/generation/EnclosureFeature.java:236-240 | One origin keeps that accounting. |
| `Fences.Accounting` | src/main/java/com/minecraftabnormals/savageandravage/common/generation/EnclosureFeature.java:239-240 | Removing a partner from the working copy while recording it keeps the accounting within the outline. |
| `Fences.SegmentsAppend` | src/main/java/com/minecraftabnormals/savageandravage/common/generation/EnclosureFeature.java:236-237 | A new segment between adjacent outline cells keeps every segment well formed. |
| `Fences.PartnersAppend` | src/main/java/com/minecraftabnormals/savageandravage/common/generation/EnclosureFeature.java:237 | Recording a segment appends its partner. |
| `Fences.TakeCounts` | src/main/java/com/minecraftabnormals/savageandravage/common/generation/EnclosureFeature.java:239-240 | A removal adds nothing, leaves every other cell's copies alone, takes at least one copy of the cell, and all of them when every copy is removed. |
| `Fences.TakeWithin` | src/main/java/com/minecraftabnormals/savageandravage/common/generation/EnclosureFeature.java:239-240 | A removal keeps only cells that were in the working copy. |
| `Fences.TakeBoth` | src/main/java/com/minecraftabnormals/savageandravage/common/generation/EnclosureFeature.java:239-240 | Removing the origin and then the partner takes at least one copy of the partner out of the working copy. |
| `Fences.StepSegments` | src/main/java/com/minecraftabnormals/savageandravage/common/generation/EnclosureFeature.java:232-243 | One origin keeps the working copy inside the outline and every segment on adjacent outline cells with opaque ground under the partner. |
| `Fences.PrefixCovers` | src/main/java/com/minecraftabnormals/savageandravage/common/generation/EnclosureFeature.java:228-245 | After every prefix, each outline cell that left the working copy stands in a segment; removing every copy, no cell of a segment is left in the working copy. |
| `Fences.StepCovers` | src/main/java/com/minecraftabnormals/savageandravage/common/generation/EnclosureFeature.java:236-240 | One origin keeps both facts. |
| `Fences.StepCovered` | src/main/java/com/minecraftabnormals/savageandravage/common/generation/EnclosureFeature.java:236-240 | A pairing step keeps every cell that left the working copy fenced. |
| `Fences.StillFenced` | src/main/java/com/minecraftabnormals/savageandravage/common/generation/EnclosureFeature.java:236-237 | After a segment is appended, its two cells and every cell fenced before are fenced. |
| `Fences.StepCleared` | src/main/java/com/minecraftabnormals/savageandravage/common/generation/EnclosureFeature.java:236-240 | A pairing step that removes every copy keeps all fenced cells out of the working copy. |
| `Fences.GenerateFences` | src/main/java/com/minecraftabnormals/savageandravage/common/generation/EnclosureFeature.java:226-248 | Only removals: what remains, with one copy of each partner, fits in the outline; each segment pairs an outline origin with an adjacent outline cell that has opaque ground below; with no successful draw the outline comes back unchanged. |
| `Fences.FenceWrites` | src/main/java/com/minecraftabnormals/savageandravage/common/generation/EnclosureFeature.java:236-237 | Two spruce fence writes per segment and nothing else. |
| `Fences.FenceWritesCells` | src/main/java/com/minecraftabnormals/savageandravage/common/generation/EnclosureFeature.java:236-237 | The fence writes go exactly to the cells of the segments. |
| `Fences.FenceSymmetry` | src/main/java/com/minecraftabnormals/savageandravage/common/generation/EnclosureFeature.java:232-243 | No fence stands alone, in either removal mode: every fence written has another fence written next to it. |
| `Fences.OriginNotRechecked` | src/main/java/com/minecraftabnormals/savageandravage/common/generation/EnclosureFeature.java:230-241 | Because the origin is never checked against the working copy, three cells in a row on ground opaque exactly below level 0, with every draw succeeding, give two segments sharing the middle cell, in either removal mode. |
| `Fences.FirstOfRow` | src/main/java/com/minecraftabnormals/savageandravage/common/generation/EnclosureFeature.java:232-242 | The first origin of that row pairs with its eastern neighbour. |
| `Fences.SecondOfRow` | src/main/java/com/minecraftabnormals/savageandravage/common/generation/EnclosureFeature.java:232-242 | The middle cell, already fenced, still pairs with the third. |
| `Fences.RunOfThree` | src/main/java/com/minecraftabnormals/savageandravage/common/generation/EnclosureFeature.java:230-245 | Three steps in a row make up the whole pass over three cells. |
| `Fences.EastPartner` | src/main/java/com/minecraftabnormals/savageandravage/common/generation/EnclosureFeature.java:233-242 | With no northern candidate, the eastern neighbour is the first partner. |
| `Fences.PairedAt` | src/main/java/com/minecraftabnormals/savageandravage/common/generation/EnclosureFeature.java:232-241 | An origin whose draw succeeds with a pairable neighbour gets the segment with its first such neighbour at its own step. |
| `Fences.PairKept` | src/main/java/com/minecraftabnormals/savageandravage/common/generation/EnclosureFeature.java:237 | A segment in one prefix is in the next. |
| `Fences.PairStays` | src/main/java/com/minecraftabnormals/savageandravage/common/generation/EnclosureFeature.java:230-245 | A segment, once made, is in every later prefix. |
| `Fences.PairedInPrefix` | src/main/java/com/minecraftabnormals/savageandravage/common/generation/EnclosureFeature.java:230-245 | An origin whose draw succeeds while it has a pairable neighbour has the segment with its first such neighbour in the prefix over the whole outline. |
| `Fences.InPass` | src/main/java/com/minecraftabnormals/savageandravage/common/generation/EnclosureFeature.java:226-248 | A segment of the prefix over the whole outline is a segment of the pass. |
| `Fences.DrawnPaired` | src/main/java/com/minecraftabnormals/savageandravage/common/generation/EnclosureFeature.java:230-245 | Every origin whose draw succeeds while it still has a pairable neighbour ends up in a segment with the first such neighbour. |
| `Fences.FreeIffUnfenced` | src/main/java/com/minecraftabnormals/savageandravage/common/generation/EnclosureFeature.java:226-248 | Removing every copy, the returned list holds only outline cells, and an outline cell is in it exactly when it stands in no segment. |
| `Fences.FencedCellStaysFree` | src/main/java/com/minecraftabnormals/savageandravage/common/generation/EnclosureFeature.java:236-240 | With `a` listed twice, `b` east of it on solid ground and only the first draw succeeding, first-copy removal fences `a` with `b` yet returns `[a]`; removing every copy returns nothing. |
| `Fences.DoubledFirstStep` | src/main/java/com/minecraftabnormals/savageandravage/common/generation/EnclosureFeature.java:232-241 | The first step over `[a, b, a]` pairs `a` with `b` and leaves `[a]` or nothing, by the removal mode. |
| `Fences.TakeDoubled` | src/main/java/com/minecraftabnormals/savageandravage/common/generation/EnclosureFeature.java:239-240 | Removing `a` then `b` from `[a, b, a]` leaves `[a]` with first-copy removal and nothing with every-copy removal. |
| `Fences.OneDrawOfThree` | src/main/java/com/minecraftabnormals/savageandravage/common/generation/EnclosureFeature.java:230-245 | With only the first of three draws succeeding, the first step is the whole pass. |
| `Fences.LastOfRow` | src/main/java/com/minecraftabnormals/savageandravage/common/generation/EnclosureFeature.java:232-244 | An origin that finds the working copy empty changes nothing. |
| `Fences.TakeHeadPair` | src/main/java/com/minecraftabnormals/savageandravage/common/generation/EnclosureFeature.java:239-240 | Removing the first two of three distinct cells leaves the third, in either removal mode. |
| `Fences.TakeLastPair` | src/main/java/com/minecraftabnormals/savageandravage/common/generation/EnclosureFeature.java:239-240 | Removing an absent cell and then the only one leaves nothing. |
| `Fences.RemovalsAgreeOnStep` | src/main/java/com/minecraftabnormals/savageandravage/common/generation/EnclosureFeature.java:239-240 | Over a working copy without duplicates, both removal modes give the same step and keep the copy without duplicates. |
| `Fences.RemovalsAgreeOnPrefix` | src/main/java/com/minecraftabnormals/savageandravage/common/generation/EnclosureFeature.java:228-245 | On an outline without duplicates both removal modes give the same prefix, whose working copy has no duplicates. |
| `Fences.RemovalsAgreeOnOutline` | src/main/java/com/minecraftabnormals/savageandravage/common/generation/EnclosureFeature.java:226-248 | On an outline without duplicates both removal modes give the same pass: the defect shows only on cells listed twice. |
| `Enclosure.GrowFrom` | src/main/java/com/minecraftabnormals/savageandravage/common/generation/EnclosureFeature.java:43-52 | Growth from the chosen site keeps the site as the first hole, only adds holes nearer than 48, and keeps every cell on the site's level. |
| `Enclosure.Griefer` | src/main/java/com/minecraftabnormals/savageandravage/common/generation/EnclosureFeature.java:61-67 | No griefer exactly when the fence pass's returned list is empty; otherwise exactly one, on a cell of that list. |
| `Enclosure.Build` | src/main/java/com/minecraftabnormals/savageandravage/common/generation/EnclosureFeature.java:43-67 | Everything after site selection places a pit at the chosen site with the chosen floor. |
| `Enclosure.Generate` | src/main/java/com/minecraftabnormals/savageandravage/common/generation/EnclosureFeature.java:37-71 | Nothing happens exactly when none of the 36 candidates is clear; otherwise the floor lies four or five blocks down, below a clear candidate. |
| `Enclosure.PlacedShape` | src/main/java/com/minecraftabnormals/savageandravage/common/generation/EnclosureFeature.java:43-57 | A placed pit grew for six to ten rounds, keeps the site as its first hole with every other hole nearer than 48, lies on the surface level, and its outline cells are unclaimed ring cells of edge cells. |
| `Enclosure.OutlineLevel` | src/main/java/com/minecraftabnormals/savageandravage/common/generation/EnclosureFeature.java:172-181 | Outline cells lie on the level of the edge cells they surround. |
| `Enclosure.PlacedWrites` | src/main/java/com/minecraftabnormals/savageandravage/common/generation/EnclosureFeature.java:54-60 | Every block write of a placed run is air below an edge cell, a layer of a hole column, or a fence on an outline cell. |
| `Enclosure.BuildWrites` | src/main/java/com/minecraftabnormals/savageandravage/common/generation/EnclosureFeature.java:54-57 | The same after site selection. |
| `Enclosure.StageWrites` | src/main/java/com/minecraftabnormals/savageandravage/common/generation/EnclosureFeature.java:54-57 | The same over the three writing phases. |
| `Enclosure.FenceWritesIn` | src/main/java/com/minecraftabnormals/savageandravage/common/generation/EnclosureFeature.java:236-237 | Fence writes go to outline cells. |
| `Enclosure.LogWrites` | src/main/java/com/minecraftabnormals/savageandravage/common/generation/EnclosureFeature.java:54-66 | The same over the whole log, whose refresh and griefer parts write no blocks. |
| `Enclosure.GroundSparesBelow` | src/main/java/com/minecraftabnormals/savageandravage/common/generation/EnclosureFeature.java:182-207 | Neither the drop-offs nor the carving write below an outline cell. |
| `Enclosure.OutlineGroundKept` | src/main/java/com/minecraftabnormals/savageandravage/common/generation/EnclosureFeature.java:235 | The ground below an outline cell reads the same after drop-offs and carving as before the run. |
| `Enclosure.PlacedFences` | src/main/java/com/minecraftabnormals/savageandravage/common/generation/EnclosureFeature.java:226-248 | A placed run's fence segments come from the outline, pair adjacent cells, and stand on ground that was opaque before the run; with no successful fence draw the whole outline stays free. |
| `Enclosure.BuildFences` | src/main/java/com/minecraftabnormals/savageandravage/common/generation/EnclosureFeature.java:54-57 | The same after site selection. |
| `Enclosure.StageFences` | src/main/java/com/minecraftabnormals/savageandravage/common/generation/EnclosureFeature.java:228-245 | The same for the fence pass after the ground phases. |
| `Enclosure.PlacedGriefer` | src/main/java/com/minecraftabnormals/savageandravage/common/generation/EnclosureFeature.java:61-67 | With every copy of a fenced cell removed, the griefer is the last event and the only one of its kind, stands on an outline cell that is in no fence segment, and is there exactly when some outline cell is in no segment. |
| `Enclosure.BuildGriefer` | src/main/java/com/minecraftabnormals/savageandravage/common/generation/EnclosureFeature.java:54-67 | The same after site selection. |
| `Enclosure.BuildGrieferLast` | src/main/java/com/minecraftabnormals/savageandravage/common/generation/EnclosureFeature.java:58-67 | After site selection the griefer is the last event, the only one of its kind, on a cell of the returned list, and there exactly when that list is not empty. |
| `Enclosure.StageGriefer` | src/main/java/com/minecraftabnormals/savageandravage/common/generation/EnclosureFeature.java:54-67 | For any edge and hole lists and fence segments, the griefer is the last event of the log, the only one of its kind, on a cell of the returned list, and there exactly when that list is not empty. |
| `Enclosure.BuildFree` | src/main/java/com/minecraftabnormals/savageandravage/common/generation/EnclosureFeature.java:54-57 | After site selection the returned list holds exactly the outline cells in no segment. |
| `Enclosure.GrieferSpot` | src/main/java/com/minecraftabnormals/savageandravage/common/generation/EnclosureFeature.java:61-67 | A griefer placed last on a list of exactly the unfenced outline cells stands on an outline cell in no segment, and is there exactly when such a cell exists. |
| `Enclosure.GrieferOnFence` | src/main/java/com/minecraftabnormals/savageandravage/common/generation/EnclosureFeature.java:236-240 | As written, on the outline `[a, b, a]` with only the first fence draw succeeding, the griefer is put on `a`, which is fenced; removing every copy puts no griefer there. |
| `Enclosure.LogGriefer` | src/main/java/com/minecraftabnormals/savageandravage/common/generation/EnclosureFeature.java:58-67 | The same over the parts of the log. |
| `CrossbowGoal.InitialInv` | src/main/java/com/minecraftabnormals/savageandravage/common/entity/goals/ImprovedCrossbowGoal.java:25-29 | A new goal is uncharged with no delay and no sight count, and satisfies the invariant. |
| `CrossbowGoal.Transition` | src/main/java/com/minecraftabnormals/savageandravage/common/entity/goals/ImprovedCrossbowGoal.java:106-136 | Uncharged starts charging exactly when the target is seen and the stack is not charged; charging completes to charged with a 20 to 39 tick delay, which wins over the fallback to uncharged when the item is no longer used; charged counts down and is ready exactly at zero; ready fires exactly when the target is seen and starts over; the delay invariant is kept. |
| `CrossbowGoal.Navigate` | src/main/java/com/minecraftabnormals/savageandravage/common/entity/goals/ImprovedCrossbowGoal.java:98-103 | Moves towards the target exactly when asked, at full speed while uncharged and at half speed in every other state, and stops otherwise. |
| `CrossbowGoal.BackUp` | src/main/java/com/minecraftabnormals/savageandravage/common/entity/goals/ImprovedCrossbowGoal.java:92-96 | Backing away only turns and strafes. |
| `CrossbowGoal.OrdersMove` | src/main/java/com/minecraftabnormals/savageandravage/common/entity/goals/ImprovedCrossbowGoal.java:92-136 | Only the navigation order of a tick moves the entity, and a shot appears exactly when the state machine fires. |
| `CrossbowGoal.Tick` | src/main/java/com/minecraftabnormals/savageandravage/common/entity/goals/ImprovedCrossbowGoal.java:77-137 | Without a target nothing but the aggression flag changes; the sight counter counts consecutive ticks in sight; the goal approaches exactly when far or seen for under five ticks and no delay is pending, then at full speed exactly while uncharged and at half speed otherwise, with no other move in the tick; the crossbow state and the delay follow the state machine; it fires only when ready and in sight; the invariant is kept. |
| `CrossbowGoal.Stop` | src/main/java/com/minecraftabnormals/savageandravage/common/entity/goals/ImprovedCrossbowGoal.java:59-68 | Stopping clears the target and the sight counter, keeps the crossbow state and delay, and stops using the item exactly when it was in use. |
| `CrossbowGoal.ContinueIsCanUse` | src/main/java/com/minecraftabnormals/savageandravage/common/entity/goals/ImprovedCrossbowGoal.java:48-56 | Continuing needs exactly what starting needs, whatever the navigation state. |
| `CrossbowGoal.ApproachUnlessCharged` | src/main/java/com/minecraftabnormals/savageandravage/common/entity/goals/ImprovedCrossbowGoal.java:98-131 | Under the invariant the goal approaches exactly when far or recently out of sight, unless its crossbow is charged. |
| `CrossbowGoal.Run` | src/main/java/com/minecraftabnormals/savageandravage/common/entity/goals/ImprovedCrossbowGoal.java:77-137 | Any sequence of ticks keeps the invariant. |
| `CrossbowGoal.ChargedCountdown` | src/main/java/com/minecraftabnormals/savageandravage/common/entity/goals/ImprovedCrossbowGoal.java:127-131 | A charged crossbow becomes ready after exactly `wait` ticks with a target. |
| `CrossbowGoal.DistanceStep` | src/main/java/com/minecraftabnormals/savageandravage/common/entity/goals/ImprovedCrossbowGoal.java:106-136 | A tick brings the next shot at most one tick closer, and fires only when the shot is due. |
| `CrossbowGoal.DistanceRun` | src/main/java/com/minecraftabnormals/savageandravage/common/entity/goals/ImprovedCrossbowGoal.java:106-136 | The same over any sequence of ticks. |
| `CrossbowGoal.ShotSpacing` | src/main/java/com/minecraftabnormals/savageandravage/common/entity/goals/ImprovedCrossbowGoal.java:117-136 | Two shots are at least 23 ticks apart. |
| `RunedTiles.TriggerRules` | src/main/java/com/minecraftabnormals/savageandravage/common/block/RunedGloomyTilesBlock.java:44-56 | Non-living entities and raiders never trigger; players trigger exactly outside creative and spectator mode, before the ownable test; ownable mobs exactly when no raider owns them; anything else exactly when it is not an armour stand. |
| `RunedTiles.StepOn` | src/main/java/com/minecraftabnormals/savageandravage/common/block/RunedGloomyTilesBlock.java:27-42 | Nothing happens on a powered tile or for an entity that does not trigger it; otherwise the tile becomes powered and exactly one prison bound to the tile with 25 ticks is spawned, last, with fangs exactly when they could be created. |
| `RunedTiles.NoPrison` | src/main/java/com/minecraftabnormals/savageandravage/common/block/RunedGloomyTilesBlock.java:30-37 | Events without a prison spawn count no prison. |
| `RunedTiles.PrisonCountAppend` | src/main/java/com/minecraftabnormals/savageandravage/common/block/RunedGloomyTilesBlock.java:38-40 | Prison counts add up over concatenated events. |
| `RunedTiles.Steps` | src/main/java/com/minecraftabnormals/savageandravage/common/block/RunedGloomyTilesBlock.java:30-31 | A powered tile stays powered whoever steps on it. |
| `RunedTiles.OneShot` | src/main/java/com/minecraftabnormals/savageandravage/common/block/RunedGloomyTilesBlock.java:30-40 | However many entities step on the tile, at most one prison appears, exactly when the tile started unpowered and some entity triggers it, and the tile ends powered exactly then or when it already was. |
| `RunePrison.Create` | src/main/java/com/minecraftabnormals/savageandravage/common/entity/RunePrisonEntity.java:35-39 | A new prison is bound to the given tile with the given countdown, starts at frame 0 going forwards, and is not removed. |
| `RunePrison.Animate` | src/main/java/com/minecraftabnormals/savageandravage/common/entity/RunePrisonEntity.java:85-95 | One animation step moves the frame by one and keeps it in 0 to 4, backwards only on frames 1 to 4. |
| `RunePrison.AnimateN` | src/main/java/com/minecraftabnormals/savageandravage/common/entity/RunePrisonEntity.java:84-96 | Any number of steps keeps the frame in 0 to 4. |
| `RunePrison.AnimateFramesAt` | src/main/java/com/minecraftabnormals/savageandravage/common/entity/RunePrisonEntity.java:85-95 | One step moves along the cycle 0, 1, 2, 3, 4, 3, 2, 1. |
| `RunePrison.PeriodStep` | src/main/java/com/minecraftabnormals/savageandravage/common/entity/RunePrisonEntity.java:85-95 | From a state on the cycle, `j` steps move `j` places along it. |
| `RunePrison.PingPong` | src/main/java/com/minecraftabnormals/savageandravage/common/entity/RunePrisonEntity.java:84-96 | From the start, the frames follow the cycle 0, 1, 2, 3, 4, 3, 2, 1, 0, ... |
| `RunePrison.Period` | src/main/java/com/minecraftabnormals/savageandravage/common/entity/RunePrisonEntity.java:85-95 | Every reachable animation state returns after eight steps. |
| `RunePrison.Weights` | src/main/java/com/minecraftabnormals/savageandravage/common/entity/RunePrisonEntity.java:102-107 | Weight for 20 ticks at amplifier 2 goes exactly to the victims that potions affect and the tile would trigger for. |
| `RunePrison.Tick` | src/main/java/com/minecraftabnormals/savageandravage/common/entity/RunePrisonEntity.java:81-119 | The countdown drops by one while positive and otherwise stays; the runes move exactly on client ticks whose countdown is a multiple of five; removal happens exactly when the countdown reads zero after the tick, and then resets the bound tile exactly when it is still runed; victims are weighed as above. |
| `RunePrison.Run` | src/main/java/com/minecraftabnormals/savageandravage/common/entity/RunePrisonEntity.java:81-119 | Any sequence of ticks keeps the frame invariant and the bound tile; once removed, the prison is out of the world and later ticks leave it unchanged. |
| `RunePrison.Countdown` | src/main/java/com/minecraftabnormals/savageandravage/common/entity/RunePrisonEntity.java:98-100 | A prison with `t` ticks left is still there after fewer than `t` ticks, its countdown down by one per tick. |
| `RunePrison.NegativeNeverRemoved` | src/main/java/com/minecraftabnormals/savageandravage/common/entity/RunePrisonEntity.java:98-110 | A negative countdown, as loaded data may hold, never changes and the prison is never removed. |
| `RunePrison.TrapPrisonLifetime` | src/main/java/com/minecraftabnormals/savageandravage/common/entity/RunePrisonEntity.java:98-118 | The prison a trap spawns is there for 24 ticks and removed on the 25th, which restores the tile exactly when it is still runed. |
| `RunePrison.Save` | src/main/java/com/minecraftabnormals/savageandravage/common/entity/RunePrisonEntity.java:56-61 | The countdown is always written; the tile position only when there is one; every other entry is kept and nothing else added. |
| `RunePrison.Load` | src/main/java/com/minecraftabnormals/savageandravage/common/entity/RunePrisonEntity.java:48-53 | The countdown is read, missing as 0; a stored tile position replaces the current one and a missing one leaves it. |
| `RunePrison.SaveLoad` | src/main/java/com/minecraftabnormals/savageandravage/common/entity/RunePrisonEntity.java:42-61 | Saving into a compound with no stale position and loading into a fresh prison restores the countdown and the tile. |
| `RunePrison.LoadSave` | src/main/java/com/minecraftabnormals/savageandravage/common/entity/RunePrisonEntity.java:48-61 | Saving what was loaded from a well-formed compound gives back the same compound. |

## Left out

- Decorations (`getDecorationStarts`, `generateDecorations`, EnclosureFeature.java lines 254-406): their only call is commented out, so they never run.
- The debug wool markers: a constant `false` flag switches them off.
- Probabilities and floating point: every `nextFloat()` threshold, including `1 / (valid + 1)` at line 150, is a boolean draw. The engine's `distanceSq` is an abstract function to `real`. The crossbow distances (back-up distance, attack radius) are booleans.
- The order of draws on the single random stream: each draw is an independent input, tagged by its role and position, so reproducibility from one seed is not modelled.
- Entity creation never fails for the generator (a griefer, creeper or creepie is always created). For the runed tile, whether the evoker fangs could be created is an input to `RunedTiles.StepOn`. `onInitialSpawn`, difficulty lookups and the placement angles are left out. Spawns appear only as log events.
- `updateNeighbours`: the fence-connection pass is one `UpdateNeighbours` event per outline cell, and what it does to the world is not modelled.
- In the crossbow goal, strafing, look control, path-node walkability and `performRangedAttack` appear only as commands. `CrossbowItem.setCharged` on the held stack is a `Shoot` command, and the next tick's `stackCharged` sense is an input.
- The synched entity data, `NBTUtil`'s position encoding and network packets: the saved compound is a map from key to tag, and a block position is one tag.
- Bounding-box entity queries: the prison's victims are an input list.
- `RunedGloomyTilesBlock.stepOn` first calls its superclass `ChiseledGloomyTilesBlock` (line 28), which is not part of this model. Whatever that call does to the tile, such as clearing `POWERED`, is left out, so `RunedTiles.StepOn` leaves the flag as it is when it does not trigger.
- The rune prison's frame and direction are not saved, as in the source; `RunePrison.Load` keeps whatever the prison held.
- SRFeatures.java, SRTriggers.java and LivingEntityAccessor.java: registry and advancement wiring and a mixin accessor, with no logic to model.
- CrossbowGoal.Tick: `seeTime` is an unbounded natural number, so the 32-bit overflow after about two billion ticks in sight is not modelled.
- RunePrison.SaveLoad: requires a compound without a stale tile position, because the engine saves into a fresh compound. With a stale position, the load would restore that position for a prison that has none.
- HoleGrowth.ExpandKeepsDisjoint: states disjointness only under the no-duplicates hypothesis, because the source does not guarantee it in general (see above).
- Enclosure.PlacedShape: does not claim that the pit leaves no single-block pillars. It is not proved.
- Enclosure.Generate: states the outcome as documented (a clear candidate) and uses `SiteSearch.FindSuitablePosition`, not the aliased search of the source (see Findings). Its fence pass removes every copy of a fenced cell, not only the first (see Findings).
- RunePrison.Load: reads the countdown only from an integer tag. A byte, short or long tag under that key reads as 0, while the engine's `getInt` would convert it; the model's compound has no such tags.

## Findings

| source | as written | input that shows it | evidently intended | confidence | as-written member | corrected member |
|---|---|---|---|---|---|---|
| src/main/java/com/minecraftabnormals/savageandravage/common/generation/EnclosureFeature.java:98-104 | Every clear candidate adds the same mutable `pos` to the result list, and the scan keeps overwriting it. So the returned position is wherever `pos` was left: `(cx+2, cy, cz+2)` if the last candidate is clear, and otherwise `(cx+6, cy+1, cz+6)`. | On ground solid exactly below y = 0 except for the column x = 6, with centre (0, 0, 0) and floor -4: candidate (-3, 0, -3) is clear, but the search returns (6, 1, 6). That is not a candidate, and it lies above the surface. | One of the clear candidates, drawn uniformly (the method's own documentation) | not executed | `SiteSearch.FindSuitablePositionAsWritten`, `SiteSearch.AliasedResultCanBeUnclear` | `SiteSearch.FindSuitablePosition` |
| src/main/java/com/minecraftabnormals/savageandravage/common/generation/EnclosureFeature.java:236-241 | `remove(Object)` drops only the first copy of the origin and of the partner. But `processEdges` (lines 172-179) adds a ring cell once for every edge cell around it, so the outline can list a cell twice. A fenced cell can then stay in the returned list, and the griefer can be put on a fence. | Outline `[a, b, a]` with `a = (0, 0, 0)`, `b = (1, 0, 0)`, solid ground below and fence draws `[true, false, false]`: `a` and `b` become fences, the returned list is `[a]`, and the griefer spawns on the fence at `a`. | Every fenced cell leaves the returned list, so the griefer never spawns in a fence (the comment at line 238). | high, not executed | `Fences.FencedCellStaysFree`, `Enclosure.GrieferOnFence` | `Fences.FreeIffUnfenced`, `Enclosure.PlacedGriefer` |

=== FILE: carving.dfy ===
/** Carving the pit into the ground.

    Every hole cell sits on the surface level (the air block just above the
    ground). Its column is rewritten from the pit floor `minY` up to, but not
    including, the hole cell's own level: coarse dirt at the floor, grass, a
    dead bush or air one above, and air higher up. A column may also get a
    creeper or a creepie standing on the floor. */
module Carving {
  import opened Positions
  import opened Terrain

  /** The draws one hole column uses: `cover` is `nextFloat() < 0.4`,
      `grass` is `nextFloat() > 0.3`, `spawn` is `nextFloat() < 0.3` and
      `creeper` is `nextFloat() < 0.5`. */
  datatype CarveDraw = CarveDraw(cover: bool, grass: bool, spawn: bool, creeper: bool)

  /** The block written at level `y` of a column with floor `minY`. */
  function LayerBlock(y: int, minY: int, c: CarveDraw): Block {
    if y == minY then CoarseDirt
    else if y == minY + 1 then (if c.cover then (if c.grass then Grass else DeadBush) else Air)
    else Air
  }

  /** `p` lies in the carved part of the column under hole cell `h`. */
  predicate InColumn(p: Pos, h: Pos, minY: int) {
    p.x == h.x && p.z == h.z && minY <= p.y < h.y
  }

  /** Which blocks may appear at which level: coarse dirt at the floor, grass,
      a dead bush or air one above, air everywhere higher. */
  predicate LayerRule(ev: Event, minY: int)
    requires ev.SetBlock?
  {
    && (ev.at.y == minY ==> ev.block == CoarseDirt)
    && (ev.at.y == minY + 1 ==> ev.block in {Grass, DeadBush, Air})
    && (ev.at.y >= minY + 2 ==> ev.block == Air)
  }

  /** The writes for the column under `h` from level `y` upwards. */
  function ColumnFrom(h: Pos, y: int, minY: int, c: CarveDraw): (r: seq<Event>)
    requires minY <= y
    ensures forall ev :: ev in r ==>
      ev.SetBlock? && ev.at.x == h.x && ev.at.z == h.z && y <= ev.at.y < h.y &&
      ev.block == LayerBlock(ev.at.y, minY, c)
    ensures forall y' :: y <= y' < h.y ==> SetBlock(Pos(h.x, y', h.z), LayerBlock(y', minY, c)) in r
    decreases h.y - y
  {
    if y >= h.y then []
    else [SetBlock(Pos(h.x, y, h.z), LayerBlock(y, minY, c))] + ColumnFrom(h, y + 1, minY, c)
  }

  /** The mob spawned in the column under `h`, if any. The creepie is told to
      attack players only. */
  function ColumnSpawn(h: Pos, minY: int, c: CarveDraw): seq<Event> {
    if !c.spawn then []
    else if c.creeper then [SpawnCreeper(Pos(h.x, minY + 1, h.z))]
    else [SpawnCreepie(Pos(h.x, minY + 1, h.z), true)]
  }

  /** Carving the columns of the first `n` hole cells, in order. */
  function CarvePrefix(holes: seq<Pos>, minY: int, carve: seq<CarveDraw>, n: nat): (r: seq<Event>)
    requires n <= |holes| == |carve|
    ensures forall ev :: ev in r && ev.SetBlock? ==>
      LayerRule(ev, minY) && exists k :: 0 <= k < n && InColumn(ev.at, holes[k], minY)
    ensures forall k, y :: 0 <= k < n && minY <= y < holes[k].y ==>
      SetBlock(Pos(holes[k].x, y, holes[k].z), LayerBlock(y, minY, carve[k])) in r
    ensures forall ev :: ev in r && !ev.SetBlock? ==>
      (ev.SpawnCreeper? || (ev.SpawnCreepie? && ev.attackPlayersOnly)) &&
      exists k :: 0 <= k < n && carve[k].spawn && ev.at == Pos(holes[k].x, minY + 1, holes[k].z)
  {
    if n == 0 then []
    else
      var prev := CarvePrefix(holes, minY, carve, n - 1);
      var h := holes[n - 1];
      prev + ColumnFrom(h, minY, minY, carve[n - 1]) + ColumnSpawn(h, minY, carve[n - 1])
  }

  /** Carving every hole column. */
  function GenerateHole(holes: seq<Pos>, minY: int, carve: seq<CarveDraw>): (r: seq<Event>)
    requires |holes| == |carve|
    // every write lies in a hole column, between the floor and the hole cell
    // (exclusive), with the material its level calls for
    ensures forall ev :: ev in r && ev.SetBlock? ==>
      LayerRule(ev, minY) && exists k :: 0 <= k < |holes| && InColumn(ev.at, holes[k], minY)
    // and every level of every hole column is written
    ensures forall k, y :: 0 <= k < |holes| && minY <= y < holes[k].y ==>
      SetBlock(Pos(holes[k].x, y, holes[k].z), LayerBlock(y, minY, carve[k])) in r
    // mobs stand on the floor of a column whose spawn draw succeeded
    ensures forall ev :: ev in r && !ev.SetBlock? ==>
      (ev.SpawnCreeper? || (ev.SpawnCreepie? && ev.attackPlayersOnly)) &&
      exists k :: 0 <= k < |holes| && carve[k].spawn && ev.at == Pos(holes[k].x, minY + 1, holes[k].z)
  {
    CarvePrefix(holes, minY, carve, |holes|)
  }
}

=== FILE: crossbow_goal.dfy ===
/** The ranged-attack behaviour of crossbow users: a four-state machine that
    charges the crossbow while the target is in sight, waits a random 20 to
    39 ticks once it is charged, and fires when the target is visible again.

    The engine is seen through one `Senses` value per tick; the goal answers
    with the commands it issues to its entity, in order. Distances,
    walkability and the item stacks become booleans. */
module CrossbowGoal {

  datatype CrossbowState = Uncharged | Charging | Charged | ReadyToAttack

  /** The goal's own fields. `seeTime` counts consecutive ticks with the
      target in sight; `wait` is the delay left before a charged crossbow
      may fire. */
  datatype Goal = Goal(state: CrossbowState, seeTime: nat, wait: int)

  /** A freshly made goal. */
  const Initial: Goal := Goal(Uncharged, 0, 0)

  /** What the entity perceives at the start of a tick. */
  datatype Senses = Senses(
    hasTarget: bool,        // the entity has a target at all
    canSee: bool,           // the target is in line of sight
    close: bool,            // the distance is within the back-up distance
    villager: bool,         // the target is a villager or wandering trader
    walkable: bool,         // the cell diagonally behind is walkable
    far: bool,              // the squared distance exceeds the squared radius
    usingItem: bool,        // the entity has an active hand
    chargeReached: bool,    // the ticks spent using reach the charge duration
    stackCharged: bool,     // the active item stack is a charged crossbow
    fireworkOffhand: bool,  // a firework rocket is in the off hand
    waitDraw: int)          // `nextInt(20)`, used when charging completes

  predicate ValidSenses(s: Senses) {
    0 <= s.waitDraw < 20
  }

  /** Orders the goal gives its entity. Speeds are the engine's: a strafe
      of -0.5 or -3.0, and the goal's speed modifier times 1.0 or 0.5. */
  datatype Command =
    | SetAggressive(on: bool)
    | TurnTo                // the body turns towards the target
    | Strafe(forward: real)
    | MoveTo(speedFactor: real)
    | StopMoving
    | LookAt                // the head looks at the target
    | StartCharging
    | Release
    | UseOffhand
    | SetChargingPose(on: bool)
    | Shoot
    | ClearTarget
    | StopUsingItem

  /** The goal's invariant: the delay is at most 39 and is pending exactly
      while the crossbow is charged. */
  predicate Inv(g: Goal) {
    0 <= g.wait <= 39 && (g.wait > 0 <==> g.state == Charged)
  }

  lemma InitialInv()
    ensures Inv(Initial) && Initial.state == Uncharged && Initial.wait == 0 && Initial.seeTime == 0
  {
  }

  /** The state, delay and actions of the state machine part of a tick. */
  datatype Step = Step(state: CrossbowState, wait: int, actions: seq<Command>)

  /** The state machine part of a tick with a target present. Only the first
      matching state test acts; the charging test may set the state back to
      uncharged and then, in the same tick, on to charged. */
  function Transition(g: Goal, s: Senses): (st: Step)
    requires ValidSenses(s)
    // uncharged: starts charging only with the target in sight and the held
    // stack not yet charged
    ensures g.state == Uncharged ==>
      && (st.state == Charging <==> s.canSee && !s.stackCharged)
      && (st.state != Charging ==> st == Step(Uncharged, g.wait, []))
    // charging: a completed charge wins; otherwise a dropped item falls back
    ensures g.state == Charging ==>
      && ((s.chargeReached || s.stackCharged) ==> st.state == Charged && 20 <= st.wait <= 39 && Release in st.actions)
      && (!(s.chargeReached || s.stackCharged) ==>
            st.wait == g.wait && st.actions == [] && (st.state == Uncharged <==> !s.usingItem)
            && (st.state == Charging <==> s.usingItem))
    // charged: one tick less to wait; ready exactly when the delay runs out
    ensures g.state == Charged ==>
      && st.wait == g.wait - 1 && st.actions == []
      && (st.state == ReadyToAttack <==> st.wait == 0)
      && (st.state != ReadyToAttack ==> st.state == Charged)
    // ready: fires exactly when the target is in sight, then starts over
    ensures g.state == ReadyToAttack ==>
      && (Shoot in st.actions <==> s.canSee)
      && (s.canSee ==> st.state == Uncharged)
      && (!s.canSee ==> st == Step(ReadyToAttack, g.wait, []))
    ensures Shoot in st.actions ==> g.state == ReadyToAttack
    ensures forall c :: c in st.actions ==> !c.MoveTo?
    // the delay invariant is kept
    ensures Inv(g) ==> 0 <= st.wait <= 39 && (st.wait > 0 <==> st.state == Charged)
  {
    if g.state == Uncharged && !s.stackCharged then
      if s.canSee then Step(Charging, g.wait, [StartCharging, SetChargingPose(true)])
      else Step(Uncharged, g.wait, [])
    else if g.state == Charging then
      var fallback := if !s.usingItem then Uncharged else Charging;
      if s.chargeReached || s.stackCharged then
        Step(Charged, 20 + s.waitDraw,
             [Release] + (if s.fireworkOffhand then [UseOffhand] else []) + [SetChargingPose(false)])
      else Step(fallback, g.wait, [])
    else if g.state == Charged then
      var w := g.wait - 1;
      Step(if w == 0 then ReadyToAttack else Charged, w, [])
    else if g.state == ReadyToAttack && s.canSee then
      Step(Uncharged, g.wait, [Shoot])
    else Step(g.state, g.wait, [])
  }

  /** The goal's answer to one tick: its new fields and its commands. */
  datatype TickResult = TickResult(goal: Goal, commands: seq<Command>)

  /** Whether `cs` orders a move towards the target, at any speed. */
  predicate Approaches(cs: seq<Command>) {
    exists i :: 0 <= i < |cs| && cs[i].MoveTo?
  }

  /** The navigation order of a tick: towards the target when `approach`,
      at full speed while uncharged and at half speed otherwise; stop when
      not approaching. Speeds are fractions of the goal's speed setting. */
  function Navigate(approach: bool, state: CrossbowState): (cs: seq<Command>)
    ensures |cs| == 1
    ensures cs[0].MoveTo? <==> approach
    ensures approach ==> cs[0] == MoveTo(if state == Uncharged then 1.0 else 0.5)
    ensures cs[0] == MoveTo(1.0) ==> state == Uncharged
    ensures cs[0] == MoveTo(0.5) ==> state != Uncharged
  {
    if approach then [MoveTo(if state == Uncharged then 1.0 else 0.5)] else [StopMoving]
  }

  /** Backing away from a close target that is not a villager. */
  function BackUp(s: Senses): (cs: seq<Command>)
    ensures forall c :: c in cs ==> c == TurnTo || c.Strafe?
  {
    if s.close && !s.villager then
      [TurnTo] + (if s.walkable then [Strafe(if s.usingItem then -0.5 else -3.0)] else [])
    else []
  }

  /** The commands of a tick with a target, in order. */
  function Orders(backUp: seq<Command>, move: seq<Command>, actions: seq<Command>): seq<Command> {
    [SetAggressive(true)] + backUp + move + [LookAt] + actions
  }

  /** Only the navigation part of a tick's orders moves the entity. */
  lemma OrdersMove(backUp: seq<Command>, move: seq<Command>, actions: seq<Command>)
    requires |move| == 1 && move[0] != Shoot
    requires forall c :: c in backUp ==> !c.MoveTo? && c != Shoot
    requires forall c :: c in actions ==> !c.MoveTo?
    ensures var cs := Orders(backUp, move, actions);
      && (Approaches(cs) <==> move[0].MoveTo?)
      && (forall c :: c in cs && c.MoveTo? ==> c == move[0])
      && (Shoot in cs <==> Shoot in actions)
  {
    var cs := Orders(backUp, move, actions);
    var k := 2 + |backUp|;
    assert cs[k - 1] == move[0];
    forall i | 0 <= i < |cs| && (cs[i].MoveTo? || cs[i] == Shoot)
      ensures if cs[i] == Shoot then i >= k + 1 else cs[i] == move[0]
    {
      if i > k {
        assert cs[i] == actions[i - k - 1];
      }
    }
    if Shoot in actions {
      var j :| 0 <= j < |actions| && actions[j] == Shoot;
      assert cs[k + 1 + j] == Shoot;
    }
    if Shoot in cs {
      var i :| 0 <= i < |cs| && cs[i] == Shoot;
      assert cs[i] == actions[i - k - 1];
    }
  }

  /** One tick of the goal. */
  function Tick(g: Goal, s: Senses): (r: TickResult)
    requires ValidSenses(s)
    // without a target the goal only marks its entity aggressive
    ensures !s.hasTarget ==> r.goal == g && r.commands == [SetAggressive(true)]
    // the sight counter counts consecutive ticks in sight
    ensures s.hasTarget ==> r.goal.seeTime == (if s.canSee then g.seeTime + 1 else 0)
    // moving towards the target: when far or not yet seen for five ticks,
    // and no delay is pending; full speed only when uncharged
    ensures s.hasTarget ==>
      (Approaches(r.commands) <==> (s.far || r.goal.seeTime < 5) && g.wait == 0)
    ensures MoveTo(1.0) in r.commands ==> g.state == Uncharged
    ensures MoveTo(0.5) in r.commands ==> g.state != Uncharged
    // an approach runs at full speed exactly while uncharged, at half otherwise,
    // and it is the only move of the tick
    ensures s.hasTarget && Approaches(r.commands) ==>
      MoveTo(if g.state == Uncharged then 1.0 else 0.5) in r.commands
    ensures forall c :: c in r.commands && c.MoveTo? ==> c == MoveTo(if g.state == Uncharged then 1.0 else 0.5)
    // the crossbow state and the delay move as the state machine says
    ensures s.hasTarget ==> r.goal.state == Transition(g, s).state && r.goal.wait == Transition(g, s).wait
    ensures Shoot in r.commands ==> s.hasTarget && s.canSee && g.state == ReadyToAttack
    ensures Inv(g) ==> Inv(r.goal)
  {
    if !s.hasTarget then TickResult(g, [SetAggressive(true)])
    else
      var seeTime := if s.canSee then g.seeTime + 1 else 0;
      var move := Navigate((s.far || seeTime < 5) && g.wait == 0, g.state);
      var st := Transition(g, s);
      var backUp := BackUp(s);
      OrdersMove(backUp, move, st.actions);
      TickResult(Goal(st.state, seeTime, st.wait), Orders(backUp, move, st.actions))
  }

  /** The commands issued when the goal stops: the sight counter is
      cleared, but the crossbow state and the delay are kept. */
  function Stop(g: Goal, usingItem: bool): (r: TickResult)
    ensures r.goal.state == g.state && r.goal.wait == g.wait && r.goal.seeTime == 0
    ensures Inv(g) ==> Inv(r.goal)
    ensures ClearTarget in r.commands && SetAggressive(false) in r.commands
    ensures StopUsingItem in r.commands <==> usingItem
  {
    TickResult(Goal(g.state, 0, g.wait),
               [SetAggressive(false), ClearTarget] +
               (if usingItem then [StopUsingItem, SetChargingPose(false)] else []))
  }

  /** The goal may start with a live target and a crossbow in the main hand. */
  predicate CanUse(hasTarget: bool, targetAlive: bool, crossbowInHand: bool) {
    hasTarget && targetAlive && crossbowInHand
  }

  /** The goal may keep running while the target lives and either it could
      start or the navigation has not finished, with a crossbow in hand. */
  predicate CanContinueToUse(hasTarget: bool, targetAlive: bool, crossbowInHand: bool, navigationDone: bool) {
    hasTarget && targetAlive && (CanUse(hasTarget, targetAlive, crossbowInHand) || !navigationDone)
      && crossbowInHand
  }

  /** The navigation alternative never matters: continuing needs exactly
      what starting needs. */
  lemma ContinueIsCanUse(hasTarget: bool, targetAlive: bool, crossbowInHand: bool, navigationDone: bool)
    ensures CanContinueToUse(hasTarget, targetAlive, crossbowInHand, navigationDone)
        <==> CanUse(hasTarget, targetAlive, crossbowInHand)
  {
  }

  /** Under the invariant, the goal approaches exactly when it is far or the
      target has not been in sight for five ticks, unless it is holding a
      charged crossbow. */
  lemma ApproachUnlessCharged(g: Goal, s: Senses)
    requires Inv(g) && ValidSenses(s) && s.hasTarget
    ensures var r := Tick(g, s);
      Approaches(r.commands) <==> (s.far || r.goal.seeTime < 5) && g.state != Charged
  {
  }

  /** The goal after a sequence of ticks. */
  function Run(g: Goal, ss: seq<Senses>): (r: Goal)
    requires forall i :: 0 <= i < |ss| ==> ValidSenses(ss[i])
    ensures Inv(g) ==> Inv(r)
  {
    if |ss| == 0 then g
    else Tick(Run(g, ss[..|ss| - 1]), ss[|ss| - 1]).goal
  }

  /** A charged crossbow becomes ready after exactly `wait` ticks with a
      target, whatever else happens in them. */
  lemma {:induction false} ChargedCountdown(g: Goal, ss: seq<Senses>)
    requires Inv(g) && g.state == Charged && |ss| <= g.wait
    requires forall i :: 0 <= i < |ss| ==> ValidSenses(ss[i]) && ss[i].hasTarget
    ensures var r := Run(g, ss);
      r.wait == g.wait - |ss| && (r.state == ReadyToAttack <==> |ss| == g.wait)
      && (|ss| < g.wait ==> r.state == Charged)
  {
    if |ss| > 0 {
      ChargedCountdown(g, ss[..|ss| - 1]);
    }
  }

  /** A lower bound on the ticks left before the next shot. */
  function Distance(g: Goal): int {
    match g.state
    case Uncharged => 23
    case Charging => 22
    case Charged => g.wait + 1
    case ReadyToAttack => 1
  }

  /** A tick brings the next shot at most one tick closer, and fires only
      when the shot is due. */
  lemma DistanceStep(g: Goal, s: Senses)
    requires Inv(g) && ValidSenses(s)
    ensures Distance(Tick(g, s).goal) >= Distance(g) - 1
    ensures Shoot in Tick(g, s).commands ==> Distance(g) == 1
  {
  }

  lemma {:induction false} DistanceRun(g: Goal, ss: seq<Senses>)
    requires Inv(g)
    requires forall i :: 0 <= i < |ss| ==> ValidSenses(ss[i])
    ensures Distance(Run(g, ss)) >= Distance(g) - |ss|
  {
    if |ss| > 0 {
      DistanceRun(g, ss[..|ss| - 1]);
      DistanceStep(Run(g, ss[..|ss| - 1]), ss[|ss| - 1]);
    }
  }

  /** Rate of fire: after a shot, the next one comes 23 ticks later at the
      earliest (a tick to start charging, one to finish, at least twenty of
      delay, and one to fire). */
  lemma ShotSpacing(g: Goal, s: Senses, between: seq<Senses>, next: Senses)
    requires Inv(g) && ValidSenses(s) && ValidSenses(next)
    requires forall i :: 0 <= i < |between| ==> ValidSenses(between[i])
    requires Shoot in Tick(g, s).commands
    requires Shoot in Tick(Run(Tick(g, s).goal, between), next).commands
    ensures |between| >= 22
  {
    var after := Tick(g, s).goal;
    assert after.state == Uncharged;
    DistanceRun(after, between);
    DistanceStep(Run(after, between), next);
  }
}

=== FILE: enclosure.dfy ===
/** The enclosure generator: a pit dug into flat ground, ringed by an outline
    on which fences stand in pairs and one griefer waits.

    A run picks a site near the requested centre, grows the pit's hole list
    outwards for six to ten rounds, derives the outline around the final
    frontier, digs the hole columns, pairs outline cells into fences, asks
    every outline cell to refresh its neighbours, and puts the griefer on a
    cell left in the fence pass's working copy. The run removes every copy
    of a fenced cell from that working copy, which is what the comment at
    the removal asks for; the code removes only the first copy, and
    `GrieferOnFence` shows the griefer landing on a fence as a result. The
    world is only read before the first write, except below outline cells,
    which no write touches. */
module Enclosure {
  import opened Positions
  import opened Lists
  import opened Terrain
  import opened SiteSearch
  import opened HoleGrowth
  import opened Outline
  import opened Carving
  import opened Fences

  /** The random draws of one run, by the role they play. */
  datatype Draws = Draws(
    depth: int,                    // `nextInt(2)`: how deep the pit floor lies
    site: nat -> nat,              // `nextInt(size)`: which clear candidate
    bounds: seq<int>,              // `nextInt(5)` at each test of the growth loop
    cell: (nat, nat) -> CellDraw,  // round and frontier index to that cell's draws
    drop: nat -> bool,             // edge index to its drop-off test
    carve: nat -> CarveDraw,       // hole index to its column's draws
    fence: nat -> bool,            // outline index to its fence test
    griefer: nat -> nat)           // `nextInt(size)`: which cell left in the working copy

  /** Every draw lies in the range its generator call produces. */
  ghost predicate ValidDraws(d: Draws) {
    && 0 <= d.depth <= 1
    && Picker(d.site)
    && ValidBounds(d.bounds)
    && (forall k: nat, i: nat :: ValidDraw(d.cell(k, i)))
    && Picker(d.griefer)
  }

  /** The first `n` values of a draw sequence. */
  function Sample<T>(f: nat -> T, n: nat): (r: seq<T>)
    ensures |r| == n
    ensures forall i :: 0 <= i < n ==> r[i] == f(i)
  {
    seq(n, (i: int) requires 0 <= i => f(i))
  }

  /** What a run produced. A skipped run writes nothing. */
  datatype Outcome =
    | Skipped
    | Placed(site: Pos, minY: int, rounds: nat, holes: seq<Pos>, edges: seq<Pos>, outline: seq<Pos>,
             pairs: seq<Fencing>, remaining: seq<Pos>, log: seq<Event>)

  /** A block write of a placed run is one of three kinds: air below an edge
      cell, a layer of a hole column, or a fence on an outline cell. */
  predicate KnownWrite(ev: Event, minY: int, holes: seq<Pos>, edges: seq<Pos>, outline: seq<Pos>)
    requires ev.SetBlock?
  {
    || (ev.block == Air && exists k :: 0 <= k < |edges| && ev.at == Down(edges[k]))
    || (LayerRule(ev, minY) && exists k :: 0 <= k < |holes| && InColumn(ev.at, holes[k], minY))
    || (ev.block == SpruceFence && ev.at in outline)
  }

  /** The growth phase from the chosen site: the site is the first hole and
      its four neighbours the first frontier. */
  function GrowFrom(site: Pos, solid: Pos -> bool, distSq: (Pos, Pos) -> real, d: Draws, rounds: nat): (r: Growth)
    requires ValidDraws(d)
    ensures |r.holes| > 0 && r.holes[0] == site
    ensures forall i :: 1 <= i < |r.holes| ==> distSq(r.holes[i], site) < 48.0
    ensures AllAt(r.holes, site.y) && AllAt(r.frontier, site.y)
  {
    var start := Growth(Neighbours(site), [site]);
    assert AllAt(start.frontier, site.y) && AllAt(start.holes, site.y);
    var r := Grow(start, 0, rounds, d.cell, (p: Pos) => distSq(p, site), solid);
    assert [site] <= r.holes;
    r
  }

  /** Refreshing every outline cell, in outline order. */
  function Refresh(outline: seq<Pos>): (r: seq<Event>)
    ensures |r| == |outline|
    ensures forall i :: 0 <= i < |r| ==> r[i] == UpdateNeighbours(outline[i])
  {
    seq(|outline|, (i: int) requires 0 <= i < |outline| => UpdateNeighbours(outline[i]))
  }

  /** The griefer, on a drawn cell of the fence pass's working copy, or
      nobody when that copy is empty. */
  function Griefer(remaining: seq<Pos>, pick: nat -> nat): (r: seq<Event>)
    requires Picker(pick)
    ensures |remaining| == 0 <==> r == []
    ensures |r| <= 1
    ensures forall ev :: ev in r ==> ev.SpawnGriefer? && ev.at in remaining
  {
    if |remaining| == 0 then [] else [SpawnGriefer(remaining[pick(|remaining|)])]
  }

  /** The intermediate results of a run after site selection. */
  datatype Stages = Stages(rounds: nat, grown: Growth, edgeResult: EdgeResult, ground: seq<Event>,
                           fenced: FenceResult)

  /** The phases after site selection, in order: growth, the outline pass
      with its drop-offs, carving, and the fence pass, which reads the world
      as the earlier writes left it. */
  function RunStages(site: Pos, minY: int, solid: Pos -> bool, distSq: (Pos, Pos) -> real, d: Draws): (s: Stages)
    requires ValidDraws(d)
    ensures s.rounds == RoundsFrom(d.bounds, 0)
    ensures s.grown == GrowFrom(site, solid, distSq, d, s.rounds)
    ensures s.edgeResult == ProcessEdges(s.grown.frontier, s.grown.holes, Sample(d.drop, |s.grown.frontier|))
    ensures s.ground == s.edgeResult.writes + GenerateHole(s.grown.holes, minY, Sample(d.carve, |s.grown.holes|))
    ensures s.fenced == GenerateFences(s.edgeResult.outline, Sample(d.fence, |s.edgeResult.outline|), After(solid, s.ground),
                                       EveryCopy)
  {
    var rounds := RoundsFrom(d.bounds, 0);
    var grown := GrowFrom(site, solid, distSq, d, rounds);
    var edges, holes := grown.frontier, grown.holes;
    var processed := ProcessEdges(edges, holes, Sample(d.drop, |edges|));
    var outline := processed.outline;
    var ground := processed.writes + GenerateHole(holes, minY, Sample(d.carve, |holes|));
    var fenced := GenerateFences(outline, Sample(d.fence, |outline|), After(solid, ground), EveryCopy);
    Stages(rounds, grown, processed, ground, fenced)
  }

  /** Everything after site selection. */
  function Build(site: Pos, minY: int, solid: Pos -> bool, distSq: (Pos, Pos) -> real, d: Draws): (r: Outcome)
    requires ValidDraws(d)
    ensures r.Placed? && r.site == site && r.minY == minY
  {
    var s := RunStages(site, minY, solid, distSq, d);
    var outline := s.edgeResult.outline;
    var log := s.ground + FenceWrites(s.fenced.pairs) + Refresh(outline) + Griefer(s.fenced.remaining, d.griefer);
    Placed(site, minY, s.rounds, s.grown.holes, s.grown.frontier, outline, s.fenced.pairs, s.fenced.remaining, log)
  }

  /** One run of the generator around the requested centre `c`, the air
      block just above the ground. `distSq` is the engine's squared distance
      between two positions. */
  function Generate(c: Pos, solid: Pos -> bool, distSq: (Pos, Pos) -> real, d: Draws): (r: Outcome)
    requires ValidDraws(d)
    // nothing happens exactly when none of the 36 candidates is clear
    ensures r.Skipped? <==> NoClearSite(solid, c, PitFloor(c.y, d.depth))
    // the pit floor lies four or five blocks down, below a clear candidate
    ensures r.Placed? ==>
      && (r.minY == c.y - 4 || r.minY == c.y - 5)
      && IsCandidate(c, r.site) && ColumnClear(solid, r.site.x, r.site.z, c.y, r.minY)
  {
    var minY := PitFloor(c.y, d.depth);
    match FindSuitablePosition(solid, c, minY, d.site)
    case None => Skipped
    case Some(site) => Build(site, minY, solid, distSq, d)
  }

  /** The shape of a placed run: how many rounds grew the pit, where the
      hole, edge and outline cells lie, and that every hole after the site
      was near it. */
  lemma PlacedShape(c: Pos, solid: Pos -> bool, distSq: (Pos, Pos) -> real, d: Draws)
    requires ValidDraws(d)
    ensures var r := Generate(c, solid, distSq, d);
      r.Placed? ==>
        && 6 <= r.rounds <= 10
        && |r.holes| > 0 && r.holes[0] == r.site
        && (forall i :: 1 <= i < |r.holes| ==> distSq(r.holes[i], r.site) < 48.0)
        && AllAt(r.holes, c.y) && AllAt(r.edges, c.y) && AllAt(r.outline, c.y)
        && (forall o :: o in r.outline ==>
              o !in r.edges && o !in r.holes && exists k :: 0 <= k < |r.edges| && InRing(r.edges[k], o))
  {
    var r := Generate(c, solid, distSq, d);
    if r.Placed? {
      RoundCount(d.bounds);
      OutlineLevel(r.edges, r.outline, c.y);
    }
  }

  /** Outline cells lie on the level of the edge cells they surround. */
  lemma OutlineLevel(edges: seq<Pos>, outline: seq<Pos>, y: int)
    requires AllAt(edges, y)
    requires forall o :: o in outline ==> exists k :: 0 <= k < |edges| && InRing(edges[k], o)
    ensures AllAt(outline, y)
  {
    forall i | 0 <= i < |outline| ensures outline[i].y == y {
      var o := outline[i];
      assert o in outline;
      var k :| 0 <= k < |edges| && InRing(edges[k], o);
      var dir: Dir :| o == Offset(edges[k], dir) || o == Diagonal(edges[k], dir);
      assert Offset(edges[k], dir).y == y;
    }
  }

  /** Every block write of a placed run is a drop-off, a column layer or a
      fence on an outline cell. */
  lemma PlacedWrites(c: Pos, solid: Pos -> bool, distSq: (Pos, Pos) -> real, d: Draws)
    requires ValidDraws(d)
    ensures var r := Generate(c, solid, distSq, d);
      r.Placed? ==> forall i :: 0 <= i < |r.log| && r.log[i].SetBlock? ==>
        KnownWrite(r.log[i], r.minY, r.holes, r.edges, r.outline)
  {
    var r := Generate(c, solid, distSq, d);
    if r.Placed? {
      BuildWrites(r.site, r.minY, solid, distSq, d);
    }
  }

  lemma BuildWrites(site: Pos, minY: int, solid: Pos -> bool, distSq: (Pos, Pos) -> real, d: Draws)
    requires ValidDraws(d)
    ensures var r := Build(site, minY, solid, distSq, d);
      forall i :: 0 <= i < |r.log| && r.log[i].SetBlock? ==>
        KnownWrite(r.log[i], r.minY, r.holes, r.edges, r.outline)
  {
    var s := RunStages(site, minY, solid, distSq, d);
    var edges, holes := s.grown.frontier, s.grown.holes;
    StageWrites(edges, holes, Sample(d.drop, |edges|), minY, Sample(d.carve, |holes|),
                s.fenced.pairs, s.fenced.remaining, d.griefer);
  }

  /** The writes of the phases after growth, for any hole and edge lists. */
  lemma StageWrites(edges: seq<Pos>, holes: seq<Pos>, drop: seq<bool>, minY: int, carve: seq<CarveDraw>,
                    pairs: seq<Fencing>, remaining: seq<Pos>, pick: nat -> nat)
    requires |edges| == |drop| && |holes| == |carve| && Picker(pick)
    requires var outline := ProcessEdges(edges, holes, drop).outline;
      forall i :: 0 <= i < |pairs| ==> pairs[i].origin in outline && pairs[i].partner in outline
    ensures var processed := ProcessEdges(edges, holes, drop);
      var log := processed.writes + GenerateHole(holes, minY, carve) + FenceWrites(pairs)
        + Refresh(processed.outline) + Griefer(remaining, pick);
      forall i :: 0 <= i < |log| && log[i].SetBlock? ==> KnownWrite(log[i], minY, holes, edges, processed.outline)
  {
    var processed := ProcessEdges(edges, holes, drop);
    FenceWritesIn(pairs, processed.outline);
    LogWrites(processed.writes + GenerateHole(holes, minY, carve), processed.writes, GenerateHole(holes, minY, carve),
              FenceWrites(pairs), Refresh(processed.outline), Griefer(remaining, pick),
              minY, holes, edges, processed.outline);
  }

  lemma FenceWritesIn(pairs: seq<Fencing>, outline: seq<Pos>)
    requires forall i :: 0 <= i < |pairs| ==> pairs[i].origin in outline && pairs[i].partner in outline
    ensures forall ev :: ev in FenceWrites(pairs) ==> ev.SetBlock? && ev.block == SpruceFence && ev.at in outline
  {
    FenceWritesCells(pairs);
  }

  /** The parts of a placed run's log write only where `KnownWrite` allows. */
  lemma LogWrites(ground: seq<Event>, drops: seq<Event>, carving: seq<Event>, fences: seq<Event>,
                  refresh: seq<Event>, griefer: seq<Event>,
                  minY: int, holes: seq<Pos>, edges: seq<Pos>, outline: seq<Pos>)
    requires ground == drops + carving
    requires forall i :: 0 <= i < |drops| ==>
      drops[i].SetBlock? && drops[i].block == Air && exists k :: 0 <= k < |edges| && drops[i].at == Down(edges[k])
    requires forall ev :: ev in carving && ev.SetBlock? ==>
      LayerRule(ev, minY) && exists k :: 0 <= k < |holes| && InColumn(ev.at, holes[k], minY)
    requires forall ev :: ev in fences ==> ev.SetBlock? && ev.block == SpruceFence && ev.at in outline
    requires forall ev :: ev in refresh ==> !ev.SetBlock?
    requires forall ev :: ev in griefer ==> !ev.SetBlock?
    ensures var log := ground + fences + refresh + griefer;
      forall i :: 0 <= i < |log| && log[i].SetBlock? ==> KnownWrite(log[i], minY, holes, edges, outline)
  {
    var log := ground + fences + refresh + griefer;
    forall i | 0 <= i < |log| && log[i].SetBlock? ensures KnownWrite(log[i], minY, holes, edges, outline) {
      var ev := log[i];
      if i < |drops| {
        assert ev == drops[i];
      } else if i < |drops| + |carving| {
        assert ev == carving[i - |drops|];
        assert ev in carving;
      } else if i < |ground| + |fences| {
        assert ev == fences[i - |ground|];
        assert ev in fences;
      } else if i < |ground| + |fences| + |refresh| {
        assert false;
      } else {
        assert false;
      }
    }
  }

  /** Neither a drop-off nor a column layer lands below a cell that is
      neither an edge nor a hole cell and lies on the holes' level. */
  lemma GroundSparesBelow(drops: seq<Event>, carving: seq<Event>, minY: int, holes: seq<Pos>, edges: seq<Pos>, o: Pos)
    requires forall i :: 0 <= i < |drops| ==>
      drops[i].SetBlock? && drops[i].block == Air && exists k :: 0 <= k < |edges| && drops[i].at == Down(edges[k])
    requires forall ev :: ev in carving && ev.SetBlock? ==>
      LayerRule(ev, minY) && exists k :: 0 <= k < |holes| && InColumn(ev.at, holes[k], minY)
    requires o !in edges && o !in holes && AllAt(holes, o.y)
    ensures Untouched(drops + carving, Down(o))
  {
    var ground := drops + carving;
    forall i | 0 <= i < |ground| && ground[i].SetBlock? ensures ground[i].at != Down(o) {
      if i < |drops| {
        var k :| 0 <= k < |edges| && drops[i].at == Down(edges[k]);
        assert edges[k] != o;
      } else {
        var ev := carving[i - |drops|];
        assert ev == ground[i] && ev in carving;
        var k :| 0 <= k < |holes| && InColumn(ev.at, holes[k], minY);
        assert holes[k] != o && holes[k].y == o.y;
      }
    }
  }

  /** The fence pass, which reads the world after the drop-offs and the
      carving, sees the original world below every outline cell. */
  lemma OutlineGroundKept(edges: seq<Pos>, holes: seq<Pos>, drop: seq<bool>, minY: int, carve: seq<CarveDraw>,
                          solid: Pos -> bool, y: int, o: Pos)
    requires |edges| == |drop| && |holes| == |carve|
    requires AllAt(edges, y) && AllAt(holes, y)
    requires o in ProcessEdges(edges, holes, drop).outline
    ensures var processed := ProcessEdges(edges, holes, drop);
      After(solid, processed.writes + GenerateHole(holes, minY, carve))(Down(o)) == solid(Down(o))
  {
    var processed := ProcessEdges(edges, holes, drop);
    OutlineLevel(edges, processed.outline, y);
    var i :| 0 <= i < |processed.outline| && processed.outline[i] == o;
    assert o.y == y;
    GroundSparesBelow(processed.writes, GenerateHole(holes, minY, carve), minY, holes, edges, o);
    AfterUntouched(solid, processed.writes + GenerateHole(holes, minY, carve), Down(o));
  }

  /** Fence segments of a placed run: taken from the outline, adjacent, and
      standing on ground that was opaque before the run began. With no
      successful fence draw the whole outline stays free. */
  lemma PlacedFences(c: Pos, solid: Pos -> bool, distSq: (Pos, Pos) -> real, d: Draws)
    requires ValidDraws(d)
    ensures var r := Generate(c, solid, distSq, d);
      r.Placed? ==>
        && multiset(r.remaining) + multiset(Partners(r.pairs)) <= multiset(r.outline)
        && (forall i :: 0 <= i < |r.pairs| ==>
              r.pairs[i].origin in r.outline && r.pairs[i].partner in r.outline &&
              Adjacent(r.pairs[i].origin, r.pairs[i].partner) && solid(Down(r.pairs[i].partner)))
        && ((forall k :: 0 <= k < |r.outline| ==> !d.fence(k)) ==> r.remaining == r.outline && r.pairs == [])
  {
    var r := Generate(c, solid, distSq, d);
    if r.Placed? {
      BuildFences(r.site, r.minY, solid, distSq, d);
    }
  }

  lemma BuildFences(site: Pos, minY: int, solid: Pos -> bool, distSq: (Pos, Pos) -> real, d: Draws)
    requires ValidDraws(d)
    ensures var r := Build(site, minY, solid, distSq, d);
      && multiset(r.remaining) + multiset(Partners(r.pairs)) <= multiset(r.outline)
      && (forall i :: 0 <= i < |r.pairs| ==>
            r.pairs[i].origin in r.outline && r.pairs[i].partner in r.outline &&
            Adjacent(r.pairs[i].origin, r.pairs[i].partner) && solid(Down(r.pairs[i].partner)))
      && ((forall k :: 0 <= k < |r.outline| ==> !d.fence(k)) ==> r.remaining == r.outline && r.pairs == [])
  {
    var s := RunStages(site, minY, solid, distSq, d);
    var edges, holes := s.grown.frontier, s.grown.holes;
    StageFences(edges, holes, Sample(d.drop, |edges|), minY, Sample(d.carve, |holes|), d.fence, solid, site.y);
  }

  /** The fence pass after the ground phases: segments come from the
      outline, and pair only cells standing on ground that was opaque before
      the run began. */
  lemma StageFences(edges: seq<Pos>, holes: seq<Pos>, drop: seq<bool>, minY: int, carve: seq<CarveDraw>,
                    fence: nat -> bool, solid: Pos -> bool, y: int)
    requires |edges| == |drop| && |holes| == |carve|
    requires AllAt(edges, y) && AllAt(holes, y)
    ensures var processed := ProcessEdges(edges, holes, drop);
      var outline := processed.outline;
      var world := After(solid, processed.writes + GenerateHole(holes, minY, carve));
      var f := GenerateFences(outline, Sample(fence, |outline|), world, EveryCopy);
      && multiset(f.remaining) + multiset(Partners(f.pairs)) <= multiset(outline)
      && (forall i :: 0 <= i < |f.pairs| ==>
            f.pairs[i].origin in outline && f.pairs[i].partner in outline &&
            Adjacent(f.pairs[i].origin, f.pairs[i].partner) && solid(Down(f.pairs[i].partner)))
      && ((forall k :: 0 <= k < |outline| ==> !fence(k)) ==> f.remaining == outline && f.pairs == [])
  {
    var processed := ProcessEdges(edges, holes, drop);
    var outline := processed.outline;
    var draws := Sample(fence, |outline|);
    var world := After(solid, processed.writes + GenerateHole(holes, minY, carve));
    var f := GenerateFences(outline, draws, world, EveryCopy);
    forall i | 0 <= i < |f.pairs| ensures solid(Down(f.pairs[i].partner)) {
      OutlineGroundKept(edges, holes, drop, minY, carve, solid, y, f.pairs[i].partner);
    }
    if forall k :: 0 <= k < |outline| ==> !fence(k) {
      assert forall k :: 0 <= k < |draws| ==> !draws[k];
    }
  }

  /** Where a log puts the griefer: it is the last event and the only one of
      its kind, it stands on a cell left in the working copy that is an
      outline cell in no fence segment, and it is there exactly when some
      outline cell was left unfenced. */
  ghost predicate GrieferOnFree(log: seq<Event>, remaining: seq<Pos>, outline: seq<Pos>, pairs: seq<Fencing>) {
    && (forall i :: 0 <= i < |log| && log[i].SpawnGriefer? ==>
          i == |log| - 1 && log[i].at in remaining && log[i].at in outline && !Fenced(log[i].at, pairs))
    && (|remaining| > 0 <==> |log| > 0 && log[|log| - 1].SpawnGriefer?)
    && (|remaining| > 0 <==> exists o :: o in outline && !Fenced(o, pairs))
  }

  /** The griefer of a placed run stands on an outline cell that is in no
      fence segment, as the last event and the only one of its kind, and it
      is there exactly when some outline cell was left unfenced. */
  lemma PlacedGriefer(c: Pos, solid: Pos -> bool, distSq: (Pos, Pos) -> real, d: Draws)
    requires ValidDraws(d)
    ensures var r := Generate(c, solid, distSq, d);
      r.Placed? ==> GrieferOnFree(r.log, r.remaining, r.outline, r.pairs)
  {
    var r := Generate(c, solid, distSq, d);
    if r.Placed? {
      BuildGriefer(r.site, r.minY, solid, distSq, d);
    }
  }

  lemma BuildGriefer(site: Pos, minY: int, solid: Pos -> bool, distSq: (Pos, Pos) -> real, d: Draws)
    requires ValidDraws(d)
    ensures var r := Build(site, minY, solid, distSq, d);
      GrieferOnFree(r.log, r.remaining, r.outline, r.pairs)
  {
    var r := Build(site, minY, solid, distSq, d);
    BuildGrieferLast(site, minY, solid, distSq, d);
    BuildFree(site, minY, solid, distSq, d);
    GrieferSpot(r.log, r.remaining, r.outline, r.pairs);
  }

  /** The griefer is the last event of `log`, the only one of its kind, and
      stands on a cell of `remaining`; it is there exactly when `remaining`
      is not empty. */
  ghost predicate GrieferLast(log: seq<Event>, remaining: seq<Pos>) {
    && (forall i :: 0 <= i < |log| && log[i].SpawnGriefer? ==> i == |log| - 1 && log[i].at in remaining)
    && (|remaining| > 0 <==> |log| > 0 && log[|log| - 1].SpawnGriefer?)
  }

  /** `remaining` holds exactly the outline cells in no segment of `pairs`. */
  ghost predicate FreeCells(remaining: seq<Pos>, outline: seq<Pos>, pairs: seq<Fencing>) {
    && (forall x :: x in remaining ==> x in outline)
    && (forall x :: x in outline ==> (x in remaining <==> !Fenced(x, pairs)))
  }

  /** The griefer is the last event of a run after site selection and
      stands on a cell left in the working copy. */
  lemma BuildGrieferLast(site: Pos, minY: int, solid: Pos -> bool, distSq: (Pos, Pos) -> real, d: Draws)
    requires ValidDraws(d)
    ensures var r := Build(site, minY, solid, distSq, d);
      GrieferLast(r.log, r.remaining)
  {
    var s := RunStages(site, minY, solid, distSq, d);
    var edges, holes := s.grown.frontier, s.grown.holes;
    StageGriefer(edges, holes, Sample(d.drop, |edges|), minY, Sample(d.carve, |holes|), s.fenced.pairs,
                 s.fenced.remaining, d.griefer);
  }

  /** The log of the phases after growth ends with the griefer, for any hole
      and edge lists and any fence segments. */
  lemma StageGriefer(edges: seq<Pos>, holes: seq<Pos>, drop: seq<bool>, minY: int, carve: seq<CarveDraw>,
                     pairs: seq<Fencing>, remaining: seq<Pos>, pick: nat -> nat)
    requires |edges| == |drop| && |holes| == |carve|
    requires Picker(pick)
    ensures var processed := ProcessEdges(edges, holes, drop);
      var log := processed.writes + GenerateHole(holes, minY, carve) + FenceWrites(pairs) + Refresh(processed.outline)
        + Griefer(remaining, pick);
      GrieferLast(log, remaining)
  {
    var processed := ProcessEdges(edges, holes, drop);
    var carving := GenerateHole(holes, minY, carve);
    LogGriefer(processed.writes + carving, processed.writes, carving, FenceWrites(pairs), Refresh(processed.outline),
               remaining, pick);
  }

  /** After site selection the working copy holds exactly the outline
      cells in no fence segment. */
  lemma BuildFree(site: Pos, minY: int, solid: Pos -> bool, distSq: (Pos, Pos) -> real, d: Draws)
    requires ValidDraws(d)
    ensures var r := Build(site, minY, solid, distSq, d);
      FreeCells(r.remaining, r.outline, r.pairs)
  {
    var s := RunStages(site, minY, solid, distSq, d);
    var outline := s.edgeResult.outline;
    FreeIffUnfenced(outline, Sample(d.fence, |outline|), After(solid, s.ground));
  }

  /** A griefer placed last, on a cell of a working copy that holds exactly
      the unfenced outline cells, stands where `GrieferOnFree` says. */
  lemma GrieferSpot(log: seq<Event>, remaining: seq<Pos>, outline: seq<Pos>, pairs: seq<Fencing>)
    requires GrieferLast(log, remaining)
    requires FreeCells(remaining, outline, pairs)
    ensures GrieferOnFree(log, remaining, outline, pairs)
  {
    if |remaining| > 0 {
      assert remaining[0] in remaining;
    }
  }

  /** As written, the griefer can stand on a fence. With `a` listed twice in
      the outline and fenced with `b` by the first draw, removing only the
      first copy leaves `a` as the one free cell, and the griefer is put on
      it; removing every copy leaves no free cell and no griefer. */
  lemma GrieferOnFence(pick: nat -> nat)
    requires Picker(pick)
    ensures var a, b := Pos(0, 0, 0), Pos(1, 0, 0);
      var solid := (p: Pos) => p.y < 0;
      var asWritten := GenerateFences([a, b, a], [true, false, false], solid, FirstCopy);
      var intended := GenerateFences([a, b, a], [true, false, false], solid, EveryCopy);
      && Fenced(a, asWritten.pairs)
      && Griefer(asWritten.remaining, pick) == [SpawnGriefer(a)]
      && Griefer(intended.remaining, pick) == []
  {
    var a, b := Pos(0, 0, 0), Pos(1, 0, 0);
    FencedCellStaysFree();
    assert [Fencing(a, b)][0].origin == a;
  }

  /** Only the final part of a run's log spawns a griefer. */
  lemma LogGriefer(ground: seq<Event>, drops: seq<Event>, carving: seq<Event>, fences: seq<Event>,
                   refresh: seq<Event>, remaining: seq<Pos>, pick: nat -> nat)
    requires Picker(pick)
    requires ground == drops + carving
    requires forall i :: 0 <= i < |drops| ==> drops[i].SetBlock?
    requires forall ev :: ev in carving && !ev.SetBlock? ==> ev.SpawnCreeper? || ev.SpawnCreepie?
    requires forall ev :: ev in fences ==> ev.SetBlock?
    requires forall i :: 0 <= i < |refresh| ==> refresh[i].UpdateNeighbours?
    ensures var log := ground + fences + refresh + Griefer(remaining, pick);
      && (forall i :: 0 <= i < |log| && log[i].SpawnGriefer? ==> i == |log| - 1 && log[i].at in remaining)
      && (|remaining| > 0 <==> |log| > 0 && log[|log| - 1].SpawnGriefer?)
  {
    var griefer := Griefer(remaining, pick);
    var log := ground + fences + refresh + griefer;
    var before := |ground| + |fences| + |refresh|;
    forall i | 0 <= i < before ensures !log[i].SpawnGriefer? {
      if i < |drops| {
        assert log[i] == drops[i];
      } else if i < |ground| {
        assert log[i] == carving[i - |drops|] && log[i] in carving;
      } else if i < |ground| + |fences| {
        assert log[i] == fences[i - |ground|] && log[i] in fences;
      } else {
        assert log[i] == refresh[i - |ground| - |fences|];
      }
    }
    forall i | 0 <= i < |log| && log[i].SpawnGriefer? ensures i == |log| - 1 && log[i].at in remaining {
      if i < before {
        assert false;
      } else {
        assert log[i] == griefer[i - before] && log[i] in griefer;
      }
    }
    if |remaining| > 0 {
      assert log[|log| - 1] == griefer[0];
    }
  }
}

=== FILE: fences.dfy ===
/** Fencing parts of the outline.

    The pass keeps a working copy of the outline list. For each outline
    cell in turn (the origin) whose `nextFloat() < 0.2` draw succeeds, it
    looks at the origin's four neighbours in scan order for one that is
    still in the working copy and has an opaque block beneath it. At the
    first such neighbour it turns both cells into spruce fences, removes the
    first copy of each from the working copy, and moves on to the next
    origin. The origin itself is never checked against the working copy.
    What is left of the working copy is where the griefer may stand.

    The outline list holds a cell once for every edge cell whose ring it
    lies in, so a cell often appears more than once. `ArrayList.remove`
    takes only the first copy, and a fenced cell can then stay in the
    working copy; the comment beside the removal says the aim is to keep
    the griefer off fences. The pass is therefore written for both ways of
    removing: `FirstCopy` as the code does it and `EveryCopy` as intended. */
module Fences {
  import opened Positions
  import opened Lists
  import opened Terrain

  /** One fence segment: an origin and the neighbour it was paired with. */
  datatype Fencing = Fencing(origin: Pos, partner: Pos)

  /** How a fenced cell leaves the working copy. */
  datatype Removal = FirstCopy | EveryCopy

  /** Removes `x` from the working copy `w` in the manner `how`. */
  function Take(w: seq<Pos>, x: Pos, how: Removal): seq<Pos> {
    match how
    case FirstCopy => RemoveFirst(w, x)
    case EveryCopy => RemoveAll(w, x)
  }

  /** A removal never adds anything, leaves every other cell's copies alone,
      and takes at least one copy of `x`, or all of them when removing every
      copy. */
  lemma TakeCounts(w: seq<Pos>, x: Pos, how: Removal)
    ensures multiset(Take(w, x, how)) <= multiset(w)
    ensures forall y :: y != x ==> multiset(Take(w, x, how))[y] == multiset(w)[y]
    ensures x in w ==> multiset(Take(w, x, how))[x] < multiset(w)[x]
    ensures how.EveryCopy? ==> x !in Take(w, x, how)
  {
    match how
    case FirstCopy =>
      RemoveFirstCount(w, x);
    case EveryCopy =>
      RemoveAllCounts(w, x);
  }

  /** The working copy and the segments built so far. */
  datatype FenceResult = FenceResult(remaining: seq<Pos>, pairs: seq<Fencing>)

  /** `n` may be paired: it is still in the working copy and the block below
      it is opaque. */
  predicate Fenceable(n: Pos, working: seq<Pos>, solid: Pos -> bool) {
    n in working && solid(Down(n))
  }

  /** The first neighbour of `o`, in the order of `dirs`, that may be paired. */
  function FirstPartner(o: Pos, dirs: seq<Dir>, working: seq<Pos>, solid: Pos -> bool): (r: Option<Pos>)
    ensures r.None? <==> forall i :: 0 <= i < |dirs| ==> !Fenceable(Offset(o, dirs[i]), working, solid)
    ensures r.Some? ==>
      exists i :: 0 <= i < |dirs| && r.value == Offset(o, dirs[i]) && Fenceable(r.value, working, solid) &&
        forall j :: 0 <= j < i ==> !Fenceable(Offset(o, dirs[j]), working, solid)
  {
    if |dirs| == 0 then None
    else if Fenceable(Offset(o, dirs[0]), working, solid) then Some(Offset(o, dirs[0]))
    else
      var r := FirstPartner(o, dirs[1..], working, solid);
      assert forall i :: 1 <= i < |dirs| ==> dirs[i] == dirs[1..][i - 1];
      r
  }

  /** The partners of a list of segments, in order. */
  function Partners(pairs: seq<Fencing>): (r: seq<Pos>)
    ensures |r| == |pairs|
    ensures forall i :: 0 <= i < |pairs| ==> r[i] == pairs[i].partner
  {
    seq(|pairs|, (i: int) requires 0 <= i < |pairs| => pairs[i].partner)
  }

  /** No neighbour of `o` may be paired. */
  predicate NoPartner(o: Pos, working: seq<Pos>, solid: Pos -> bool) {
    forall d: Dir :: !Fenceable(Offset(o, d), working, solid)
  }

  lemma NoPartnerAnywhere(o: Pos, working: seq<Pos>, solid: Pos -> bool)
    requires FirstPartner(o, Horizontal, working, solid).None?
    ensures NoPartner(o, working, solid)
  {
    forall d: Dir ensures !Fenceable(Offset(o, d), working, solid) {
      match d
      case North => assert Horizontal[0] == d;
      case East => assert Horizontal[1] == d;
      case South => assert Horizontal[2] == d;
      case West => assert Horizontal[3] == d;
    }
  }

  /** `r` is `st` after pairing origin `o` with its neighbour `n`: the
      segment is appended and one copy of each cell leaves the working copy. */
  predicate PairedWith(o: Pos, n: Pos, st: FenceResult, r: FenceResult, solid: Pos -> bool, how: Removal) {
    && Adjacent(o, n) && Fenceable(n, st.remaining, solid)
    && r == FenceResult(Take(Take(st.remaining, o, how), n, how), st.pairs + [Fencing(o, n)])
  }

  /** One origin `o` with its draw. */
  function FenceStep(o: Pos, draw: bool, st: FenceResult, solid: Pos -> bool, how: Removal): (r: FenceResult)
    ensures !draw ==> r == st
    ensures NoPartner(o, st.remaining, solid) ==> r == st
    ensures r != st ==> draw && FirstPartner(o, Horizontal, st.remaining, solid).Some?
    ensures st.pairs <= r.pairs
    // a successful draw pairs the origin with its first pairable neighbour
    ensures draw && FirstPartner(o, Horizontal, st.remaining, solid).Some? ==>
      PairedWith(o, FirstPartner(o, Horizontal, st.remaining, solid).value, st, r, solid, how)
  {
    if !draw then st
    else
      match FirstPartner(o, Horizontal, st.remaining, solid)
      case None =>
        NoPartnerAnywhere(o, st.remaining, solid);
        st
      case Some(n) =>
        var r := FenceResult(Take(Take(st.remaining, o, how), n, how), st.pairs + [Fencing(o, n)]);
        assert PairedWith(o, n, st, r, solid, how);
        r
  }

  /** `x` stands in some segment. */
  ghost predicate Fenced(x: Pos, pairs: seq<Fencing>) {
    exists i :: 0 <= i < |pairs| && (pairs[i].origin == x || pairs[i].partner == x)
  }

  /** Every outline cell that has left the working copy was fenced. */
  ghost predicate Covered(outline: seq<Pos>, remaining: seq<Pos>, pairs: seq<Fencing>) {
    forall x :: x in outline && x !in remaining ==> Fenced(x, pairs)
  }

  /** No fenced cell is left in the working copy. */
  ghost predicate Cleared(remaining: seq<Pos>, pairs: seq<Fencing>) {
    forall i :: 0 <= i < |pairs| ==> pairs[i].origin !in remaining && pairs[i].partner !in remaining
  }

  /** The first `n` origins, in order. */
  function FencePrefix(outline: seq<Pos>, draws: seq<bool>, solid: Pos -> bool, how: Removal, n: nat): (r: FenceResult)
    requires n <= |outline| == |draws|
    ensures forall x :: x in r.remaining ==> x in outline
    ensures forall i :: 0 <= i < |r.pairs| ==>
      r.pairs[i].origin in outline && r.pairs[i].partner in outline &&
      Adjacent(r.pairs[i].origin, r.pairs[i].partner) && solid(Down(r.pairs[i].partner))
    ensures (forall k :: 0 <= k < n ==> !draws[k]) ==> r == FenceResult(outline, [])
  {
    if n == 0 then FenceResult(outline, [])
    else
      var prev := FencePrefix(outline, draws, solid, how, n - 1);
      var o := outline[n - 1];
      StepSegments(outline, o, draws[n - 1], prev, solid, how);
      FenceStep(o, draws[n - 1], prev, solid, how)
  }

  /** One origin keeps the working copy inside the outline and every
      segment on adjacent outline cells with an opaque block below the
      partner. */
  lemma StepSegments(outline: seq<Pos>, o: Pos, draw: bool, prev: FenceResult, solid: Pos -> bool, how: Removal)
    requires o in outline
    requires forall x :: x in prev.remaining ==> x in outline
    requires Segments(outline, prev.pairs, solid)
    ensures forall x :: x in FenceStep(o, draw, prev, solid, how).remaining ==> x in outline
    ensures Segments(outline, FenceStep(o, draw, prev, solid, how).pairs, solid)
  {
    var r := FenceStep(o, draw, prev, solid, how);
    if draw && FirstPartner(o, Horizontal, prev.remaining, solid).Some? {
      var n := FirstPartner(o, Horizontal, prev.remaining, solid).value;
      assert PairedWith(o, n, prev, r, solid, how);
      var w1 := Take(prev.remaining, o, how);
      TakeWithin(prev.remaining, o, how);
      TakeWithin(w1, n, how);
      SegmentsAppend(outline, prev.pairs, Fencing(o, n), solid);
    }
  }

  /** A removal keeps only cells that were there. */
  lemma TakeWithin(w: seq<Pos>, x: Pos, how: Removal)
    ensures forall y :: y in Take(w, x, how) ==> y in w
  {
    TakeCounts(w, x, how);
    forall y | y in Take(w, x, how) ensures y in w {
      assert multiset(Take(w, x, how))[y] <= multiset(w)[y];
    }
  }

  /** Only removals: what remains of the working copy, together with one
      copy of every partner, fits inside the outline list. */
  lemma {:induction false} PrefixAccounts(outline: seq<Pos>, draws: seq<bool>, solid: Pos -> bool, how: Removal, n: nat)
    requires n <= |outline| == |draws|
    ensures var r := FencePrefix(outline, draws, solid, how, n);
      multiset(r.remaining) + multiset(Partners(r.pairs)) <= multiset(outline)
  {
    if n > 0 {
      PrefixAccounts(outline, draws, solid, how, n - 1);
      StepAccounts(outline, outline[n - 1], draws[n - 1], FencePrefix(outline, draws, solid, how, n - 1), solid, how);
    }
  }

  lemma StepAccounts(outline: seq<Pos>, o: Pos, draw: bool, prev: FenceResult, solid: Pos -> bool, how: Removal)
    requires multiset(prev.remaining) + multiset(Partners(prev.pairs)) <= multiset(outline)
    ensures var r := FenceStep(o, draw, prev, solid, how);
      multiset(r.remaining) + multiset(Partners(r.pairs)) <= multiset(outline)
  {
    var r := FenceStep(o, draw, prev, solid, how);
    if r != prev {
      var n := FirstPartner(o, Horizontal, prev.remaining, solid).value;
      assert PairedWith(o, n, prev, r, solid, how);
      var d: Dir :| n == Offset(o, d);
      TakeBoth(prev.remaining, o, n, how);
      PartnersAppend(prev.pairs, Fencing(o, n));
      Accounting(outline, prev.remaining, Partners(prev.pairs), r.remaining, n);
    }
  }

  /** Every prefix keeps each cell that left the working copy fenced, and,
      when every copy is removed, keeps fenced cells out of it. */
  lemma {:induction false} PrefixCovers(outline: seq<Pos>, draws: seq<bool>, solid: Pos -> bool, how: Removal, n: nat)
    requires n <= |outline| == |draws|
    ensures var r := FencePrefix(outline, draws, solid, how, n);
      Covered(outline, r.remaining, r.pairs) && (how.EveryCopy? ==> Cleared(r.remaining, r.pairs))
  {
    if n > 0 {
      PrefixCovers(outline, draws, solid, how, n - 1);
      StepCovers(outline, outline[n - 1], draws[n - 1], FencePrefix(outline, draws, solid, how, n - 1), solid, how);
    }
  }

  /** One origin keeps each cell that left the working copy fenced, and,
      when every copy is removed, keeps fenced cells out of it. */
  lemma StepCovers(outline: seq<Pos>, o: Pos, draw: bool, prev: FenceResult, solid: Pos -> bool, how: Removal)
    requires Covered(outline, prev.remaining, prev.pairs)
    requires how.EveryCopy? ==> Cleared(prev.remaining, prev.pairs)
    ensures var r := FenceStep(o, draw, prev, solid, how);
      Covered(outline, r.remaining, r.pairs) && (how.EveryCopy? ==> Cleared(r.remaining, r.pairs))
  {
    var r := FenceStep(o, draw, prev, solid, how);
    if r != prev {
      var m := FirstPartner(o, Horizontal, prev.remaining, solid).value;
      assert PairedWith(o, m, prev, r, solid, how);
      StepCovered(outline, o, m, prev, r, solid, how);
      if how.EveryCopy? {
        StepCleared(o, m, prev, r, solid);
      }
    }
  }

  /** A pairing step keeps every cell that left the working copy fenced. */
  lemma StepCovered(outline: seq<Pos>, o: Pos, n: Pos, prev: FenceResult, r: FenceResult, solid: Pos -> bool, how: Removal)
    requires Covered(outline, prev.remaining, prev.pairs)
    requires PairedWith(o, n, prev, r, solid, how)
    ensures Covered(outline, r.remaining, r.pairs)
  {
    var w1 := Take(prev.remaining, o, how);
    TakeCounts(prev.remaining, o, how);
    TakeCounts(w1, n, how);
    forall x | x in outline && x !in r.remaining ensures Fenced(x, r.pairs) {
      if x != o && x != n {
        assert multiset(r.remaining)[x] == multiset(w1)[x] == multiset(prev.remaining)[x];
        assert x !in prev.remaining;
      }
      StillFenced(x, o, n, prev.pairs, r.pairs);
    }
  }

  /** After appending the segment `(o, n)`, `x` is fenced when it is one of
      the two cells, or when it was fenced before. */
  lemma StillFenced(x: Pos, o: Pos, n: Pos, pairs: seq<Fencing>, pairs2: seq<Fencing>)
    requires pairs2 == pairs + [Fencing(o, n)]
    requires x == o || x == n || Fenced(x, pairs)
    ensures Fenced(x, pairs2)
  {
    if x == o || x == n {
      assert pairs2[|pairs|] == Fencing(o, n);
    } else {
      var i :| 0 <= i < |pairs| && (pairs[i].origin == x || pairs[i].partner == x);
      assert pairs2[i] == pairs[i];
    }
  }

  /** A pairing step that removes every copy keeps fenced cells out of the
      working copy. */
  lemma StepCleared(o: Pos, n: Pos, prev: FenceResult, r: FenceResult, solid: Pos -> bool)
    requires Cleared(prev.remaining, prev.pairs)
    requires PairedWith(o, n, prev, r, solid, EveryCopy)
    ensures Cleared(r.remaining, r.pairs)
  {
    var w1 := Take(prev.remaining, o, EveryCopy);
    TakeCounts(prev.remaining, o, EveryCopy);
    TakeCounts(w1, n, EveryCopy);
    forall i | 0 <= i < |r.pairs| ensures r.pairs[i].origin !in r.remaining && r.pairs[i].partner !in r.remaining {
      if i < |prev.pairs| {
        var f := prev.pairs[i];
        assert r.pairs[i] == f;
        assert multiset(r.remaining)[f.origin] <= multiset(prev.remaining)[f.origin] == 0;
        assert multiset(r.remaining)[f.partner] <= multiset(prev.remaining)[f.partner] == 0;
      } else {
        assert multiset(r.remaining)[o] <= multiset(w1)[o] == 0;
      }
    }
  }

  lemma Accounting(outline: seq<Pos>, w: seq<Pos>, p: seq<Pos>, w2: seq<Pos>, n: Pos)
    requires multiset(w2) + multiset{n} <= multiset(w)
    requires multiset(w) + multiset(p) <= multiset(outline)
    ensures multiset(w2) + multiset(p + [n]) <= multiset(outline)
    ensures n in multiset(outline)
  {
    assert multiset(p + [n]) == multiset(p) + multiset{n};
  }

  /** Every segment pairs an outline origin with an adjacent outline partner
      that has an opaque block below it. */
  ghost predicate Segments(outline: seq<Pos>, pairs: seq<Fencing>, solid: Pos -> bool) {
    forall i :: 0 <= i < |pairs| ==>
      pairs[i].origin in outline && pairs[i].partner in outline &&
      Adjacent(pairs[i].origin, pairs[i].partner) && solid(Down(pairs[i].partner))
  }

  lemma SegmentsAppend(outline: seq<Pos>, pairs: seq<Fencing>, f: Fencing, solid: Pos -> bool)
    requires Segments(outline, pairs, solid)
    requires f.origin in outline && f.partner in outline
    requires Adjacent(f.origin, f.partner) && solid(Down(f.partner))
    ensures Segments(outline, pairs + [f], solid)
  {
    var ps := pairs + [f];
    forall i | 0 <= i < |ps|
      ensures ps[i].origin in outline && ps[i].partner in outline &&
        Adjacent(ps[i].origin, ps[i].partner) && solid(Down(ps[i].partner))
    {
      if i < |pairs| {
        assert ps[i] == pairs[i];
      }
    }
  }

  lemma PartnersAppend(pairs: seq<Fencing>, f: Fencing)
    ensures Partners(pairs + [f]) == Partners(pairs) + [f.partner]
  {
    var ps := pairs + [f];
    assert forall i :: 0 <= i < |pairs| ==> ps[i] == pairs[i];
  }

  /** Two removals take at least one copy of the second cell. */
  lemma TakeBoth(w: seq<Pos>, o: Pos, n: Pos, how: Removal)
    requires n in w && o != n
    ensures multiset(Take(Take(w, o, how), n, how)) + multiset{n} <= multiset(w)
  {
    var w1 := Take(w, o, how);
    var w2 := Take(w1, n, how);
    TakeCounts(w, o, how);
    TakeCounts(w1, n, how);
    assert multiset(w1)[n] == multiset(w)[n];
    assert n in multiset(w1);
    forall y ensures (multiset(w2) + multiset{n})[y] <= multiset(w)[y] {
      if y != n {
        assert multiset(w2)[y] == multiset(w1)[y];
      }
    }
  }

  /** The fence pass, removing fenced cells in the manner `how`. Nothing
      happens when the outline list is empty. */
  function GenerateFences(outline: seq<Pos>, draws: seq<bool>, solid: Pos -> bool, how: Removal): (r: FenceResult)
    requires |outline| == |draws|
    // only removals: what remains, together with one copy of every partner,
    // fits inside the outline list
    ensures multiset(r.remaining) + multiset(Partners(r.pairs)) <= multiset(outline)
    // each segment pairs an outline origin with an adjacent outline cell that
    // has an opaque block beneath it
    ensures forall i :: 0 <= i < |r.pairs| ==>
      r.pairs[i].origin in outline && r.pairs[i].partner in outline &&
      Adjacent(r.pairs[i].origin, r.pairs[i].partner) && solid(Down(r.pairs[i].partner))
    // with no successful draw the outline comes back unchanged
    ensures (forall k :: 0 <= k < |draws| ==> !draws[k]) ==> r == FenceResult(outline, [])
  {
    if |outline| == 0 then FenceResult(outline, [])
    else
      PrefixAccounts(outline, draws, solid, how, |outline|);
      FencePrefix(outline, draws, solid, how, |outline|)
  }

  /** A segment made by the first `j` origins is still there after `n`. */
  lemma {:induction false} PairStays(outline: seq<Pos>, draws: seq<bool>, solid: Pos -> bool, how: Removal,
                                     f: Fencing, j: nat, n: nat)
    requires j <= n <= |outline| == |draws|
    requires f in FencePrefix(outline, draws, solid, how, j).pairs
    ensures f in FencePrefix(outline, draws, solid, how, n).pairs
    decreases n
  {
    if n > j {
      PairStays(outline, draws, solid, how, f, j, n - 1);
      assert f in FencePrefix(outline, draws, solid, how, n - 1).pairs;
      PairKept(outline, draws, solid, how, f, n);
    }
  }

  /** A segment, once made, stays in every later prefix. */
  lemma PairKept(outline: seq<Pos>, draws: seq<bool>, solid: Pos -> bool, how: Removal, f: Fencing, n: nat)
    requires 0 < n <= |outline| == |draws|
    requires f in FencePrefix(outline, draws, solid, how, n - 1).pairs
    ensures f in FencePrefix(outline, draws, solid, how, n).pairs
  {
    var a, b := FencePrefix(outline, draws, solid, how, n - 1).pairs, FencePrefix(outline, draws, solid, how, n).pairs;
    assert a <= b;
    var i :| 0 <= i < |a| && a[i] == f;
    assert b[i] == f;
  }

  /** The origin's own step makes the segment. */
  lemma PairedAt(outline: seq<Pos>, draws: seq<bool>, solid: Pos -> bool, how: Removal, k: nat, m: Pos)
    requires k < |outline| == |draws|
    requires draws[k]
    requires FirstPartner(outline[k], Horizontal, FencePrefix(outline, draws, solid, how, k).remaining, solid) == Some(m)
    ensures Fencing(outline[k], m) in FencePrefix(outline, draws, solid, how, k + 1).pairs
  {
    var st := FencePrefix(outline, draws, solid, how, k);
    var r := FencePrefix(outline, draws, solid, how, k + 1);
    assert r == FenceStep(outline[k], true, st, solid, how);
    assert r.pairs == st.pairs + [Fencing(outline[k], m)];
    assert r.pairs[|st.pairs|] == Fencing(outline[k], m);
  }

  /** Every origin whose draw succeeds while it still has a pairable
      neighbour ends up in a segment with the first such neighbour. */
  lemma DrawnPaired(outline: seq<Pos>, draws: seq<bool>, solid: Pos -> bool, how: Removal, k: nat, m: Pos)
    requires k < |outline| == |draws|
    requires draws[k]
    requires FirstPartner(outline[k], Horizontal, FencePrefix(outline, draws, solid, how, k).remaining, solid) == Some(m)
    ensures Fencing(outline[k], m) in GenerateFences(outline, draws, solid, how).pairs
  {
    PairedInPrefix(outline, draws, solid, how, k, m);
    InPass(outline, draws, solid, how, Fencing(outline[k], m));
  }

  /** The same for the prefix over the whole outline. */
  lemma PairedInPrefix(outline: seq<Pos>, draws: seq<bool>, solid: Pos -> bool, how: Removal, k: nat, m: Pos)
    requires k < |outline| == |draws|
    requires draws[k]
    requires FirstPartner(outline[k], Horizontal, FencePrefix(outline, draws, solid, how, k).remaining, solid) == Some(m)
    ensures Fencing(outline[k], m) in FencePrefix(outline, draws, solid, how, |outline|).pairs
  {
    PairedAt(outline, draws, solid, how, k, m);
    PairStays(outline, draws, solid, how, Fencing(outline[k], m), k + 1, |outline|);
  }

  /** A segment of the prefix over the whole outline is a segment of the pass. */
  lemma InPass(outline: seq<Pos>, draws: seq<bool>, solid: Pos -> bool, how: Removal, f: Fencing)
    requires |outline| == |draws|
    requires f in FencePrefix(outline, draws, solid, how, |outline|).pairs
    ensures f in GenerateFences(outline, draws, solid, how).pairs
  {
    assert GenerateFences(outline, draws, solid, how) == FencePrefix(outline, draws, solid, how, |outline|);
  }

  /** Removing every copy, an outline cell is left for the griefer exactly
      when it stands in no segment, and nothing but outline cells is left.
      (With the first-copy removal only the forward half holds: a cell that
      left the working copy was fenced; `FencedCellStaysFree` shows the
      converse failing.) */
  lemma FreeIffUnfenced(outline: seq<Pos>, draws: seq<bool>, solid: Pos -> bool)
    requires |outline| == |draws|
    ensures var r := GenerateFences(outline, draws, solid, EveryCopy);
      && (forall x :: x in r.remaining ==> x in outline)
      && (forall x :: x in outline ==> (x in r.remaining <==> !Fenced(x, r.pairs)))
  {
    var r := GenerateFences(outline, draws, solid, EveryCopy);
    if |outline| > 0 {
      PrefixCovers(outline, draws, solid, EveryCopy, |outline|);
    }
    forall x | x in r.remaining ensures x in outline {
      assert multiset(r.remaining)[x] <= multiset(outline)[x];
    }
    forall x | x in outline ensures x in r.remaining <==> !Fenced(x, r.pairs) {
      if Fenced(x, r.pairs) {
        var i :| 0 <= i < |r.pairs| && (r.pairs[i].origin == x || r.pairs[i].partner == x);
      }
    }
  }

  /** The cell a fence write at position `j` of the write list goes to:
      segment `j / 2`, origin first. */
  function FenceCell(pairs: seq<Fencing>, j: nat): Pos
    requires j < 2 * |pairs|
  {
    if j % 2 == 0 then pairs[j / 2].origin else pairs[j / 2].partner
  }

  /** The writes for a list of segments, in order: both cells of each become
      fences. */
  function FenceWrites(pairs: seq<Fencing>): (r: seq<Event>)
    ensures |r| == 2 * |pairs|
    ensures forall ev :: ev in r ==> ev.SetBlock? && ev.block == SpruceFence
  {
    seq(2 * |pairs|, (j: int) requires 0 <= j < 2 * |pairs| => SetBlock(FenceCell(pairs, j), SpruceFence))
  }

  /** The fence writes are exactly the cells of the segments. */
  lemma FenceWritesCells(pairs: seq<Fencing>)
    ensures forall ev :: ev in FenceWrites(pairs) ==>
      exists i :: 0 <= i < |pairs| && (ev.at == pairs[i].origin || ev.at == pairs[i].partner)
    ensures forall i :: 0 <= i < |pairs| ==>
      SetBlock(pairs[i].origin, SpruceFence) in FenceWrites(pairs) &&
      SetBlock(pairs[i].partner, SpruceFence) in FenceWrites(pairs)
  {
    var w := FenceWrites(pairs);
    forall ev | ev in w
      ensures exists i :: 0 <= i < |pairs| && (ev.at == pairs[i].origin || ev.at == pairs[i].partner)
    {
      var j :| 0 <= j < |w| && w[j] == ev;
      assert ev.at == FenceCell(pairs, j);
      var i := j / 2;
      assert ev.at == pairs[i].origin || ev.at == pairs[i].partner;
    }
    forall i | 0 <= i < |pairs|
      ensures SetBlock(pairs[i].origin, SpruceFence) in w && SetBlock(pairs[i].partner, SpruceFence) in w
    {
      assert (2 * i) / 2 == i && (2 * i) % 2 == 0;
      assert (2 * i + 1) / 2 == i && (2 * i + 1) % 2 == 1;
      assert w[2 * i] == SetBlock(pairs[i].origin, SpruceFence);
      assert w[2 * i + 1] == SetBlock(pairs[i].partner, SpruceFence);
    }
  }

  /** No fence stands alone: every fence written has a fence written next to it. */
  lemma FenceSymmetry(outline: seq<Pos>, draws: seq<bool>, solid: Pos -> bool, how: Removal)
    requires |outline| == |draws|
    ensures var w := FenceWrites(GenerateFences(outline, draws, solid, how).pairs);
      forall ev :: ev in w ==> exists ev' :: ev' in w && Adjacent(ev.at, ev'.at)
  {
    var pairs := GenerateFences(outline, draws, solid, how).pairs;
    var w := FenceWrites(pairs);
    FenceWritesCells(pairs);
    forall ev | ev in w ensures exists ev' :: ev' in w && Adjacent(ev.at, ev'.at) {
      var i :| 0 <= i < |pairs| && (ev.at == pairs[i].origin || ev.at == pairs[i].partner);
      var o, n := pairs[i].origin, pairs[i].partner;
      if ev.at == o {
        assert SetBlock(n, SpruceFence) in w;
      } else {
        AdjacentSymmetric(o, n);
        assert SetBlock(o, SpruceFence) in w;
      }
    }
  }

  /** The origin is never checked against the working copy, so a cell already
      fenced as a partner can be fenced again as an origin: with three cells
      in a row on solid ground and every draw succeeding, the middle cell is
      in two segments, whichever way cells are removed. */
  lemma OriginNotRechecked(solid: Pos -> bool, how: Removal)
    requires forall p: Pos :: solid(p) == (p.y < 0)
    ensures var a, b, c := Pos(0, 0, 0), Pos(1, 0, 0), Pos(2, 0, 0);
      GenerateFences([a, b, c], [true, true, true], solid, how).pairs == [Fencing(a, b), Fencing(b, c)]
  {
    var a, b, c := Pos(0, 0, 0), Pos(1, 0, 0), Pos(2, 0, 0);
    var s1 := FenceResult([c], [Fencing(a, b)]);
    var s2 := FenceResult([], [Fencing(a, b), Fencing(b, c)]);
    FirstOfRow(solid, how);
    SecondOfRow(solid, how);
    LastOfRow(solid, how);
    RunOfThree([a, b, c], [true, true, true], solid, how, s1, s2);
  }

  /** The last cell finds the working copy empty and changes nothing. */
  lemma LastOfRow(solid: Pos -> bool, how: Removal)
    ensures var a, b, c := Pos(0, 0, 0), Pos(1, 0, 0), Pos(2, 0, 0);
      var s2 := FenceResult([], [Fencing(a, b), Fencing(b, c)]);
      FenceStep(c, true, s2, solid, how) == s2
  {
    assert FirstPartner(Pos(2, 0, 0), Horizontal, [], solid).None?;
  }

  lemma FirstOfRow(solid: Pos -> bool, how: Removal)
    requires forall p: Pos :: solid(p) == (p.y < 0)
    ensures var a, b, c := Pos(0, 0, 0), Pos(1, 0, 0), Pos(2, 0, 0);
      FenceStep(a, true, FenceResult([a, b, c], []), solid, how) == FenceResult([c], [Fencing(a, b)])
  {
    var a, b, c := Pos(0, 0, 0), Pos(1, 0, 0), Pos(2, 0, 0);
    EastPartner(a, [a, b, c], solid);
    TakeHeadPair(a, b, c, how);
    assert [] + [Fencing(a, b)] == [Fencing(a, b)];
  }

  lemma SecondOfRow(solid: Pos -> bool, how: Removal)
    requires forall p: Pos :: solid(p) == (p.y < 0)
    ensures var a, b, c := Pos(0, 0, 0), Pos(1, 0, 0), Pos(2, 0, 0);
      FenceStep(b, true, FenceResult([c], [Fencing(a, b)]), solid, how)
        == FenceResult([], [Fencing(a, b), Fencing(b, c)])
  {
    var a, b, c := Pos(0, 0, 0), Pos(1, 0, 0), Pos(2, 0, 0);
    EastPartner(b, [c], solid);
    TakeLastPair(b, c, how);
  }

  /** Three successful steps in a row make up the whole pass over three cells. */
  lemma RunOfThree(outline: seq<Pos>, draws: seq<bool>, solid: Pos -> bool, how: Removal, s1: FenceResult, s2: FenceResult)
    requires |outline| == 3 && draws == [true, true, true]
    requires FenceStep(outline[0], true, FenceResult(outline, []), solid, how) == s1
    requires FenceStep(outline[1], true, s1, solid, how) == s2
    requires FenceStep(outline[2], true, s2, solid, how) == s2
    ensures GenerateFences(outline, draws, solid, how) == s2
  {
    assert FencePrefix(outline, draws, solid, how, 1) == s1;
    assert FencePrefix(outline, draws, solid, how, 2) == s2;
  }

  /** With no northern candidate, the eastern neighbour is the partner. */
  lemma EastPartner(o: Pos, working: seq<Pos>, solid: Pos -> bool)
    requires Offset(o, North) !in working && Offset(o, East) in working && solid(Down(Offset(o, East)))
    ensures FirstPartner(o, Horizontal, working, solid) == Some(Offset(o, East))
  {
    assert Horizontal[1..][0] == East;
    assert FirstPartner(o, Horizontal[1..], working, solid) == Some(Offset(o, East));
  }

  lemma TakeHeadPair(a: Pos, b: Pos, c: Pos, how: Removal)
    requires a != b && a != c && b != c
    ensures Take(Take([a, b, c], a, how), b, how) == [c]
  {
    match how
    case FirstCopy =>
      assert FirstIndex([a, b, c], a) == 0;
      assert RemoveFirst([a, b, c], a) == [b, c];
      assert FirstIndex([b, c], b) == 0;
    case EveryCopy =>
      assert [c][1..] == [];
      assert RemoveAll([c], a) == [c] && RemoveAll([c], b) == [c];
      assert [b, c][1..] == [c];
      assert RemoveAll([b, c], a) == [b, c];
      assert [a, b, c][1..] == [b, c];
      assert RemoveAll([a, b, c], a) == [b, c];
      assert RemoveAll([b, c], b) == [c];
  }

  lemma TakeLastPair(b: Pos, c: Pos, how: Removal)
    requires b != c
    ensures Take(Take([c], b, how), c, how) == []
  {
    match how
    case FirstCopy =>
      assert RemoveFirst([c], b) == [c];
      assert FirstIndex([c], c) == 0;
    case EveryCopy =>
      assert [c][1..] == [];
      assert RemoveAll([c], b) == [c];
      assert RemoveAll([c], c) == [];
  }

  /** Removing only the first copy can leave a fenced cell free. With `a`
      listed twice, `b` east of it on solid ground and only the first draw
      succeeding, `a` is fenced with `b` yet its second copy stays in the
      working copy; removing every copy leaves nothing. */
  lemma FencedCellStaysFree()
    ensures var a, b := Pos(0, 0, 0), Pos(1, 0, 0);
      var solid := (p: Pos) => p.y < 0;
      && GenerateFences([a, b, a], [true, false, false], solid, FirstCopy) == FenceResult([a], [Fencing(a, b)])
      && GenerateFences([a, b, a], [true, false, false], solid, EveryCopy) == FenceResult([], [Fencing(a, b)])
  {
    var a, b := Pos(0, 0, 0), Pos(1, 0, 0);
    var solid := (p: Pos) => p.y < 0;
    DoubledFirstStep(solid, FirstCopy, [a]);
    DoubledFirstStep(solid, EveryCopy, []);
    OneDrawOfThree([a, b, a], [true, false, false], solid, FirstCopy, FenceResult([a], [Fencing(a, b)]));
    OneDrawOfThree([a, b, a], [true, false, false], solid, EveryCopy, FenceResult([], [Fencing(a, b)]));
  }

  /** The first step over `[a, b, a]`: `a` pairs with `b`, leaving `left`. */
  lemma DoubledFirstStep(solid: Pos -> bool, how: Removal, left: seq<Pos>)
    requires forall p: Pos :: solid(p) == (p.y < 0)
    requires left == (if how.FirstCopy? then [Pos(0, 0, 0)] else [])
    ensures var a, b := Pos(0, 0, 0), Pos(1, 0, 0);
      FenceStep(a, true, FenceResult([a, b, a], []), solid, how) == FenceResult(left, [Fencing(a, b)])
  {
    var a, b := Pos(0, 0, 0), Pos(1, 0, 0);
    EastPartner(a, [a, b, a], solid);
    TakeDoubled(a, b, how);
    assert [] + [Fencing(a, b)] == [Fencing(a, b)];
  }

  lemma TakeDoubled(a: Pos, b: Pos, how: Removal)
    requires a != b
    ensures Take(Take([a, b, a], a, how), b, how) == (if how.FirstCopy? then [a] else [])
  {
    match how
    case FirstCopy =>
      assert FirstIndex([a, b, a], a) == 0;
      assert RemoveFirst([a, b, a], a) == [b, a];
      assert FirstIndex([b, a], b) == 0;
      assert RemoveFirst([b, a], b) == [a];
    case EveryCopy =>
      assert [a][1..] == [] && [b][1..] == [];
      assert RemoveAll([a], a) == [];
      assert [b, a][1..] == [a];
      assert RemoveAll([b, a], a) == [b];
      assert [a, b, a][1..] == [b, a];
      assert RemoveAll([a, b, a], a) == [b];
      assert RemoveAll([b], b) == [];
  }

  /** Only the first of three draws succeeding, the first step is the whole pass. */
  lemma OneDrawOfThree(outline: seq<Pos>, draws: seq<bool>, solid: Pos -> bool, how: Removal, s1: FenceResult)
    requires |outline| == 3 && draws == [true, false, false]
    requires FenceStep(outline[0], true, FenceResult(outline, []), solid, how) == s1
    ensures GenerateFences(outline, draws, solid, how) == s1
  {
    assert FencePrefix(outline, draws, solid, how, 1) == s1;
    assert FencePrefix(outline, draws, solid, how, 2) == s1;
  }

  /** On an outline without duplicates the two ways of removing give the
      same pass: the difference shows only on cells listed twice. */
  lemma {:induction false} RemovalsAgreeOnPrefix(outline: seq<Pos>, draws: seq<bool>, solid: Pos -> bool, n: nat)
    requires n <= |outline| == |draws|
    requires NoDup(outline)
    ensures FencePrefix(outline, draws, solid, FirstCopy, n) == FencePrefix(outline, draws, solid, EveryCopy, n)
    ensures NoDup(FencePrefix(outline, draws, solid, FirstCopy, n).remaining)
  {
    if n > 0 {
      RemovalsAgreeOnPrefix(outline, draws, solid, n - 1);
      RemovalsAgreeOnStep(outline[n - 1], draws[n - 1], FencePrefix(outline, draws, solid, FirstCopy, n - 1), solid);
    }
  }

  /** One origin over a working copy without duplicates: both ways of
      removing give the same step, and the copy stays without duplicates. */
  lemma RemovalsAgreeOnStep(o: Pos, draw: bool, prev: FenceResult, solid: Pos -> bool)
    requires NoDup(prev.remaining)
    ensures FenceStep(o, draw, prev, solid, FirstCopy) == FenceStep(o, draw, prev, solid, EveryCopy)
    ensures NoDup(FenceStep(o, draw, prev, solid, FirstCopy).remaining)
  {
    match FirstPartner(o, Horizontal, prev.remaining, solid)
    case None =>
    case Some(m) =>
      if draw {
        var w1 := RemoveFirst(prev.remaining, o);
        RemovalsAgree(prev.remaining, o);
        RemovalsAgree(w1, m);
      }
  }

  /** The same over the whole pass. */
  lemma RemovalsAgreeOnOutline(outline: seq<Pos>, draws: seq<bool>, solid: Pos -> bool)
    requires |outline| == |draws| && NoDup(outline)
    ensures GenerateFences(outline, draws, solid, FirstCopy) == GenerateFences(outline, draws, solid, EveryCopy)
  {
    RemovalsAgreeOnPrefix(outline, draws, solid, |outline|);
  }
}

=== FILE: hole_growth.dfy ===
/** Growing the pit.

    The pit starts as its centre (the hole list) and the centre's four
    neighbours (the frontier). Each round visits the frontier as it stood
    when the round began. A cell is considered only when its draw from
    `[0, 48]` exceeds its squared distance to the centre; a considered cell
    looks at its four neighbours and is then promoted to the hole list,
    dropped, or left alone. Hole-list additions are visible to the later
    cells of the same round; the frontier membership test is not, since it
    consults the incoming frontier. */
module HoleGrowth {
  import opened Positions
  import opened Lists
  import opened Terrain

  /** The frontier and the hole list. */
  datatype Growth = Growth(frontier: seq<Pos>, holes: seq<Pos>)

  /** The draws one frontier cell uses in one round: `accept` is the
      `nextInt(49)` draw and `promote` the outcome of the
      `nextFloat() < 1 / (valid + 1)` test. */
  datatype CellDraw = CellDraw(accept: int, promote: bool)

  predicate ValidDraw(d: CellDraw) {
    0 <= d.accept <= 48
  }

  /** A neighbour is new when it is neither in the hole list nor in the
      incoming frontier. */
  predicate IsNew(n: Pos, holes: seq<Pos>, incoming: seq<Pos>) {
    n !in holes && n !in incoming
  }

  /** The new cells among `ns`, in order. */
  function NewAmong(ns: seq<Pos>, holes: seq<Pos>, incoming: seq<Pos>): (r: seq<Pos>)
    ensures forall p :: p in r <==> p in ns && IsNew(p, holes, incoming)
    ensures |r| <= |ns|
  {
    if |ns| == 0 then []
    else (if IsNew(ns[0], holes, incoming) then [ns[0]] else []) + NewAmong(ns[1..], holes, incoming)
  }

  /** Some neighbour of `e` is new and fails the surface-clear test. */
  predicate Blocked(e: Pos, holes: seq<Pos>, incoming: seq<Pos>, solid: Pos -> bool) {
    exists d: Dir :: IsNew(Offset(e, d), holes, incoming) && !SurfaceClear(solid, Offset(e, d))
  }

  /** Some neighbour of `e` is already a hole. */
  predicate HoleAdjacent(e: Pos, holes: seq<Pos>) {
    exists d: Dir :: Offset(e, d) in holes
  }

  /** The new neighbours of `e`, in scan order. */
  function NewNeighbours(e: Pos, holes: seq<Pos>, incoming: seq<Pos>): seq<Pos> {
    NewAmong(Neighbours(e), holes, incoming)
  }

  /** What scanning the neighbours of a frontier cell finds. */
  datatype Scan = Scan(valid: seq<Pos>, hasHole: bool, blocked: bool)

  /** The neighbour scan as written: a hole neighbour is noted, a frontier
      neighbour skipped, a new surface-clear neighbour collected, and the
      first new neighbour that is not surface-clear ends the scan. */
  function ScanFrom(ns: seq<Pos>, holes: seq<Pos>, incoming: seq<Pos>, solid: Pos -> bool): (r: Scan)
    ensures r.blocked <==>
      exists p :: p in ns && IsNew(p, holes, incoming) && !SurfaceClear(solid, p)
    ensures !r.blocked ==> r.valid == NewAmong(ns, holes, incoming)
    ensures !r.blocked ==> (r.hasHole <==> exists p :: p in ns && p in holes)
  {
    if |ns| == 0 then Scan([], false, false)
    else
      var n := ns[0];
      var rest := ScanFrom(ns[1..], holes, incoming, solid);
      assert forall p :: p in ns <==> p == n || p in ns[1..];
      if n in holes then rest.(hasHole := true)
      else if n in incoming then rest
      else if SurfaceClear(solid, n) then rest.(valid := [n] + rest.valid)
      else Scan([], false, true)
  }

  lemma NeighbourScanSpec(e: Pos, holes: seq<Pos>, incoming: seq<Pos>, solid: Pos -> bool)
    ensures var s := ScanFrom(Neighbours(e), holes, incoming, solid);
      && (s.blocked <==> Blocked(e, holes, incoming, solid))
      && (!s.blocked ==> s.valid == NewNeighbours(e, holes, incoming))
      && (!s.blocked ==> (s.hasHole <==> HoleAdjacent(e, holes)))
  {
    forall i | 0 <= i < 4 ensures Neighbours(e)[i] == Offset(e, Horizontal[i]) {
      NeighbourAt(e, Horizontal[i]);
    }
    ScanOfNeighbours(Neighbours(e), e, holes, incoming, solid);
  }

  lemma ScanOfNeighbours(ns: seq<Pos>, e: Pos, holes: seq<Pos>, incoming: seq<Pos>, solid: Pos -> bool)
    requires |ns| == 4 && forall i :: 0 <= i < 4 ==> ns[i] == Offset(e, Horizontal[i])
    ensures var s := ScanFrom(ns, holes, incoming, solid);
      && (s.blocked <==> Blocked(e, holes, incoming, solid))
      && (!s.blocked ==> (s.hasHole <==> HoleAdjacent(e, holes)))
  {
    forall d: Dir ensures Offset(e, d) == ns[DirIndex(d)] {
    }
  }

  /** The place of a direction in the scan order. */
  function DirIndex(d: Dir): (i: nat)
    ensures i < 4 && Horizontal[i] == d
  {
    match d
    case North => 0
    case East => 1
    case South => 2
    case West => 3
  }

  lemma NeighbourAt(e: Pos, d: Dir)
    ensures |Neighbours(e)| == 4 && Neighbours(e)[DirIndex(d)] == Offset(e, d)
  {
  }

  /** One frontier cell `e`, with squared distance `dist` to the centre, in a
      round whose incoming frontier is `incoming`. */
  function StepCell(incoming: seq<Pos>, st: Growth, e: Pos, d: CellDraw, dist: real, solid: Pos -> bool): (r: Growth)
    // not considered: nothing changes
    ensures d.accept as real <= dist ==> r == st
    // blocked: nothing changes
    ensures Blocked(e, st.holes, incoming, solid) ==> r == st
    // hole-adjacent with no new neighbour: promoted, one copy leaves the frontier
    ensures d.accept as real > dist && !Blocked(e, st.holes, incoming, solid)
      && HoleAdjacent(e, st.holes) && |NewNeighbours(e, st.holes, incoming)| == 0
      ==> r == Growth(RemoveFirst(st.frontier, e), st.holes + [e])
    // hole-adjacent with new neighbours and a successful promotion draw:
    // promoted, and exactly those neighbours join the frontier
    ensures d.accept as real > dist && !Blocked(e, st.holes, incoming, solid)
      && HoleAdjacent(e, st.holes) && |NewNeighbours(e, st.holes, incoming)| > 0 && d.promote
      ==> r == Growth(RemoveFirst(st.frontier + NewNeighbours(e, st.holes, incoming), e), st.holes + [e])
    // hole-adjacent with new neighbours and a failed promotion draw: unchanged
    ensures d.accept as real > dist && !Blocked(e, st.holes, incoming, solid)
      && HoleAdjacent(e, st.holes) && |NewNeighbours(e, st.holes, incoming)| > 0 && !d.promote
      ==> r == st
    // not hole-adjacent: dropped without promotion
    ensures d.accept as real > dist && !Blocked(e, st.holes, incoming, solid) && !HoleAdjacent(e, st.holes)
      ==> r == Growth(RemoveFirst(st.frontier, e), st.holes)
  {
    if d.accept as real > dist then
      var s := ScanFrom(Neighbours(e), st.holes, incoming, solid);
      NeighbourScanSpec(e, st.holes, incoming, solid);
      if s.blocked then st
      else if s.hasHole then
        if |s.valid| == 0 then Growth(RemoveFirst(st.frontier, e), st.holes + [e])
        else if d.promote then Growth(RemoveFirst(st.frontier + s.valid, e), st.holes + [e])
        else st
      else Growth(RemoveFirst(st.frontier, e), st.holes)
    else st
  }

  /** What any single step can do: the hole list gains at most the cell
      itself, the frontier gains only new neighbours of the cell and loses
      at most one copy of the cell. */
  lemma StepShape(incoming: seq<Pos>, st: Growth, e: Pos, d: CellDraw, dist: real, solid: Pos -> bool)
    ensures var r := StepCell(incoming, st, e, d, dist, solid);
      && (r.holes == st.holes || (r.holes == st.holes + [e] && d.accept as real > dist))
      && (forall p :: p in r.frontier ==>
            p in st.frontier || (p in Neighbours(e) && IsNew(p, st.holes, incoming)))
      && (forall p :: p != e ==> multiset(r.frontier)[p] >= multiset(st.frontier)[p])
      && multiset(r.frontier) <= multiset(st.frontier + NewNeighbours(e, st.holes, incoming))
  {
    var r := StepCell(incoming, st, e, d, dist, solid);
    var nn := NewNeighbours(e, st.holes, incoming);
    var whole := st.frontier + nn;
    if d.accept as real <= dist || Blocked(e, st.holes, incoming, solid) {
      assert r == st;
    } else if HoleAdjacent(e, st.holes) && |nn| > 0 && d.promote {
      assert r.frontier == RemoveFirst(whole, e);
      RemovalShape(whole, e);
      assert multiset(whole) == multiset(st.frontier) + multiset(nn);
    } else if HoleAdjacent(e, st.holes) && |nn| > 0 {
      assert r == st;
    } else {
      assert r.frontier == RemoveFirst(st.frontier, e);
      RemovalShape(st.frontier, e);
      assert multiset(whole) == multiset(st.frontier) + multiset(nn);
    }
  }

  /** Removing one copy of `e` keeps every other cell's count. */
  lemma RemovalShape(from: seq<Pos>, e: Pos)
    ensures multiset(RemoveFirst(from, e)) <= multiset(from)
    ensures forall p :: p != e ==> multiset(RemoveFirst(from, e))[p] == multiset(from)[p]
    ensures forall p :: p in RemoveFirst(from, e) ==> p in from
  {
    RemoveFirstCount(from, e);
    FrontierBound(RemoveFirst(from, e), from);
  }

  lemma FrontierBound(f: seq<Pos>, from: seq<Pos>)
    requires multiset(f) <= multiset(from)
    ensures forall p :: p in f ==> p in from
  {
    forall p | p in f ensures p in from {
      assert p in multiset(f);
    }
  }

  /** The first `n` cells of a round, visited in order. */
  function ExpandPrefix(incoming: seq<Pos>, holes: seq<Pos>, draws: seq<CellDraw>, dist: Pos -> real,
                        solid: Pos -> bool, n: nat): (r: Growth)
    requires n <= |incoming| == |draws|
    requires forall i :: 0 <= i < |draws| ==> ValidDraw(draws[i])
    ensures holes <= r.holes
    ensures forall i :: |holes| <= i < |r.holes| ==> r.holes[i] in incoming && dist(r.holes[i]) < 48.0
    ensures forall p :: p in r.frontier ==>
      p in incoming || exists k :: 0 <= k < n && p in Neighbours(incoming[k])
    ensures forall p :: p in incoming && dist(p) >= 48.0 ==>
      multiset(r.frontier)[p] >= multiset(incoming)[p]
  {
    if n == 0 then Growth(incoming, holes)
    else
      var prev := ExpandPrefix(incoming, holes, draws, dist, solid, n - 1);
      var e := incoming[n - 1];
      StepShape(incoming, prev, e, draws[n - 1], dist(e), solid);
      StepCell(incoming, prev, e, draws[n - 1], dist(e), solid)
  }

  /** One call of the expansion: every incoming frontier cell in turn. */
  function ExpandHole(incoming: seq<Pos>, holes: seq<Pos>, draws: seq<CellDraw>, dist: Pos -> real,
                      solid: Pos -> bool): (r: Growth)
    requires |incoming| == |draws|
    requires forall i :: 0 <= i < |draws| ==> ValidDraw(draws[i])
    // the hole list only grows, and only by incoming cells nearer than 48
    ensures holes <= r.holes
    ensures forall i :: |holes| <= i < |r.holes| ==> r.holes[i] in incoming && dist(r.holes[i]) < 48.0
    // the frontier holds incoming cells and neighbours of incoming cells
    ensures forall p :: p in r.frontier ==>
      p in incoming || exists k :: 0 <= k < |incoming| && p in Neighbours(incoming[k])
    // a cell at squared distance 48 or more is never dropped
    ensures forall p :: p in incoming && dist(p) >= 48.0 ==>
      multiset(r.frontier)[p] >= multiset(incoming)[p]
  {
    ExpandPrefix(incoming, holes, draws, dist, solid, |incoming|)
  }

  // ---------------------------------------------------------------------
  // Disjointness of the hole list and the frontier.
  // ---------------------------------------------------------------------

  /** The invariant that keeps one round tidy: every incoming cell occurs at
      most once in the working frontier, no frontier cell is a hole, and the
      hole list has only gained incoming cells. */
  ghost predicate Tidy(incoming: seq<Pos>, holes0: seq<Pos>, st: Growth) {
    && (forall x :: x in incoming ==> multiset(st.frontier)[x] <= 1)
    && Disjoint(st.frontier, st.holes)
    && |holes0| <= |st.holes|
    && (forall i :: |holes0| <= i < |st.holes| ==> st.holes[i] in incoming)
  }

  lemma TidyAfter(incoming: seq<Pos>, holes0: seq<Pos>, st: Growth, e: Pos, extra: seq<Pos>, r: Growth)
    requires e in incoming
    requires Tidy(incoming, holes0, st)
    requires forall p :: p in extra ==> p !in incoming && p !in st.holes
    requires r.frontier == RemoveFirst(st.frontier + extra, e)
    requires r.holes == st.holes || r.holes == st.holes + [e]
    ensures Tidy(incoming, holes0, r)
  {
    RemovalCounts(incoming, st.frontier, extra, e);
    forall p | p in r.frontier ensures p !in r.holes {
      assert p in multiset(r.frontier);
    }
    HolesFromIncoming(incoming, holes0, st.holes, e, r.holes);
  }

  /** Removing `e` from the frontier extended by cells outside `incoming`
      leaves no copy of `e` and at most one copy of each incoming cell, and
      adds no cell from outside the two lists. */
  lemma RemovalCounts(incoming: seq<Pos>, frontier: seq<Pos>, extra: seq<Pos>, e: Pos)
    requires e in incoming
    requires forall x :: x in incoming ==> multiset(frontier)[x] <= 1
    requires forall p :: p in extra ==> p !in incoming
    ensures var f := RemoveFirst(frontier + extra, e);
      && (forall x :: x in incoming ==> multiset(f)[x] <= 1)
      && multiset(f)[e] == 0
      && (forall p :: p in multiset(f) ==> p in frontier || p in extra)
  {
    var whole := frontier + extra;
    assert multiset(whole) == multiset(frontier) + multiset(extra);
    RemoveFirstCount(whole, e);
    forall x | x in incoming ensures multiset(extra)[x] == 0 {
      assert x !in extra;
    }
  }

  lemma HolesFromIncoming(incoming: seq<Pos>, holes0: seq<Pos>, holes: seq<Pos>, e: Pos, next: seq<Pos>)
    requires e in incoming && |holes0| <= |holes|
    requires forall i :: |holes0| <= i < |holes| ==> holes[i] in incoming
    requires next == holes || next == holes + [e]
    ensures forall i :: |holes0| <= i < |next| ==> next[i] in incoming
  {
    forall i | |holes0| <= i < |next| ensures next[i] in incoming {
      if i < |holes| {
        assert next[i] == holes[i];
      }
    }
  }

  lemma StepKeepsTidy(incoming: seq<Pos>, holes0: seq<Pos>, st: Growth, e: Pos, d: CellDraw, dist: real,
                      solid: Pos -> bool)
    requires e in incoming
    requires Tidy(incoming, holes0, st)
    ensures Tidy(incoming, holes0, StepCell(incoming, st, e, d, dist, solid))
  {
    var r := StepCell(incoming, st, e, d, dist, solid);
    var nn := NewNeighbours(e, st.holes, incoming);
    if d.accept as real <= dist || Blocked(e, st.holes, incoming, solid) {
      assert r == st;
    } else if HoleAdjacent(e, st.holes) && |nn| > 0 && d.promote {
      TidyAfter(incoming, holes0, st, e, nn, r);
    } else if HoleAdjacent(e, st.holes) && |nn| > 0 {
      assert r == st;
    } else {
      assert st.frontier + [] == st.frontier;
      TidyAfter(incoming, holes0, st, e, [], r);
    }
  }

  lemma TidyStart(incoming: seq<Pos>, holes: seq<Pos>)
    requires NoDup(incoming) && Disjoint(incoming, holes)
    ensures Tidy(incoming, holes, Growth(incoming, holes))
  {
    forall x | x in incoming ensures multiset(incoming)[x] <= 1 {
      NoDupCount(incoming, x);
    }
  }

  lemma {:induction false} PrefixTidy(incoming: seq<Pos>, holes: seq<Pos>, draws: seq<CellDraw>,
                                      dist: Pos -> real, solid: Pos -> bool, n: nat)
    requires n <= |incoming| == |draws|
    requires forall i :: 0 <= i < |draws| ==> ValidDraw(draws[i])
    requires Tidy(incoming, holes, Growth(incoming, holes))
    ensures Tidy(incoming, holes, ExpandPrefix(incoming, holes, draws, dist, solid, n))
  {
    if n == 0 {
      assert ExpandPrefix(incoming, holes, draws, dist, solid, 0) == Growth(incoming, holes);
    } else {
      PrefixTidy(incoming, holes, draws, dist, solid, n - 1);
      PrefixTidyStep(incoming, holes, draws, dist, solid, n);
    }
  }

  lemma PrefixTidyStep(incoming: seq<Pos>, holes: seq<Pos>, draws: seq<CellDraw>,
                       dist: Pos -> real, solid: Pos -> bool, n: nat)
    requires 0 < n <= |incoming| == |draws|
    requires forall i :: 0 <= i < |draws| ==> ValidDraw(draws[i])
    requires Tidy(incoming, holes, ExpandPrefix(incoming, holes, draws, dist, solid, n - 1))
    ensures Tidy(incoming, holes, ExpandPrefix(incoming, holes, draws, dist, solid, n))
  {
    var prev := ExpandPrefix(incoming, holes, draws, dist, solid, n - 1);
    var e := incoming[n - 1];
    StepKeepsTidy(incoming, holes, prev, e, draws[n - 1], dist(e), solid);
    PrefixUnfold(incoming, holes, draws, dist, solid, n);
  }

  lemma PrefixUnfold(incoming: seq<Pos>, holes: seq<Pos>, draws: seq<CellDraw>,
                     dist: Pos -> real, solid: Pos -> bool, n: nat)
    requires 0 < n <= |incoming| == |draws|
    requires forall i :: 0 <= i < |draws| ==> ValidDraw(draws[i])
    ensures ExpandPrefix(incoming, holes, draws, dist, solid, n)
         == StepCell(incoming, ExpandPrefix(incoming, holes, draws, dist, solid, n - 1), incoming[n - 1],
                     draws[n - 1], dist(incoming[n - 1]), solid)
  {
  }

  /** When the incoming frontier has no duplicates and shares no cell with
      the hole list, the frontier that comes out shares no cell with the hole
      list either. The membership test at line 132 consults the incoming
      frontier only, so two cells can both add the same new neighbour: the
      frontier that comes out may hold duplicates, and then the hypothesis
      fails for the next round. */
  lemma ExpandKeepsDisjoint(incoming: seq<Pos>, holes: seq<Pos>, draws: seq<CellDraw>,
                            dist: Pos -> real, solid: Pos -> bool)
    requires |incoming| == |draws|
    requires forall i :: 0 <= i < |draws| ==> ValidDraw(draws[i])
    requires NoDup(incoming) && Disjoint(incoming, holes)
    ensures var r := ExpandHole(incoming, holes, draws, dist, solid);
      Disjoint(r.frontier, r.holes)
  {
    TidyStart(incoming, holes);
    PrefixTidy(incoming, holes, draws, dist, solid, |incoming|);
  }

  /** The first round starts from the centre and its four distinct
      neighbours, so after it no frontier cell is a hole. */
  lemma FirstRoundDisjoint(c: Pos, draws: seq<CellDraw>, dist: Pos -> real, solid: Pos -> bool)
    requires |draws| == 4
    requires forall i :: 0 <= i < |draws| ==> ValidDraw(draws[i])
    ensures var r := ExpandHole(Neighbours(c), [c], draws, dist, solid);
      Disjoint(r.frontier, r.holes)
  {
    var ns := Neighbours(c);
    assert NoDup(ns);
    ExpandKeepsDisjoint(ns, [c], draws, dist, solid);
  }

  // ---------------------------------------------------------------------
  // The rounds.
  // ---------------------------------------------------------------------

  /** The loop bound draws: test `i` of the loop compares `i` against
      `5 + nextInt(5)`, drawn afresh at every test. At most eleven tests
      happen, since `5 + 4 < 10`. */
  predicate ValidBounds(bounds: seq<int>) {
    |bounds| == 11 && forall i :: 0 <= i < 11 ==> 0 <= bounds[i] <= 4
  }

  /** How many more rounds run once the loop counter reaches `i`. */
  function RoundsFrom(bounds: seq<int>, i: nat): nat
    requires ValidBounds(bounds) && i <= 11
    decreases 11 - i
  {
    if i < 11 && i <= 5 + bounds[i] then 1 + RoundsFrom(bounds, i + 1) else 0
  }

  lemma {:induction false} RoundsFromBounds(bounds: seq<int>, i: nat)
    requires ValidBounds(bounds) && i <= 11
    ensures i <= 10 ==> RoundsFrom(bounds, i) <= 10 - i
    ensures i <= 6 ==> RoundsFrom(bounds, i) >= 6 - i
    decreases 11 - i
  {
    if i < 11 && i <= 5 + bounds[i] {
      RoundsFromBounds(bounds, i + 1);
    }
  }

  /** Because the bound is drawn afresh at every test, the growth loop runs
      between six and ten rounds. */
  lemma RoundCount(bounds: seq<int>)
    requires ValidBounds(bounds)
    ensures 6 <= RoundsFrom(bounds, 0) <= 10
  {
    RoundsFromBounds(bounds, 0);
  }

  /** The draws of round `k` for a frontier of `n` cells. */
  function RoundDraws(cell: (nat, nat) -> CellDraw, k: nat, n: nat): (r: seq<CellDraw>)
    ensures |r| == n
    ensures forall i :: 0 <= i < n ==> r[i] == cell(k, i)
  {
    seq(n, (i: int) requires 0 <= i => cell(k, i))
  }

  /** A round keeps every cell on the level it started on. */
  lemma LevelKept(st: Growth, next: Growth)
    requires st.holes <= next.holes
    requires forall i :: |st.holes| <= i < |next.holes| ==> next.holes[i] in st.frontier
    requires forall p :: p in next.frontier ==>
      p in st.frontier || exists k :: 0 <= k < |st.frontier| && p in Neighbours(st.frontier[k])
    ensures forall y :: AllAt(st.frontier, y) && AllAt(st.holes, y) ==> AllAt(next.frontier, y) && AllAt(next.holes, y)
  {
    forall y | AllAt(st.frontier, y) && AllAt(st.holes, y)
      ensures AllAt(next.frontier, y) && AllAt(next.holes, y)
    {
      forall i | 0 <= i < |next.frontier| ensures next.frontier[i].y == y {
        var p := next.frontier[i];
        if p !in st.frontier {
          var k :| 0 <= k < |st.frontier| && p in Neighbours(st.frontier[k]);
          assert st.frontier[k].y == y;
        }
      }
      forall i | 0 <= i < |next.holes| ensures next.holes[i].y == y {
        if i < |st.holes| {
          assert next.holes[i] == st.holes[i];
        }
      }
    }
  }

  /** Rounds `k` up to `rounds`, each expanding the frontier left by the one
      before. */
  function Grow(st: Growth, k: nat, rounds: nat, cell: (nat, nat) -> CellDraw, dist: Pos -> real,
                solid: Pos -> bool): (r: Growth)
    requires forall k: nat, i: nat :: ValidDraw(cell(k, i))
    ensures st.holes <= r.holes
    ensures forall i :: |st.holes| <= i < |r.holes| ==> dist(r.holes[i]) < 48.0
    ensures forall y :: AllAt(st.frontier, y) && AllAt(st.holes, y) ==> AllAt(r.frontier, y) && AllAt(r.holes, y)
    decreases rounds - k
  {
    if k >= rounds then st
    else
      var next := ExpandHole(st.frontier, st.holes, RoundDraws(cell, k, |st.frontier|), dist, solid);
      LevelKept(st, next);
      Grow(next, k + 1, rounds, cell, dist, solid)
  }
}

=== FILE: lists.dfy ===
/** Value-compared lists with the removal behaviour of a Java array list:
    membership compares by value and removing an element removes only its
    first occurrence. */
module Lists {

  datatype Option<T> = None | Some(value: T)

  /** The index of the first occurrence of `x` in `s`. */
  function FirstIndex<T(==)>(s: seq<T>, x: T): (i: nat)
    requires x in s
    ensures i < |s| && s[i] == x && x !in s[..i]
  {
    if s[0] == x then 0 else 1 + FirstIndex(s[1..], x)
  }

  /** Removes the first occurrence of `x`, if any: one copy of `x` fewer,
      everything else kept in order. */
  function RemoveFirst<T(==)>(s: seq<T>, x: T): (r: seq<T>)
    ensures x !in s ==> r == s
    ensures x in s ==> |r| == |s| - 1
  {
    if x in s then
      var i := FirstIndex(s, x);
      s[..i] + s[i + 1..]
    else
      s
  }

  /** Removal takes away exactly one copy of `x`, when there is one. */
  lemma RemoveFirstCount<T>(s: seq<T>, x: T)
    ensures multiset(RemoveFirst(s, x)) == multiset(s) - multiset{x}
  {
    if x in s {
      var i := FirstIndex(s, x);
      assert s == s[..i] + [x] + s[i + 1..];
    }
  }

  /** Removes every occurrence of `x`, keeping everything else in order. */
  function RemoveAll<T(==)>(s: seq<T>, x: T): seq<T> {
    if |s| == 0 then []
    else if s[0] == x then RemoveAll(s[1..], x) else [s[0]] + RemoveAll(s[1..], x)
  }

  /** What removing every copy keeps: all other elements, with their
      multiplicity, and nothing of `x`. */
  lemma {:induction false} RemoveAllCounts<T(!new)>(s: seq<T>, x: T)
    ensures x !in s ==> RemoveAll(s, x) == s
    ensures forall y :: y in RemoveAll(s, x) <==> y in s && y != x
    ensures forall y :: y != x ==> multiset(RemoveAll(s, x))[y] == multiset(s)[y]
    ensures multiset(RemoveAll(s, x))[x] == 0
  {
    if |s| > 0 {
      RemoveAllCounts(s[1..], x);
      assert s == [s[0]] + s[1..];
    }
  }

  /** On a list without duplicates the two removals agree, and the result
      still has no duplicates. */
  lemma {:induction false} RemovalsAgree<T(!new)>(s: seq<T>, x: T)
    requires NoDup(s)
    ensures RemoveAll(s, x) == RemoveFirst(s, x)
    ensures NoDup(RemoveFirst(s, x))
  {
    if |s| > 0 {
      var t := s[1..];
      assert NoDup(t) by {
        forall i, j | 0 <= i < j < |t| ensures t[i] != t[j] {
          assert t[i] == s[i + 1] && t[j] == s[j + 1];
        }
      }
      assert s[0] !in t by {
        forall k | 0 <= k < |t| ensures t[k] != s[0] {
          assert t[k] == s[k + 1];
        }
      }
      RemovalsAgree(t, x);
      RemoveAllCounts(t, x);
      if s[0] == x {
        assert FirstIndex(s, x) == 0;
      } else {
        RemoveFirstCons(s[0], t, x);
        assert s == [s[0]] + t;
        NoDupCons(s[0], RemoveFirst(t, x));
      }
    }
  }

  /** Removal skips a head that is not the element removed. */
  lemma RemoveFirstCons<T>(h: T, t: seq<T>, x: T)
    requires h != x
    ensures RemoveFirst([h] + t, x) == [h] + RemoveFirst(t, x)
  {
    var s := [h] + t;
    if x in t {
      var i := FirstIndex(t, x);
      assert s[i + 1] == x && x !in s[..i + 1];
      assert FirstIndex(s, x) == i + 1;
      assert s[..i + 1] == [h] + t[..i];
      assert s[i + 2..] == t[i + 1..];
    }
  }

  lemma NoDupCons<T>(h: T, t: seq<T>)
    requires NoDup(t) && h !in t
    ensures NoDup([h] + t)
  {
    var s := [h] + t;
    forall i, j | 0 <= i < j < |s| ensures s[i] != s[j] {
      assert s[j] == t[j - 1];
      if i > 0 {
        assert s[i] == t[i - 1];
      }
    }
  }

  /** No element occurs twice. */
  predicate NoDup<T(==)>(s: seq<T>) {
    forall i, j :: 0 <= i < j < |s| ==> s[i] != s[j]
  }

  /** No element occurs in both lists. */
  predicate Disjoint<T(==)>(a: seq<T>, b: seq<T>) {
    forall x :: x in a ==> x !in b
  }

  lemma NoDupCount<T>(s: seq<T>, x: T)
    requires NoDup(s)
    ensures multiset(s)[x] <= 1
  {
    if |s| > 0 {
      assert s == [s[0]] + s[1..];
      assert NoDup(s[1..]) by {
        forall i, j | 0 <= i < j < |s[1..]| ensures s[1..][i] != s[1..][j] {
          assert s[1..][i] == s[i + 1] && s[1..][j] == s[j + 1];
        }
      }
      NoDupCount(s[1..], x);
      if s[0] == x {
        assert x !in s[1..] by {
          forall k | 0 <= k < |s[1..]| ensures s[1..][k] != x {
            assert s[1..][k] == s[k + 1];
          }
        }
      }
    }
  }

  /** A source of `nextInt(n)` draws: for every positive bound `n`, a value
      in `[0, n)`. */
  ghost predicate Picker(pick: nat -> nat) {
    forall n: nat :: 0 < n ==> pick(n) < n
  }
}

=== FILE: outline.dfy ===
/** Deriving the outline once growth has stopped.

    Around every final frontier ("edge") cell the pass visits eight cells:
    each orthogonal neighbour and, from there, one step further after a
    clockwise quarter turn. A visited cell that is neither an edge cell nor
    a hole cell joins the outline list (as often as it is visited). Below
    each edge cell the pass may clear the block to air, making a drop-off. */
module Outline {
  import opened Positions
  import opened Terrain

  /** The eight cells visited around `e`, in visiting order. */
  function Ring(e: Pos): seq<Pos> {
    [Offset(e, North), Diagonal(e, North), Offset(e, East), Diagonal(e, East),
     Offset(e, South), Diagonal(e, South), Offset(e, West), Diagonal(e, West)]
  }

  lemma RingMembers(e: Pos, q: Pos)
    ensures q in Ring(e) <==> InRing(e, q)
  {
    if InRing(e, q) {
      var d: Dir :| q == Offset(e, d) || q == Diagonal(e, d);
      match d
      case North => assert q == Ring(e)[0] || q == Ring(e)[1];
      case East => assert q == Ring(e)[2] || q == Ring(e)[3];
      case South => assert q == Ring(e)[4] || q == Ring(e)[5];
      case West => assert q == Ring(e)[6] || q == Ring(e)[7];
    }
    if q in Ring(e) {
      var i :| 0 <= i < 8 && Ring(e)[i] == q;
      if i < 2 { assert q == Offset(e, North) || q == Diagonal(e, North); }
      else if i < 4 { assert q == Offset(e, East) || q == Diagonal(e, East); }
      else if i < 6 { assert q == Offset(e, South) || q == Diagonal(e, South); }
      else { assert q == Offset(e, West) || q == Diagonal(e, West); }
    }
  }

  /** The cells of `ns` that are neither edge nor hole cells, in order. */
  function Unclaimed(ns: seq<Pos>, edges: seq<Pos>, holes: seq<Pos>): (r: seq<Pos>)
    ensures forall p :: p in r <==> p in ns && p !in edges && p !in holes
  {
    if |ns| == 0 then []
    else (if ns[0] !in edges && ns[0] !in holes then [ns[0]] else []) + Unclaimed(ns[1..], edges, holes)
  }

  /** The outline list and the drop-off writes. */
  datatype EdgeResult = EdgeResult(outline: seq<Pos>, writes: seq<Event>)

  /** `outline` holds exactly the unclaimed ring cells of the first `n` edge
      cells: each of its cells is one, and each one is in it. */
  ghost predicate OutlineOf(edges: seq<Pos>, holes: seq<Pos>, n: nat, outline: seq<Pos>)
    requires n <= |edges|
  {
    && (forall o :: o in outline ==>
          o !in edges && o !in holes && exists k :: 0 <= k < n && InRing(edges[k], o))
    && (forall k, o :: 0 <= k < n && InRing(edges[k], o) && o !in edges && o !in holes ==>
          o in outline)
  }

  /** `writes` clears to air exactly the cells below those of the first `n`
      edge cells whose drop-off draw succeeded. */
  ghost predicate DropsOf(edges: seq<Pos>, drop: seq<bool>, n: nat, writes: seq<Event>)
    requires n <= |edges| == |drop|
  {
    && (forall i :: 0 <= i < |writes| ==>
          writes[i].SetBlock? && writes[i].block == Air &&
          exists k :: 0 <= k < n && drop[k] && writes[i].at == Down(edges[k]))
    && (forall k :: 0 <= k < n && drop[k] ==> SetBlock(Down(edges[k]), Air) in writes)
  }

  /** The pass over the first `n` edge cells; `drop[k]` is the outcome of the
      `nextFloat() < 0.6` test for edge cell `k`. */
  function ProcessPrefix(edges: seq<Pos>, holes: seq<Pos>, drop: seq<bool>, n: nat): (r: EdgeResult)
    requires n <= |edges| == |drop|
    ensures OutlineOf(edges, holes, n, r.outline)
    ensures DropsOf(edges, drop, n, r.writes)
  {
    if n == 0 then EdgeResult([], [])
    else
      var prev := ProcessPrefix(edges, holes, drop, n - 1);
      var e := edges[n - 1];
      var around := Unclaimed(Ring(e), edges, holes);
      var extra := if drop[n - 1] then [SetBlock(Down(e), Air)] else [];
      OutlineStep(edges, holes, n, prev.outline, around);
      DropStep(edges, drop, n, prev.writes, extra);
      EdgeResult(prev.outline + around, prev.writes + extra)
  }

  /** Adding the unclaimed ring cells of edge cell `n - 1` extends the
      outline of the first `n - 1` edge cells to the first `n`. */
  lemma OutlineStep(edges: seq<Pos>, holes: seq<Pos>, n: nat, outline: seq<Pos>, around: seq<Pos>)
    requires 0 < n <= |edges|
    requires OutlineOf(edges, holes, n - 1, outline)
    requires around == Unclaimed(Ring(edges[n - 1]), edges, holes)
    ensures OutlineOf(edges, holes, n, outline + around)
  {
    var e := edges[n - 1];
    forall o ensures o in around <==> InRing(e, o) && o !in edges && o !in holes {
      RingMembers(e, o);
    }
  }

  /** Adding the drop-off of edge cell `n - 1`, if its draw succeeded,
      extends the drop-offs of the first `n - 1` edge cells to the first `n`. */
  lemma DropStep(edges: seq<Pos>, drop: seq<bool>, n: nat, writes: seq<Event>, extra: seq<Event>)
    requires 0 < n <= |edges| == |drop|
    requires DropsOf(edges, drop, n - 1, writes)
    requires extra == if drop[n - 1] then [SetBlock(Down(edges[n - 1]), Air)] else []
    ensures DropsOf(edges, drop, n, writes + extra)
  {
    var w := writes + extra;
    forall i | 0 <= i < |w|
      ensures w[i].SetBlock? && w[i].block == Air && exists k :: 0 <= k < n && drop[k] && w[i].at == Down(edges[k])
    {
      if i < |writes| {
        assert w[i] == writes[i];
      } else {
        assert w[i] == SetBlock(Down(edges[n - 1]), Air);
      }
    }
  }

  /** The whole outline pass. */
  function ProcessEdges(edges: seq<Pos>, holes: seq<Pos>, drop: seq<bool>): (r: EdgeResult)
    requires |edges| == |drop|
    // every outline cell is a ring cell of some edge cell, and neither an
    // edge cell nor a hole cell
    ensures forall o :: o in r.outline ==>
      o !in edges && o !in holes && exists k :: 0 <= k < |edges| && InRing(edges[k], o)
    // every such ring cell is in the outline
    ensures forall k, o :: 0 <= k < |edges| && InRing(edges[k], o) && o !in edges && o !in holes ==>
      o in r.outline
    // the only writes are air below edge cells whose drop-off draw succeeded,
    // and each of those happens
    ensures forall i :: 0 <= i < |r.writes| ==>
      r.writes[i].SetBlock? && r.writes[i].block == Air &&
      exists k :: 0 <= k < |edges| && drop[k] && r.writes[i].at == Down(edges[k])
    ensures forall k :: 0 <= k < |edges| && drop[k] ==> SetBlock(Down(edges[k]), Air) in r.writes
  {
    var r := ProcessPrefix(edges, holes, drop, |edges|);
    WholeOutline(edges, holes, r.outline);
    WholeDrops(edges, drop, r.writes);
    r
  }

  lemma WholeOutline(edges: seq<Pos>, holes: seq<Pos>, outline: seq<Pos>)
    requires OutlineOf(edges, holes, |edges|, outline)
    ensures forall o :: o in outline ==>
      o !in edges && o !in holes && exists k :: 0 <= k < |edges| && InRing(edges[k], o)
    ensures forall k, o :: 0 <= k < |edges| && InRing(edges[k], o) && o !in edges && o !in holes ==>
      o in outline
  {
  }

  lemma WholeDrops(edges: seq<Pos>, drop: seq<bool>, writes: seq<Event>)
    requires |edges| == |drop|
    requires DropsOf(edges, drop, |edges|, writes)
    ensures forall i :: 0 <= i < |writes| ==>
      writes[i].SetBlock? && writes[i].block == Air &&
      exists k :: 0 <= k < |edges| && drop[k] && writes[i].at == Down(edges[k])
    ensures forall k :: 0 <= k < |edges| && drop[k] ==> SetBlock(Down(edges[k]), Air) in writes
  {
    forall i | 0 <= i < |writes|
      ensures writes[i].SetBlock? && writes[i].block == Air &&
        exists k :: 0 <= k < |edges| && drop[k] && writes[i].at == Down(edges[k])
    {
      var k :| 0 <= k < |edges| && drop[k] && writes[i].at == Down(edges[k]);
    }
  }
}

=== FILE: positions.dfy ===
/** Block positions and the four horizontal directions the enclosure
    generator walks in. Positions are values: two positions are equal
    exactly when their coordinates are. */
module Positions {

  datatype Pos = Pos(x: int, y: int, z: int)

  /** The horizontal directions, in the order the generator scans them. */
  datatype Dir = North | East | South | West

  /** The scan order as a list. */
  const Horizontal: seq<Dir> := [North, East, South, West]

  /** The neighbouring position one step in direction `d`; north is -z and
      east is +x. */
  function Offset(p: Pos, d: Dir): (q: Pos)
    ensures q.y == p.y
    ensures q != p
    // one unit along exactly one horizontal axis
    ensures -1 <= q.x - p.x <= 1 && -1 <= q.z - p.z <= 1 && (q.x == p.x || q.z == p.z)
  {
    match d
    case North => Pos(p.x, p.y, p.z - 1)
    case East => Pos(p.x + 1, p.y, p.z)
    case South => Pos(p.x, p.y, p.z + 1)
    case West => Pos(p.x - 1, p.y, p.z)
  }

  /** The position directly below. */
  function Down(p: Pos): Pos {
    Pos(p.x, p.y - 1, p.z)
  }

  /** A clockwise quarter turn seen from above. */
  function RotateY(d: Dir): Dir {
    match d
    case North => East
    case East => South
    case South => West
    case West => North
  }

  /** The diagonal neighbour reached by stepping in `d` and then in the
      direction a quarter turn clockwise from `d`. */
  function Diagonal(p: Pos, d: Dir): Pos {
    Offset(Offset(p, d), RotateY(d))
  }

  /** The four orthogonal neighbours in scan order. */
  function Neighbours(p: Pos): seq<Pos> {
    [Offset(p, North), Offset(p, East), Offset(p, South), Offset(p, West)]
  }

  /** `q` is one step from `p` in some horizontal direction. */
  predicate Adjacent(p: Pos, q: Pos) {
    exists d: Dir :: q == Offset(p, d)
  }

  /** `q` is one of the eight cells the outline pass visits around `p`:
      an orthogonal neighbour, or an orthogonal neighbour stepped once more
      after a clockwise quarter turn. */
  predicate InRing(p: Pos, q: Pos) {
    exists d: Dir :: q == Offset(p, d) || q == Diagonal(p, d)
  }

  /** The cells on the same level whose x and z each differ by at most one. */
  predicate Moore(p: Pos, q: Pos) {
    q.y == p.y && -1 <= q.x - p.x <= 1 && -1 <= q.z - p.z <= 1 && q != p
  }

  lemma NeighboursAreAdjacent(p: Pos, q: Pos)
    ensures q in Neighbours(p) <==> Adjacent(p, q)
  {
    if Adjacent(p, q) {
      var d: Dir :| q == Offset(p, d);
      match d
      case North => assert q == Neighbours(p)[0];
      case East => assert q == Neighbours(p)[1];
      case South => assert q == Neighbours(p)[2];
      case West => assert q == Neighbours(p)[3];
    }
    if q in Neighbours(p) {
      var i :| 0 <= i < 4 && Neighbours(p)[i] == q;
      if i == 0 { assert q == Offset(p, North); }
      else if i == 1 { assert q == Offset(p, East); }
      else if i == 2 { assert q == Offset(p, South); }
      else { assert q == Offset(p, West); }
    }
  }

  /** Orthogonal steps and "step then turn clockwise" diagonals cover the
      eight horizontal neighbours exactly. */
  lemma RingIsMooreNeighbourhood(p: Pos, q: Pos)
    ensures InRing(p, q) <==> Moore(p, q)
  {
    if Moore(p, q) {
      var dx, dz := q.x - p.x, q.z - p.z;
      if dx == 0 && dz == -1 { assert q == Offset(p, North); }
      else if dx == 1 && dz == 0 { assert q == Offset(p, East); }
      else if dx == 0 && dz == 1 { assert q == Offset(p, South); }
      else if dx == -1 && dz == 0 { assert q == Offset(p, West); }
      else if dx == 1 && dz == -1 { assert q == Diagonal(p, North); }
      else if dx == 1 && dz == 1 { assert q == Diagonal(p, East); }
      else if dx == -1 && dz == 1 { assert q == Diagonal(p, South); }
      else { assert q == Diagonal(p, West); }
    }
  }

  lemma AdjacentSymmetric(p: Pos, q: Pos)
    requires Adjacent(p, q)
    ensures Adjacent(q, p)
  {
    var d: Dir :| q == Offset(p, d);
    match d
    case North => assert p == Offset(q, South);
    case East => assert p == Offset(q, West);
    case South => assert p == Offset(q, North);
    case West => assert p == Offset(q, East);
  }
}

=== FILE: rune_prison.dfy ===
/** The rune prison: the short-lived entity a runed gloomy tile summons. It
    counts down to its removal, slows the entities inside it that the tile
    would trigger for, animates its runes on the client, and on removal
    turns the runed tile it belongs to back into plain gloomy tiles. */
module RunePrison {
  import opened Positions
  import opened Lists
  import opened RunedTiles

  /** The animation frame and its direction. */
  datatype Frames = Frames(frame: int, backwards: bool)

  /** The entity's fields: the countdown, the tile it belongs to, the
      animation, and whether it has been removed from the world. */
  datatype Prison = Prison(ticksTillRemove: int, blockPos: Option<Pos>, frames: Frames, removed: bool)

  const Start: Frames := Frames(0, false)

  /** A prison made by the engine from saved data: no tile and no time left
      until its fields are loaded. */
  const Default: Prison := Prison(0, None, Start, false)

  /** A prison bound to the tile at `pos` with `ticks` to live. */
  function Create(pos: Pos, ticks: int): (p: Prison)
    ensures p.blockPos == Some(pos) && p.ticksTillRemove == ticks
    ensures p.frames == Start && !p.removed
  {
    Prison(ticks, Some(pos), Start, false)
  }

  /** One animation step: up to frame 4, then back down to 0. */
  function Animate(f: Frames): (r: Frames)
    requires FrameInv(f)
    ensures FrameInv(r)
    ensures r.frame == f.frame + 1 || r.frame == f.frame - 1
  {
    if !f.backwards then
      var n := f.frame + 1;
      Frames(n, n == 4)
    else
      var n := f.frame - 1;
      Frames(n, n != 0)
  }

  /** Frames stay in 0 to 4; running backwards they stay in 1 to 4, and
      forwards in 0 to 3. */
  predicate FrameInv(f: Frames) {
    if f.backwards then 1 <= f.frame <= 4 else 0 <= f.frame <= 3
  }

  /** The frames after `k` animation steps. */
  function AnimateN(f: Frames, k: nat): (r: Frames)
    requires FrameInv(f)
    ensures FrameInv(r) && 0 <= r.frame <= 4
  {
    if k == 0 then f else Animate(AnimateN(f, k - 1))
  }

  /** The frames `k` steps after the start, read off the cycle
      0, 1, 2, 3, 4, 3, 2, 1 directly. */
  function FramesAt(k: nat): Frames {
    var m := k % 8;
    Frames(if m <= 4 then m else 8 - m, m >= 4)
  }

  lemma AnimateFramesAt(k: nat)
    ensures FrameInv(FramesAt(k)) && Animate(FramesAt(k)) == FramesAt(k + 1)
  {
    var m := k % 8;
    assert (k + 1) % 8 == if m == 7 then 0 else m + 1;
  }

  /** The animation is the ping-pong cycle 0, 1, 2, 3, 4, 3, 2, 1, 0, ... */
  lemma PingPong(k: nat)
    ensures FrameInv(Start) && AnimateN(Start, k) == FramesAt(k)
  {
    assert FramesAt(0) == Start;
    PeriodStep(Start, 0, k);
  }

  /** Every reachable animation state comes back after eight steps. */
  lemma Period(f: Frames)
    requires FrameInv(f)
    ensures AnimateN(f, 8) == f
  {
    var k: nat := if f.backwards then 8 - f.frame else f.frame;
    assert FramesAt(k) == f;
    forall j: nat | j <= 8 ensures AnimateN(f, j) == FramesAt(k + j) {
      PeriodStep(f, k, j);
    }
    assert (k + 8) % 8 == k % 8;
  }

  lemma {:induction false} PeriodStep(f: Frames, k: nat, j: nat)
    requires FrameInv(f) && FramesAt(k) == f
    ensures AnimateN(f, j) == FramesAt(k + j)
  {
    if j > 0 {
      PeriodStep(f, k, j - 1);
      AnimateFramesAt(k + j - 1);
    }
  }

  /** A living entity inside the prison's box. */
  datatype Victim = Victim(desc: EntityDesc, affectedByPotions: bool)

  /** What a prison tick does to the world. `Weight` is the weight effect
      for 20 ticks at amplifier 2 on the victim with that index. */
  datatype PrisonEvent =
    | Weight(victim: nat, duration: int, amplifier: int)
    | Removed
    | ResetTile(at: Pos)

  /** The weight effects on the victims from index `from` on. */
  function Weights(victims: seq<Victim>, from: nat): (r: seq<PrisonEvent>)
    requires from <= |victims|
    ensures forall ev :: ev in r ==> ev.Weight? && ev.duration == 20 && ev.amplifier == 2
    ensures forall i :: from <= i < |victims| ==>
      (Weight(i, 20, 2) in r <==> victims[i].affectedByPotions && ShouldTrigger(victims[i].desc))
    ensures forall ev :: ev in r ==> from <= ev.victim < |victims|
    decreases |victims| - from
  {
    if from == |victims| then []
    else
      var v := victims[from];
      (if v.affectedByPotions && ShouldTrigger(v.desc) then [Weight(from, 20, 2)] else [])
        + Weights(victims, from + 1)
  }

  /** The prison after a tick, and what the tick did. */
  datatype TickResult = TickResult(prison: Prison, events: seq<PrisonEvent>)

  /** One tick. `clientSide` is whether this copy runs on the client,
      `victims` the living entities in the box, and `runedAt` whether the
      block at a position is still a runed gloomy tile. */
  function Tick(p: Prison, clientSide: bool, victims: seq<Victim>, runedAt: Pos -> bool): (r: TickResult)
    requires FrameInv(p.frames)
    // the countdown drops by one while positive and otherwise stays put
    ensures r.prison.ticksTillRemove == if p.ticksTillRemove > 0 then p.ticksTillRemove - 1 else p.ticksTillRemove
    ensures r.prison.blockPos == p.blockPos
    // the runes move one frame on client ticks whose countdown is a
    // multiple of five, and only then
    ensures clientSide && p.ticksTillRemove % 5 == 0 ==> r.prison.frames == Animate(p.frames)
    ensures !(clientSide && p.ticksTillRemove % 5 == 0) ==> r.prison.frames == p.frames
    ensures FrameInv(r.prison.frames)
    // removal happens exactly when the countdown reads zero after the tick
    ensures Removed in r.events <==> r.prison.ticksTillRemove == 0
    ensures r.prison.removed <==> p.removed || r.prison.ticksTillRemove == 0
    // and resets the bound tile if it is still runed
    ensures forall q :: ResetTile(q) in r.events <==>
      r.prison.ticksTillRemove == 0 && p.blockPos == Some(q) && runedAt(q)
    // every victim the tile would trigger for and that potions affect is
    // weighed down
    ensures forall i :: 0 <= i < |victims| ==>
      (Weight(i, 20, 2) in r.events <==> victims[i].affectedByPotions && ShouldTrigger(victims[i].desc))
  {
    var frames := if clientSide && p.ticksTillRemove % 5 == 0 then Animate(p.frames) else p.frames;
    var ticks := if p.ticksTillRemove > 0 then p.ticksTillRemove - 1 else p.ticksTillRemove;
    var weights := Weights(victims, 0);
    if ticks == 0 then
      var reset := if p.blockPos.Some? && runedAt(p.blockPos.value) then [ResetTile(p.blockPos.value)] else [];
      TickResult(Prison(ticks, p.blockPos, frames, true), weights + [Removed] + reset)
    else
      TickResult(Prison(ticks, p.blockPos, frames, p.removed), weights)
  }

  /** The inputs of one tick. */
  datatype TickInput = TickInput(clientSide: bool, victims: seq<Victim>, runedAt: Pos -> bool)

  /** The prison after a sequence of ticks. Once removed it is out of the
      world, so later ticks leave it as it is. */
  function Run(p: Prison, ins: seq<TickInput>): (r: Prison)
    requires FrameInv(p.frames)
    ensures FrameInv(r.frames) && r.blockPos == p.blockPos
    // a removed prison has left the world and is never ticked again
    ensures p.removed ==> r == p
  {
    if |ins| == 0 then p
    else
      var prev := Run(p, ins[..|ins| - 1]);
      var last := ins[|ins| - 1];
      if prev.removed then prev else Tick(prev, last.clientSide, last.victims, last.runedAt).prison
  }

  /** A prison with `t` ticks to live is still there after fewer than `t`
      ticks, with the countdown down by one per tick. */
  lemma {:induction false} Countdown(p: Prison, ins: seq<TickInput>)
    requires FrameInv(p.frames) && !p.removed && |ins| < p.ticksTillRemove
    ensures Run(p, ins).ticksTillRemove == p.ticksTillRemove - |ins|
    ensures !Run(p, ins).removed
  {
    if |ins| > 0 {
      Countdown(p, ins[..|ins| - 1]);
    }
  }

  /** A prison whose countdown starts negative, as loaded data may have it,
      is never removed. */
  lemma {:induction false} NegativeNeverRemoved(p: Prison, ins: seq<TickInput>)
    requires FrameInv(p.frames) && !p.removed && p.ticksTillRemove < 0
    ensures Run(p, ins).ticksTillRemove == p.ticksTillRemove && !Run(p, ins).removed
  {
    if |ins| > 0 {
      NegativeNeverRemoved(p, ins[..|ins| - 1]);
    }
  }

  /** The prison a trap spawns lives exactly 25 ticks: it is there for the
      first 24, and the 25th removes it and restores the tile if that is
      still runed. */
  lemma TrapPrisonLifetime(pos: Pos, e: EntityDesc, fangs: bool, ins: seq<TickInput>, last: TickInput)
    requires ShouldTrigger(e) && |ins| == PrisonTicks - 1
    ensures var evs := StepOn(false, pos, e, fangs).events;
      var spawned := evs[|evs| - 1];
      var p := Create(spawned.tile, spawned.ticksTillRemove);
      var before := Run(p, ins);
      var r := Tick(before, last.clientSide, last.victims, last.runedAt);
      && !before.removed
      && r.prison.removed && Removed in r.events
      && (ResetTile(pos) in r.events <==> last.runedAt(pos))
  {
    var p := Create(pos, PrisonTicks);
    Countdown(p, ins);
  }

  /** Saved data: a compound of named tags. A `PosTag` stands for the
      compound of three coordinates the engine writes for a block
      position. */
  datatype Tag = IntTag(i: int) | PosTag(pos: Pos) | OtherTag
  type Compound = map<string, Tag>

  const TicksKey: string := "TicksTillRemove"
  const PositionKey: string := "GloomyTilePosition"

  /** The engine's integer read: the stored integer, or 0 when the key is
      missing or holds something else. */
  function GetInt(c: Compound, key: string): (r: int)
    ensures key in c && c[key].IntTag? ==> r == c[key].i
    ensures !(key in c && c[key].IntTag?) ==> r == 0
  {
    if key in c && c[key].IntTag? then c[key].i else 0
  }

  /** Writing the prison's fields into `c`: the countdown always, the tile
      only when there is one. */
  function Save(p: Prison, c: Compound): (r: Compound)
    ensures TicksKey in r && r[TicksKey] == IntTag(p.ticksTillRemove)
    ensures p.blockPos.Some? ==> PositionKey in r && r[PositionKey] == PosTag(p.blockPos.value)
    ensures p.blockPos.None? ==> (PositionKey in r <==> PositionKey in c)
    ensures forall k :: k in c && k != TicksKey && k != PositionKey ==> k in r && r[k] == c[k]
    ensures forall k :: k in r ==> k in c || k == TicksKey || k == PositionKey
  {
    var c1 := c[TicksKey := IntTag(p.ticksTillRemove)];
    if p.blockPos.Some? then c1[PositionKey := PosTag(p.blockPos.value)] else c1
  }

  /** Reading the prison's fields from `c`. A missing countdown reads as 0;
      a missing tile leaves the current one in place. */
  function Load(p: Prison, c: Compound): (r: Prison)
    ensures r.ticksTillRemove == GetInt(c, TicksKey)
    ensures PositionKey in c && c[PositionKey].PosTag? ==> r.blockPos == Some(c[PositionKey].pos)
    ensures !(PositionKey in c && c[PositionKey].PosTag?) ==> r.blockPos == p.blockPos
    ensures r.frames == p.frames && r.removed == p.removed
  {
    var withTicks := p.(ticksTillRemove := GetInt(c, TicksKey));
    if PositionKey in c && c[PositionKey].PosTag? then withTicks.(blockPos := Some(c[PositionKey].pos))
    else withTicks
  }

  /** Saving and loading into a fresh prison restores the countdown and the
      tile, provided the compound held no stale tile of its own. */
  lemma SaveLoad(p: Prison, c: Compound)
    requires PositionKey !in c
    ensures var q := Load(Default, Save(p, c));
      q.ticksTillRemove == p.ticksTillRemove && q.blockPos == p.blockPos
  {
  }

  /** Saving what was loaded writes back the same countdown and tile. */
  lemma LoadSave(c: Compound)
    requires TicksKey in c && c[TicksKey].IntTag?
    requires PositionKey in c ==> c[PositionKey].PosTag?
    ensures Save(Load(Default, c), c) == c
  {
    var r := Save(Load(Default, c), c);
    assert forall k :: k in r <==> k in c;
  }
}

=== FILE: runed_tiles.dfy ===
/** The runed gloomy tile: a floor trap that, when an entity it cares about
    steps on it, powers itself and summons a rune prison above itself,
    with evoker fangs when they can be created. Illagers and their allies
    pass safely. */
module RunedTiles {
  import opened Positions
  import opened Lists

  /** The owner of a tamed or summoned mob, by whether it is a raider. */
  datatype Owner = Owner(raider: bool)

  /** What the trap looks at in an entity. The kinds are independent flags
      because the trap tests them in a fixed order. */
  datatype EntityDesc = EntityDesc(
    living: bool,
    raider: bool,          // its type is tagged as a raider
    player: bool,
    creative: bool,
    spectator: bool,
    ownable: bool,         // it is a mob that may have an owner
    owner: Option<Owner>,  // its owner, when it has one
    armorStand: bool)

  /** Whether an entity springs the trap: a living non-raider that is a
      player in survival or adventure mode, an owned mob whose owner is no
      raider, or any other mob except an armour stand. */
  predicate ShouldTrigger(e: EntityDesc) {
    if !e.living || e.raider then false
    else if e.player then !e.creative && !e.spectator
    else if e.ownable then e.owner.None? || !e.owner.value.raider
    else !e.armorStand
  }

  /** The trap's rules, one per kind of entity, in the order they apply. */
  lemma TriggerRules(e: EntityDesc)
    // non-living entities and raiders never trigger
    ensures !e.living || e.raider ==> !ShouldTrigger(e)
    // players trigger exactly outside creative and spectator mode, whether
    // or not they would count as ownable
    ensures e.living && !e.raider && e.player ==> (ShouldTrigger(e) <==> !e.creative && !e.spectator)
    // ownable mobs trigger exactly when no raider owns them
    ensures e.living && !e.raider && !e.player && e.ownable ==>
      (ShouldTrigger(e) <==> e.owner.None? || !e.owner.value.raider)
    // any other living non-raider triggers unless it is an armour stand
    ensures e.living && !e.raider && !e.player && !e.ownable ==> (ShouldTrigger(e) <==> !e.armorStand)
  {
  }

  /** What stepping on the tile does to the world. Fangs and the prison
      appear centred one block above the tile. */
  datatype TileEvent =
    | SetPowered(at: Pos)
    | ActivationSound(at: Pos)
    | SpawnFangs(above: Pos)
    | SpawnPrison(tile: Pos, ticksTillRemove: int)

  /** The ticks a prison made by the trap lasts. */
  const PrisonTicks: int := 25

  /** The tile's powered flag after a step, and the events of the step. */
  datatype StepResult = StepResult(powered: bool, events: seq<TileEvent>)

  /** An entity steps on the tile at `pos`. `fangsCreated` is whether the
      engine could create the fangs entity. */
  function StepOn(powered: bool, pos: Pos, e: EntityDesc, fangsCreated: bool): (r: StepResult)
    // nothing happens on a powered tile or for an entity that does not
    // trigger it
    ensures powered || !ShouldTrigger(e) ==> r == StepResult(powered, [])
    // otherwise the tile becomes powered and exactly one prison, bound to
    // this tile and lasting 25 ticks, is spawned
    ensures !powered && ShouldTrigger(e) ==>
      && r.powered
      && SetPowered(pos) in r.events
      && PrisonCount(r.events) == 1
      && r.events[|r.events| - 1] == SpawnPrison(pos, PrisonTicks)
      && (SpawnFangs(pos) in r.events <==> fangsCreated)
  {
    if !powered && ShouldTrigger(e) then
      var fangs := if fangsCreated then [SpawnFangs(pos)] else [];
      var evs := [SetPowered(pos), ActivationSound(pos)] + fangs + [SpawnPrison(pos, PrisonTicks)];
      var before := [SetPowered(pos), ActivationSound(pos)] + fangs;
      NoPrison(before);
      PrisonCountAppend(before, [SpawnPrison(pos, PrisonTicks)]);
      StepResult(true, evs)
    else StepResult(powered, [])
  }

  /** The number of prisons spawned by `evs`. */
  function PrisonCount(evs: seq<TileEvent>): nat {
    if |evs| == 0 then 0
    else PrisonCount(evs[..|evs| - 1]) + (if evs[|evs| - 1].SpawnPrison? then 1 else 0)
  }

  lemma {:induction false} NoPrison(evs: seq<TileEvent>)
    requires forall i :: 0 <= i < |evs| ==> !evs[i].SpawnPrison?
    ensures PrisonCount(evs) == 0
  {
    if |evs| > 0 {
      NoPrison(evs[..|evs| - 1]);
    }
  }

  lemma {:induction false} PrisonCountAppend(a: seq<TileEvent>, b: seq<TileEvent>)
    ensures PrisonCount(a + b) == PrisonCount(a) + PrisonCount(b)
    decreases |b|
  {
    if |b| == 0 {
      assert a + b == a;
    } else {
      assert (a + b)[..|a + b| - 1] == a + b[..|b| - 1];
      PrisonCountAppend(a, b[..|b| - 1]);
    }
  }

  /** Several entities step on the tile in turn. */
  function Steps(powered: bool, pos: Pos, es: seq<EntityDesc>, fangs: seq<bool>): (r: StepResult)
    requires |fangs| == |es|
    ensures powered ==> r.powered
  {
    if |es| == 0 then StepResult(powered, [])
    else
      var prev := Steps(powered, pos, es[..|es| - 1], fangs[..|es| - 1]);
      var step := StepOn(prev.powered, pos, es[|es| - 1], fangs[|es| - 1]);
      StepResult(step.powered, prev.events + step.events)
  }

  /** The trap is one-shot: however many entities step on it, at most one
      prison appears, and one does exactly when the tile started unpowered
      and some entity triggers it. */
  lemma {:induction false} OneShot(powered: bool, pos: Pos, es: seq<EntityDesc>, fangs: seq<bool>)
    requires |fangs| == |es|
    ensures var r := Steps(powered, pos, es, fangs);
      && PrisonCount(r.events) <= 1
      && (PrisonCount(r.events) == 1 <==> !powered && exists i :: 0 <= i < |es| && ShouldTrigger(es[i]))
      && (r.powered <==> PrisonCount(r.events) == 1 || powered)
  {
    if |es| > 0 {
      var init := es[..|es| - 1];
      OneShot(powered, pos, init, fangs[..|es| - 1]);
      var prev := Steps(powered, pos, init, fangs[..|es| - 1]);
      var step := StepOn(prev.powered, pos, es[|es| - 1], fangs[|es| - 1]);
      PrisonCountAppend(prev.events, step.events);
      if exists i :: 0 <= i < |init| && ShouldTrigger(init[i]) {
        var i :| 0 <= i < |init| && ShouldTrigger(init[i]);
        assert es[i] == init[i];
      }
      if exists i :: 0 <= i < |es| && ShouldTrigger(es[i]) {
        var i :| 0 <= i < |es| && ShouldTrigger(es[i]);
        if i < |init| {
          assert init[i] == es[i];
        }
      }
    }
  }
}

=== FILE: site_search.dfy ===
/** Choosing where the pit goes.

    The requested centre `c` is the air block just above the ground. Each
    candidate centre `(bx, c.y, bz)` in the window `bx` in `[c.x-3, c.x+2]`,
    `bz` in `[c.z-3, c.z+2]` (six values per axis, one more below the centre
    than above it) is clear when its 9 x 9 column from the pit floor `minY`
    up to one above the surface is solid exactly below the surface. */
module SiteSearch {
  import opened Positions
  import opened Lists

  /** The pit floor lies four or five blocks below the surface; the draw is
      `nextInt(2)`. */
  function PitFloor(surfaceY: int, depthDraw: int): (minY: int)
    requires 0 <= depthDraw <= 1
    ensures minY == surfaceY - 4 || minY == surfaceY - 5
    ensures minY + 1 < surfaceY
  {
    surfaceY - (4 + depthDraw)
  }

  /** The 9 x 9 column around `(bx, bz)`, from `minY` to `surfaceY + 1`, is
      solid exactly at the levels below `surfaceY`. */
  predicate ColumnClear(solid: Pos -> bool, bx: int, bz: int, surfaceY: int, minY: int) {
    forall x, z, y | bx - 4 <= x <= bx + 4 && bz - 4 <= z <= bz + 4 && minY <= y <= surfaceY + 1 ::
      (y >= surfaceY) != solid(Pos(x, y, z))
  }

  /** `p` is one of the 36 candidate centres around `c`. */
  predicate IsCandidate(c: Pos, p: Pos) {
    c.x - 3 <= p.x < c.x + 3 && c.z - 3 <= p.z < c.z + 3 && p.y == c.y
  }

  /** No candidate centre around `c` is clear. */
  predicate NoClearSite(solid: Pos -> bool, c: Pos, minY: int) {
    forall bx, bz | c.x - 3 <= bx < c.x + 3 && c.z - 3 <= bz < c.z + 3 ::
      !ColumnClear(solid, bx, bz, c.y, minY)
  }

  // ---------------------------------------------------------------------
  // The scan as written: one reused mutable position.
  // ---------------------------------------------------------------------

  /** What the scan keeps between candidates: the one mutable position it
      reuses, and how many entries its result list holds. Every entry of
      that list is the same reused object, so only the count matters. */
  datatype Cursor = Cursor(pos: Pos, found: nat)

  /** Where the reused position is left after visiting candidate `(bx, bz)`:
      the innermost loops end on their last cell `(bx+4, surface+1, bz+4)`,
      and a clear candidate then moves it to `(bx, surface, bz)`. */
  function LeftAt(solid: Pos -> bool, c: Pos, minY: int, bx: int, bz: int): Pos {
    if ColumnClear(solid, bx, bz, c.y, minY) then Pos(bx, c.y, bz)
    else Pos(bx + 4, c.y + 1, bz + 4)
  }

  function Visit(solid: Pos -> bool, c: Pos, minY: int, bx: int, bz: int, cur: Cursor): Cursor {
    Cursor(LeftAt(solid, c, minY, bx, bz),
           if ColumnClear(solid, bx, bz, c.y, minY) then cur.found + 1 else cur.found)
  }

  /** The inner candidate loop over `bz` for one `bx`. */
  function ScanRow(solid: Pos -> bool, c: Pos, minY: int, bx: int, bz: int, cur: Cursor): (r: Cursor)
    requires c.z - 3 <= bz <= c.z + 3
    ensures r.found >= cur.found
    ensures r.found == cur.found <==>
      forall z | bz <= z < c.z + 3 :: !ColumnClear(solid, bx, z, c.y, minY)
    ensures bz < c.z + 3 ==> r.pos == LeftAt(solid, c, minY, bx, c.z + 2)
    decreases c.z + 3 - bz
  {
    if bz == c.z + 3 then cur
    else ScanRow(solid, c, minY, bx, bz + 1, Visit(solid, c, minY, bx, bz, cur))
  }

  /** The outer candidate loop over `bx`. */
  function ScanWindow(solid: Pos -> bool, c: Pos, minY: int, bx: int, cur: Cursor): (r: Cursor)
    requires c.x - 3 <= bx <= c.x + 3
    ensures r.found >= cur.found
    ensures r.found == cur.found <==>
      forall x, z | bx <= x < c.x + 3 && c.z - 3 <= z < c.z + 3 :: !ColumnClear(solid, x, z, c.y, minY)
    ensures bx < c.x + 3 ==> r.pos == LeftAt(solid, c, minY, c.x + 2, c.z + 2)
    decreases c.x + 3 - bx
  {
    if bx == c.x + 3 then cur
    else
      var row := ScanRow(solid, c, minY, bx, c.z - 3, cur);
      ScanWindow(solid, c, minY, bx + 1, row)
  }

  /** The site search exactly as written. Every clear candidate adds the same
      mutable position to the result list, so whichever entry is drawn, the
      result is the value that position holds when the scan ends: the last
      candidate `(c.x+2, c.z+2)` if it is clear, and otherwise the last cell
      of its column check, `(c.x+6, c.y+1, c.z+6)`, which is not a candidate
      at all. The entry draw cannot change the result and is not an input. */
  function FindSuitablePositionAsWritten(solid: Pos -> bool, c: Pos, minY: int): (r: Option<Pos>)
    ensures r.None? <==> NoClearSite(solid, c, minY)
    ensures r.Some? && ColumnClear(solid, c.x + 2, c.z + 2, c.y, minY) ==>
      r.value == Pos(c.x + 2, c.y, c.z + 2)
    ensures r.Some? && !ColumnClear(solid, c.x + 2, c.z + 2, c.y, minY) ==>
      r.value == Pos(c.x + 6, c.y + 1, c.z + 6)
  {
    var cur := ScanWindow(solid, c, minY, c.x - 3, Cursor(c, 0));
    if cur.found > 0 then Some(cur.pos) else None
  }

  /** On flat ground with one non-solid underground column at x = 6, most
      candidates around the origin are clear but the last one is not, and
      the scan as written returns a position that is not a candidate and
      sits above the surface. */
  lemma AliasedResultCanBeUnclear()
    ensures var solid := (p: Pos) => p.y < 0 && p.x != 6;
      && !NoClearSite(solid, Pos(0, 0, 0), -4)
      && FindSuitablePositionAsWritten(solid, Pos(0, 0, 0), -4) == Some(Pos(6, 1, 6))
      && !IsCandidate(Pos(0, 0, 0), Pos(6, 1, 6))
  {
    var solid := (p: Pos) => p.y < 0 && p.x != 6;
    assert ColumnClear(solid, -3, -3, 0, -4);
    assert !ColumnClear(solid, 2, 2, 0, -4) by {
      assert (-1 >= 0) == solid(Pos(6, -1, 2));
    }
  }

  // ---------------------------------------------------------------------
  // The search as documented: one of the clear candidates.
  // ---------------------------------------------------------------------

  /** The clear candidates `(bx, c.y, bz)` with `bz` from `bz0` on, in scan order. */
  function ClearInRow(solid: Pos -> bool, c: Pos, minY: int, bx: int, bz0: int): (r: seq<Pos>)
    requires c.z - 3 <= bz0 <= c.z + 3
    ensures forall p :: p in r <==>
      p.x == bx && p.y == c.y && bz0 <= p.z < c.z + 3 && ColumnClear(solid, bx, p.z, c.y, minY)
    decreases c.z + 3 - bz0
  {
    if bz0 == c.z + 3 then []
    else
      (if ColumnClear(solid, bx, bz0, c.y, minY) then [Pos(bx, c.y, bz0)] else [])
      + ClearInRow(solid, c, minY, bx, bz0 + 1)
  }

  /** The clear candidates with `bx` from `bx0` on, in scan order. */
  function ClearInWindow(solid: Pos -> bool, c: Pos, minY: int, bx0: int): (r: seq<Pos>)
    requires c.x - 3 <= bx0 <= c.x + 3
    ensures forall p :: p in r <==>
      bx0 <= p.x && IsCandidate(c, p) && ColumnClear(solid, p.x, p.z, c.y, minY)
    decreases c.x + 3 - bx0
  {
    if bx0 == c.x + 3 then []
    else ClearInRow(solid, c, minY, bx0, c.z - 3) + ClearInWindow(solid, c, minY, bx0 + 1)
  }

  /** The site search as its documentation describes it: one of the clear
      candidates, drawn uniformly, or nothing when none is clear. */
  function FindSuitablePosition(solid: Pos -> bool, c: Pos, minY: int, pick: nat -> nat): (r: Option<Pos>)
    requires Picker(pick)
    ensures r.None? <==> NoClearSite(solid, c, minY)
    ensures r.Some? ==> IsCandidate(c, r.value) && ColumnClear(solid, r.value.x, r.value.z, c.y, minY)
  {
    var clear := ClearInWindow(solid, c, minY, c.x - 3);
    if |clear| == 0 then
      forall bx, bz | c.x - 3 <= bx < c.x + 3 && c.z - 3 <= bz < c.z + 3
        ensures !ColumnClear(solid, bx, bz, c.y, minY)
      {
        assert Pos(bx, c.y, bz) !in clear;
      }
      None
    else
      assert clear[0] in clear;
      Some(clear[pick(|clear|)])
  }
}

=== FILE: terrain.dfy ===
/** What the enclosure generator reads from and writes to the world.

    The world is read through one immutable predicate `solid`, true where
    the block there is an opaque cube. Everything the generator does to the world
    is recorded, in order, as a log of events. */
module Terrain {
  import opened Positions

  /** The blocks the generator places. */
  datatype Block = CoarseDirt | Grass | DeadBush | Air | SpruceFence

  /** One write or spawn. Mob positions name the block column they stand in;
      the engine centres creepers and creepies in it. */
  datatype Event =
    | SetBlock(at: Pos, block: Block)
    | SpawnCreeper(at: Pos)
    | SpawnCreepie(at: Pos, attackPlayersOnly: bool)
    | SpawnGriefer(at: Pos)
    | UpdateNeighbours(at: Pos)

  /** A single surface cell is clear when it is not solid and the block
      below it is. */
  predicate SurfaceClear(solid: Pos -> bool, p: Pos) {
    !solid(p) && solid(Down(p))
  }

  /** Every position in the list lies on level `y`. */
  predicate AllAt(s: seq<Pos>, y: int) {
    forall i :: 0 <= i < |s| ==> s[i].y == y
  }

  /** Whether a placed block is an opaque cube: of the blocks the generator
      places, only coarse dirt is. */
  predicate Opaque(b: Block) {
    b == CoarseDirt
  }

  /** `log` writes no block at `p`. */
  predicate Untouched(log: seq<Event>, p: Pos) {
    forall i :: 0 <= i < |log| && log[i].SetBlock? ==> log[i].at != p
  }

  /** The world after the block writes of `log`, in order. */
  function After(solid: Pos -> bool, log: seq<Event>): Pos -> bool {
    if |log| == 0 then solid
    else
      var prev := After(solid, log[..|log| - 1]);
      var ev := log[|log| - 1];
      if ev.SetBlock? then (p: Pos) => if p == ev.at then Opaque(ev.block) else prev(p)
      else prev
  }

  /** A cell no event writes keeps its old state. */
  lemma {:induction false} AfterUntouched(solid: Pos -> bool, log: seq<Event>, p: Pos)
    requires Untouched(log, p)
    ensures After(solid, log)(p) == solid(p)
  {
    if |log| > 0 {
      var init := log[..|log| - 1];
      assert Untouched(init, p) by {
        forall i | 0 <= i < |init| && init[i].SetBlock? ensures init[i].at != p {
          assert init[i] == log[i];
        }
      }
      AfterUntouched(solid, init, p);
    }
  }

  /** A written cell holds the last block written to it. */
  lemma {:induction false} AfterLastWrite(solid: Pos -> bool, log: seq<Event>, i: nat)
    requires i < |log| && log[i].SetBlock?
    requires Untouched(log[i + 1..], log[i].at)
    ensures After(solid, log)(log[i].at) == Opaque(log[i].block)
  {
    var init := log[..|log| - 1];
    if i < |log| - 1 {
      assert log[|log| - 1] == log[i + 1..][|log| - 2 - i];
      var rest, later := init[i + 1..], log[i + 1..];
      assert Untouched(rest, log[i].at) by {
        forall j | 0 <= j < |rest| && rest[j].SetBlock? ensures rest[j].at != log[i].at {
          assert rest[j] == later[j];
        }
      }
      assert init[i] == log[i];
      AfterLastWrite(solid, init, i);
    }
  }
}
